=== FILE: README.md ===
# legal-mvp retrieval and grounding core, in Dafny

This project is a functional model of the core of legal-mvp, a
retrieval-augmented question-answering service for Indian law, with proofs
about that model. The service works like this:

- **Ingest.** Uploaded documents are split into sentences and packed into
  overlapping chunks of about 450 tokens. Each chunk is tagged with a guessed
  corpus (BNS, BNSS, BSA, Constitution, Judgments), embedded in batches of 64,
  and upserted into a vector store.
- **Query.**
  - A question is routed to a corpus by a `section`/`article` reference or by
    keywords, and rewritten with boost phrases.
  - The rewritten question is embedded and searched, and the hits are
    de-duplicated and cut to `TOP_K`.
  - The hits are numbered as snippets, and a two-message prompt is sent to the
    chat model.
  - If the answer is not JSON, it gets one repair round. It is then checked
    against the `AnswerJSON` schema.
- **User interface.** The Streamlit front end styles the question, turns
  `[n]` markers into superscripts, keeps a history and trims citations for
  display.

External services are parameters:
- the embedding model;
- the vector search;
- the chat model;
- the JSON parser;
- language detection;
- the document extractors;
- the backend as seen from the front end.

Each handler returns the calls it makes on those services as a trace, so the
contracts can say what was embedded, searched, upserted and asked.

Modules follow the source files:

| module | file | models |
|---|---|---|
| `Outcomes` | `outcomes.dfy` | `Option` / `Result` |
| `Strings` | `strings.dfy` | Python string semantics: `strip`, `isspace`, `split`, `lower` (ASCII), `str(int)`, zero padding, `in` on strings |
| `Corpora` | `corpora.dfy` | corpus names and the priority-ordered keyword bands shared by the chunker and the router |
| `Sentences` | `sentences.dfy` | `SENT_SPLIT` and the greedy packing loop of `chunk_page` |
| `Chunker` | `chunker.dfy` | `chunk_page` records, chunk ids, `guess_corpus` |
| `Decision` | `decision.dfy` | `decision_agent` with hand-written leftmost scanners for `SEC_RE` and `ART_RE`, `normalize_code`, `looks_like_case`, `rewrite_query` |
| `DecisionExamples` | `decision_examples.dfy` | the router on concrete questions |
| `Pack` | `pack.dfy` | `build_snippets` |
| `Dedup` | `dedup.dfy` | the first-occurrence dedup loop of the query handler |
| `Indexer` | `indexer.dfy` | `index_chunks` batching, point construction, and the store as an id-keyed map |
| `Prompt` | `prompt.dfy` | `SYS`, `USR_TMPL` rendering, `build_messages` |
| `Repair` | `repair.dfy` | `parse_or_repair` |
| `Schemas` | `schemas.dfy` | `Citation` / `AnswerJSON` validation of a parsed JSON value |
| `Ingest` | `ingest.dfy` | the two `/ingest` handlers (`app.py` and `app_backup.py`) |
| `Query` | `query.dfy` | the `/query` handler |
| `Ui` | `ui.dfy` | `superscript_markers`, `build_query`, submission and history, citation trimming |

Point ids are the chunk ids (`ingest/index.py:12`). In the model's id-keyed
map this makes re-indexing idempotent (`Indexer.ReindexIdempotent`); the real
store validates ids, see "Left out".

`app_backup.py:10` imports `extract_text_pdf_bytes`, `extract_text_docx_bytes`
and `extract_text_txt_bytes` from `ingest.extract`. That module
(`ingest/extract.py:7-30`) defines only the path-based extractors. The bytes
versions live in `ingest/extract_backup.py:17-35`. The model does not depend
on this, since both handlers take the extractor as a parameter.

## Model

| member | source | states |
|---|---|---|
| Strings.Strip | ingest/chunk.py:7 | `str.strip()` yields a string with no whitespace at either end and no longer than its input |
| Strings.StripKeepsContent | ingest/chunk.py:7 | stripping never removes a non-whitespace character |
| Strings.StripEmptyIffAllSpace | app.py:60-61 | a string strips to `""` exactly when it is all whitespace, which is what the empty-query guard tests |
| Strings.Normalize | retrieve/pack.py:5 | `strip().replace("\n", " ")` leaves no newline, no outer whitespace, and all non-whitespace characters in order |
| Strings.NormalizeIdempotent | retrieve/pack.py:5 | normalising displayed text twice is normalising it once |
| Strings.ZeroPad | ingest/chunk.py:36 | `{idx:03d}` is all digits, at least 3 wide, and reads back as `idx` |
| Strings.IntRoundTrip | ingest/chunk.py:36 | `str(page)` parses back to `page`, negative pages included |
| Strings.WordCountZeroIffBlank | ingest/chunk.py:10-11 | `x.split()` is empty exactly when `x` is all whitespace |
| Strings.OneWord | ingest/chunk.py:10-11 | a non-empty run without whitespace is one word |
| Strings.WordCountJoin | ingest/chunk.py:10-11 | a whitespace character separates words: the count of `a + c + b` is the count of `a` plus the count of `b` |
| Strings.WordCountOfWords | ingest/chunk.py:10-11 | words joined by single spaces count as many as there are words, so the count is the number of maximal non-whitespace runs |
| Strings.Lower | retrieve/decision.py:15 | lower-casing keeps length and maps each character independently |
| Corpora.FirstHitFrom | ingest/chunk.py:46-56 | the first band, in order, with a keyword in the text, and no earlier band matches; none only when no band matches |
| Sentences.SplitSentences | ingest/chunk.py:4-7 | every sentence is non-empty and stripped |
| Sentences.SplitKeepsContent | ingest/chunk.py:4 | splitting at whitespace after `.`, `?` or `!` loses only that whitespace |
| Sentences.SplitCutsFrom | ingest/chunk.py:4 | scanning from a point that is not itself a boundary, the pieces and the consumed whitespace runs interleave back to the scanned text, and the first piece starts where the scan starts |
| Sentences.SplitCuts | ingest/chunk.py:4-7 | the pieces `re.split` makes of a page, interleaved with the whitespace runs it consumes, give back the page; each run is non-empty whitespace, every piece but the last ends in `.`, `?` or `!`, and every piece after the first is empty or starts with non-whitespace |
| Sentences.CleanKeepsContent | ingest/chunk.py:7 | stripping the pieces and dropping blank ones keeps every non-whitespace character |
| Sentences.SentencesOfPage | ingest/chunk.py:4-7 | the sentences hold exactly the page's non-whitespace text, none contains a split point, and there are none exactly when the page is blank |
| Sentences.Tokens | ingest/chunk.py:10-11 | `max(1, len(x.split()))`: at least 1, exactly 1 when there is at most one word, and the word count whenever there is a word |
| Sentences.TokensOfWords | ingest/chunk.py:10-11 | a blank sentence costs one token, and words joined by spaces cost one token each |
| Sentences.PackFrom | ingest/chunk.py:13-22 | the emitted spans are contiguous sentence runs, each starting at the previous run's carried-over tail, closed only when the next sentence would pass the target, and within the target past the carried-over sentence; a chunk that carried nothing in keeps every prefix of two or more sentences within the target |
| Sentences.PackTexts | ingest/chunk.py:13-22 | chunk text k is the `" "`-join of the sentences of span k |
| Sentences.ChunkIsSentenceRun | ingest/chunk.py:13-22 | every chunk is the join of a non-empty contiguous run of sentences, so no sentence is ever split |
| Sentences.PackCovers | ingest/chunk.py:13-22 | every sentence index lies in some span |
| Sentences.SentenceInSomeChunk | ingest/chunk.py:13-22 | every sentence occurs as a substring of some chunk |
| Sentences.OverlapOne | ingest/chunk.py:16-18 | with one overlap sentence, each span after the first starts at the last sentence of the previous span |
| Sentences.OverlapOnText | ingest/chunk.py:16-18 | that carried sentence ends the previous chunk text and starts the next |
| Sentences.ChunkOverlap | ingest/chunk.py:16-18 | each chunk after the first starts with some sentence that ends the chunk before it |
| Sentences.PackSizeBound | ingest/chunk.py:10-19 | a chunk over the token target holds at most the carried sentence plus one new one, and the first chunk, which carries nothing in, is over the target only when it is a single sentence |
| Sentences.ChunksOfBlankPage | ingest/chunk.py:7-22 | a page yields no chunk texts exactly when it is all whitespace |
| Chunker.ChunkIdRoundTrip | ingest/chunk.py:36 | the id `doc:page:NNN` splits back at its last two colons into document, page and index, whatever colons the document name holds |
| Chunker.ChunkIdInjective | ingest/chunk.py:36 | distinct (document, page, index) triples get distinct ids |
| Chunker.MakeChunk | ingest/chunk.py:25-40 | the record carries the document, page, index and text. Its id parses back to them, its corpus is the guessed one, and its language is `"en"` when detection fails |
| Chunker.ChunkPage | ingest/chunk.py:6-41 | one record per packed chunk text, in emission order, with `chunk_index` k for the k-th |
| Chunker.ChunkIdsDistinct | ingest/chunk.py:25-36 | no two chunks of a page share an id |
| Chunker.BlankPageNoChunks | ingest/chunk.py:7-22 | a page gives no chunks exactly when it is blank |
| Chunker.EverySentenceChunked | ingest/chunk.py:7-22 | every sentence of the page occurs in some chunk's text |
| Chunker.GuessCorpus | ingest/chunk.py:44-56 | Unknown exactly when no band matches the lower-cased name plus the first 200 characters; otherwise the corpus of the first matching band, in the order BNS, BNSS, BSA, Constitution, Judgments |
| Chunker.BnssTaggedBns | ingest/chunk.py:46-49 | a key containing "bnss" is always tagged BNS, never BNSS |
| Chunker.BnssNameTaggedBns | ingest/chunk.py:45-49 | a document whose name contains "bnss" in any case is tagged BNS |
| Chunker.NoCueUnknown | ingest/chunk.py:56 | with no keyword of any band in the key, the corpus is Unknown |
| Decision.FirstPrefixFirst | retrieve/decision.py:3 | an alternation takes the first alternative, in written order, that the text starts with, and takes none exactly when the text starts with none of them |
| Decision.Tail | retrieve/decision.py:3-4 | after the keyword, `\s*(\d+[A-Za-z]?)` matches exactly when a digit follows the whitespace; the number starts with a digit and the code is one of the listed codes |
| Decision.TailGroups | retrieve/decision.py:3-4 | what `Tail` reads are groups 2 and 3 as the regex takes them: the number starts where the whitespace run ends, holds the whole digit run, and takes a trailing ASCII letter exactly when one follows; the code is the first listed code that the text after the number and its whitespace starts with, and there is none exactly when it starts with none |
| Decision.TailExact | retrieve/decision.py:3-4 | `Tail` returns a reading exactly when that reading satisfies the regex's group rules, so the groups after a keyword are unique |
| Decision.GroupsDetermined | retrieve/decision.py:3-4 | two readings that both satisfy the group rules after the same keyword are equal |
| Decision.NumberFromTaken | retrieve/decision.py:3-4 | the greedy scan for `\d+[A-Za-z]?` yields a number the regex takes |
| Decision.NumberLength | retrieve/decision.py:3-4 | any number the regex can take at a position ends where the greedy scan ends |
| Decision.CodeAtTaken | retrieve/decision.py:3-4 | the code scan returns the first listed code present, and nothing exactly when none is |
| Decision.FirstFitIndexFirst | retrieve/decision.py:3-4 | the keyword taken is the first alternative followed by whitespace and a digit; none is taken exactly when no alternative fits |
| Decision.MatchAt | retrieve/decision.py:3-4 | a match at a position starts there with a listed keyword, its number starts with a digit, its code is a listed code, and both are what `Tail` reads right after the keyword |
| Decision.MatchFirst | retrieve/decision.py:3-4 | there is a match at a position exactly when some keyword fits there, and its keyword is the first one that fits |
| Decision.ReadAtGroups | retrieve/decision.py:3-4 | the number and code of every match are groups 2 and 3 as the regex takes them after its keyword |
| Decision.Search | retrieve/decision.py:16 | `re.search` returns a match that the pattern really has at the returned start position |
| Decision.SearchLeftmost | retrieve/decision.py:16 | no position before the returned match has a match, and `None` means no position has one |
| Decision.NormalizeCode | retrieve/decision.py:6-9 | ipc/bns map to BNS, crpc/bnss to BNSS, iea/bsa to BSA, in any case, and nothing else maps |
| Decision.FallbackCode | retrieve/decision.py:11-30 | none exactly when no keyword band matches; otherwise the first band in BNS, BNSS, BSA, Constitution, case-law order |
| Decision.Decide | retrieve/decision.py:14-33 | there is a filter exactly when a code was resolved, the filter requires `corpus` to equal that code's name, and there is at most one boost |
| Decision.RewriteQuery | retrieve/decision.py:35-36 | with no boosts the result is the original; otherwise it is the boosts joined by spaces, then the double-bar separator, then the original |
| Decision.RewriteOneBoost | retrieve/decision.py:35-36 | a single boost gives the boost, the double-bar separator and the original |
| Decision.RewriteOfRoute | retrieve/decision.py:33-36 | the rewritten query of a routed question is the question itself when the route has no boost, and the boost, the double-bar separator and the question otherwise |
| Decision.SectionWins | retrieve/decision.py:16-25 | a section reference anywhere beats an article reference. The boost is `Section <num> <code>`, with `None` for an unrecognised code, and then the code comes from the keyword fallback |
| Decision.ArticleRoutesToConstitution | retrieve/decision.py:16-23 | with no section reference, an article reference routes to Constitution with the boost `Article <num> Constitution` |
| Decision.NoReferenceFallsBack | retrieve/decision.py:17-30 | with neither reference there are no boosts and the code is the keyword fallback |
| Decision.SectionRoute | retrieve/decision.py:18-33 | a section reference with a recognised code fixes the whole route: filter, boost and code |
| Decision.CaseLawLast | retrieve/decision.py:11-30 | when none of the four statute keyword bands match, the fallback is Judgments exactly when `looks_like_case` holds, and there is no code exactly when it does not |
| Decision.NoKeywordNoMatch | retrieve/decision.py:3-4 | a pattern whose keywords do not occur in the question never matches |
| Decision.BnssCodeReadAsBns | retrieve/decision.py:3 | the code alternation reads "bnss" as "bns", because "bns" is listed first |
| DecisionExamples.Section302Ipc | retrieve/decision.py:3-33 | "section 302 ipc" routes to BNS with the boost "Section 302 BNS" and a BNS corpus filter |
| DecisionExamples.Section437Bnss | retrieve/decision.py:3-9 | "section 437 bnss" captures "bns" and routes to BNS, not BNSS |
| DecisionExamples.Article21 | retrieve/decision.py:4-23 | "article 21" routes to Constitution with the boost "Article 21 Constitution" |
| DecisionExamples.WhatIsBail | retrieve/decision.py:17-33 | "what is bail" gets no filter, no boosts and no code |
| Pack.BuildSnippets | retrieve/pack.py:1-12 | succeeds exactly when every payload has a `doc_name`, and then gives one snippet per point, in order, numbered from 1, with that point's source, page and normalised text cut to 900 |
| Pack.SnippetsNumbered | retrieve/pack.py:3-8 | the i-th snippet has number i+1 and its point's document name |
| Pack.SnippetIsPrefix | retrieve/pack.py:5-10 | the snippet is a prefix of the normalised text, exactly as long as the shorter of that text and 900, so all of it when that fits |
| Pack.SnippetHasNoNewline | retrieve/pack.py:5 | a snippet contains no newline |
| Pack.SnippetDefaults | retrieve/pack.py:5-9 | a missing page gives page 1, and missing text gives an empty snippet |
| Pack.MissingSourceFails | retrieve/pack.py:8 | a payload without `doc_name` makes packing fail |
| Dedup.FirstPositionsExact | app.py:70-75 | the kept positions are exactly the first occurrences of each id, in increasing order |
| Dedup.DedupById | app.py:70-75 | the loop with its `seen_ids` set keeps exactly the first occurrence of every id, in input order |
| Dedup.DedupNoDuplicates | app.py:70-75 | no id is kept twice |
| Dedup.DedupKeepsIds | app.py:70-75 | every id of the input survives |
| Dedup.FirstWithId | app.py:72-75 | every point has a first occurrence of its id at or before it |
| Dedup.TopUnique | app.py:70-77 | at most `TOP_K` points, the first `TOP_K` distinct ones |
| Indexer.Batches | ingest/index.py:8-10 | no batch is empty |
| Indexer.BatchesPartition | ingest/index.py:8-10 | the batches concatenate back to the chunks in order; each holds 1 to 64 chunks, and all but the last hold exactly 64 |
| Indexer.BatchesPrefix | ingest/index.py:9-10 | the first b batches are the first `min(64 b, n)` chunks |
| Indexer.NoChunksNoBatches | ingest/index.py:9 | there are no batches exactly when there are no chunks |
| Indexer.MakePoints | ingest/index.py:12 | `zip` stops at the shorter list; point i has the i-th chunk's id, the i-th vector, and the chunk itself as payload |
| Indexer.PointsCarryBatch | ingest/index.py:12 | with one vector per chunk, the payloads are the batch unchanged |
| Indexer.IndexChunks | ingest/index.py:5-13 | the collection is ensured first; then batch b is embedded on its texts in order and upserted into the fixed collection |
| Indexer.EmptyIndexOnlyEnsures | ingest/index.py:6-9 | no chunks means no embedding and no upsert |
| Indexer.EveryChunkUpserted | ingest/index.py:9-13 | when the embedder returns one vector per text, the upserted payloads are exactly the chunks, in order |
| Indexer.UpsertsKeyedByChunkId | ingest/index.py:12-13 | every upserted point is keyed by its payload's chunk id |
| Indexer.UpsertAppend | ingest/index.py:13 | two upserts in a row act as one upsert of both point lists |
| Indexer.ApplyIsOneUpsert | ingest/index.py:9-13 | the store effect of an index run is the upsert of all its points |
| Indexer.ReindexIdempotent | ingest/index.py:12-13 | in the id-keyed map model of the store, indexing the same chunks twice leaves it as indexing them once |
| Prompt.Line | answer/prompt.py:18 | each snippet line starts with `[` and ends with a newline |
| Prompt.BuildMessages | answer/prompt.py:24-28 | exactly two messages: the constant system prompt, then the user message with the rendered template |
| Prompt.UserContentFrame | answer/prompt.py:13-22 | the user message opens with `Question:\n` and the question and closes with `Return JSON only.`; the system message depends on neither input |
| Prompt.LinesInOrder | answer/prompt.py:17-19 | the line `[n] (source, p.page): snippet` of each snippet sits right after those of the snippets before it |
| Prompt.NoSnippetsMessage | answer/prompt.py:13-22 | with no snippets the user message is the question between the fixed header and footer |
| Repair.RepairRequest | answer/validate.py:4-14 | the repair call sends `REPAIR_SYS`, then `REPAIR_USER` with the raw text in place of `{}`, with a 900-token limit |
| Repair.ParseOrRepair | answer/validate.py:7-15 | a parsable answer is returned with no call; otherwise one repair request is made and its reply's parse is the result |
| Repair.AtMostOneRepair | answer/validate.py:8-14 | there is at most one repair call, and exactly one when the raw answer does not parse |
| Repair.RepairSucceedsIff | answer/validate.py:8-15 | the result is a value exactly when the raw answer or its single repair parses; there is no second retry |
| Repair.NoRepairOnSuccess | answer/validate.py:8-9 | with a parsable answer the chat model cannot influence the outcome |
| Schemas.StrField | core/schemas.py:5-11 | a required `str` field is accepted exactly when present as a string |
| Schemas.PageField | core/schemas.py:6 | an absent page is 1; a present page must be an integer |
| Schemas.ValidateCitation | core/schemas.py:4-7 | a citation validates exactly when it is an object with string `source`, string `snippet` and a valid page, and yields those values |
| Schemas.ValidateCitations | core/schemas.py:12 | a list validates exactly when each item does, item by item |
| Schemas.ValidateAnswer | core/schemas.py:9-12 | `AnswerJSON(**data)` succeeds exactly when the data is an object with string `query` and `answer` and a `citations` list whose every item validates; the record then carries those strings and those citations, item by item |
| Schemas.AnswerRoundTrip | core/schemas.py:4-12 | every answer record written as JSON validates back to itself, the empty citation list included |
| Schemas.PageDefaultsToOne | core/schemas.py:6 | a citation without a page validates with page 1 |
| Schemas.CitationNeedsSourceAndSnippet | core/schemas.py:4-7 | a citation missing `source` or `snippet` is rejected |
| Schemas.AnswerNeedsFields | core/schemas.py:9-12 | an answer missing `query`, `answer` or `citations` is rejected |
| Schemas.ExtraKeysIgnored | core/schemas.py:9-12 | keys other than the three fields do not change the verdict |
| Schemas.MarkersNotChecked | core/schemas.py:9-12 | the schema does not tie `[n]` markers in the answer to the citations |
| Ingest.KindBySuffix | app.py:43-48 | `.pdf` and `.docx` are recognised in any case, and every other name is read as text |
| Ingest.KindIgnoresCase | app.py:43-45 | the dispatch does not depend on the case of the name |
| Ingest.FileChunksPages | app.py:50-51 | the records of one file are the `chunk_page` records of each of its pages, in page order |
| Ingest.CollectAllOk | app.py:36-51 | the handler gets past extraction exactly when every file extracts |
| Ingest.CollectAllChunks | app.py:36-51 | when it gets past extraction, the chunks are, file after file, the page chunker's records for every page the suffix-chosen extractor returned for that file |
| Ingest.IngestSimple | app.py:33-56 | the reply counts the files and the chunks, reports the vectors indexed as the chunk count, and indexes exactly the chunks of every file in upload order |
| Ingest.Extension | app_backup.py:40 | the extension is the lower-cased text after the last dot, has no dot, and is the whole lower-cased name when there is no dot |
| Ingest.ExtensionOfName | app_backup.py:40 | `stem.ext` has extension `ext` lower-cased |
| Ingest.DotlessName | app_backup.py:40-49 | a dotless unsupported name is a per-file error naming it, though the `app.py` handler would read it as text |
| Ingest.IngestReport | app_backup.py:34-64 | `files_received` and `chunks_indexed` are the counts; `index_chunks` runs exactly when there are chunks, and then on the chunks of every file that read, in order; `errors` holds one entry per failing file, in order; the status is 400 exactly when there are no chunks and no errors, else 200 |
| Ingest.ChunksPerFile | app_backup.py:36-55 | file by file, the collected chunks are those of each file that read, and none of a file that failed |
| Ingest.ErrorsPerFile | app_backup.py:36-55 | one failure does not stop the loop: file by file, the errors are one entry per failing file, naming it and carrying its message |
| Ingest.NoErrorsIffAllRead | app_backup.py:36-55 | the error list is empty exactly when every file reads |
| Query.QueryText | app.py:60 | an absent query is `""`, a string is stripped, and any other value raises |
| Query.HandleQuery | app.py:58-92 | a non-string `query` raises and an empty one gets a 400, both before any service call. Any other question is handled as `Query.Answer` states. At most four calls are made, and a 200 or HTML reply carries a validated answer |
| Query.Answer | app.py:64-92 | the rewritten question is embedded first. With no vector back, the handler raises after that single call. Otherwise the second call searches near the first vector for `3*TOP_K` hits under the routed filter, and the rest is as `Query.Respond` states for those hits |
| Query.Respond | app.py:69-92 | if a hit among the first `TOP_K` distinct ones lacks `doc_name`, the handler raises with no call. Otherwise it sends the answer request built from the question and those hits, then the repair request exactly when the answer does not parse. A second parse failure raises. A validation failure is a 500 carrying the error and the raw answer. A valid answer is returned as HTML when asked for, else as a 200 with the data |
| Query.AtMostTopKSnippets | app_backup.py:77-85 | at most `TOP_K` snippets reach the prompt, with pairwise distinct ids |
| Ui.Scan | streamlit_app.py:129 | every marker the scan finds is a non-empty run of digits |
| Ui.SuperscriptMarkers | streamlit_app.py:127-129 | a missing answer renders as `""` |
| Ui.ScanLossless | streamlit_app.py:129 | the scan's pieces reassemble to the input |
| Ui.MarkerEndAtBracket | streamlit_app.py:129 | the `\d+` run of a `[digits]` reference at the front stops exactly at its `]` |
| Ui.ScanRef | streamlit_app.py:129 | a `[digits]` reference at the front, whatever follows it, is one marker, and scanning resumes after its `]` |
| Ui.SuperscriptRef | streamlit_app.py:129 | a `[digits]` reference at the front becomes `<sup>[digits]</sup>` and the substitution continues on the rest |
| Ui.SuperscriptPlain | streamlit_app.py:129 | a character that does not open a `[digits]` reference is copied unchanged and the substitution continues after it; with `Ui.SuperscriptRef` this fixes the output on every text |
| Ui.MarkersIffRefs | streamlit_app.py:129 | the scan finds a marker exactly when the text contains a `[digits]` reference at some position |
| Ui.RenderLength | streamlit_app.py:129 | each marker adds exactly the 11 characters of `<sup>` and `</sup>` |
| Ui.UnchangedIffNoMarker | streamlit_app.py:129 | the text comes back unchanged exactly when the scan finds no marker, and exactly when the text contains no `[digits]` reference at any position |
| Ui.NoBracketUnchanged | streamlit_app.py:129 | text without `[` is unchanged |
| Ui.AdjacentMarkers | streamlit_app.py:128-129 | `[1][2]`-style adjacent markers become two superscripts |
| Ui.NonNumericUnchanged | streamlit_app.py:129 | `[]` and `[a]` are not markers |
| Ui.Hint | streamlit_app.py:133-136 | the concise hint is chosen exactly for the style "Summary", and every other style gets the detailed hint |
| Ui.BuildQuery | streamlit_app.py:131-136 | the sent text is the stripped question followed by the style hint |
| Ui.StyledQueryReachesBackend | streamlit_app.py:194-198 | a question that is not blank, once styled, passes the backend's empty-query guard unchanged |
| Ui.Submit | streamlit_app.py:194-235 | a blank question sends nothing and keeps the history. The history changes only on a 200 reply with a truthy JSON body, and then by inserting the stripped question's entry at the front |
| Ui.SubmitKeepsAnswer | streamlit_app.py:228-243 | after a successful submission the latest card shows that reply, and the older history follows it |
| Ui.Latest | streamlit_app.py:240-242 | the latest card exists exactly when the history is not empty, and is its first entry |
| Ui.Older | streamlit_app.py:304-306 | the history list shows entries 1 to 4, in order |
| Ui.OlderAfterAnswer | streamlit_app.py:304-306 | after a new answer, the history list shows the four most recent earlier answers |
| Ui.Cut | streamlit_app.py:268-269 | at most 601 characters; exactly 601 when the text is longer than 600; starts with the first 600 characters |
| Ui.CutKeepsHead | streamlit_app.py:268-269 | short text is kept whole; longer text becomes its first 600 characters plus an ellipsis |
| Ui.DisplayOneLine | streamlit_app.py:267-269 | a displayed citation snippet has no newline |
| Ui.DisplayKeepsContent | streamlit_app.py:267-269 | a snippet whose stripped, newline-replaced form is at most 600 characters keeps all its non-space characters; a longer one shows the first 600 characters of that form followed by an ellipsis |
| Ui.DisplayOfCleanSnippet | streamlit_app.py:267-269 | a stripped, one-line snippet of at most 600 characters is shown as is |

## Left out

- Text extraction (PDF, DOCX, OCR, text decoding) is the `Extractor` parameter. Temporary files and `Path(...).name` are left out, and the upload name is taken as given.
- The embedding, search and chat services and `json.loads` are parameters. Vectors are `seq<real>`; similarity ranking and float precision are not modelled, and search returns any sequence of points.
- Language detection is a parameter whose failure (`None`) stands for the exception that `chunk_page` swallows.
- `report/render.py` (the HTML report) is not part of this model; an HTML reply carries the validated data only.
- FastAPI routing, Streamlit rendering, CSS, HTTP calls, logging, request ids and latency timers are left out. The latency is a parameter of `Ui.Submit`.
- Configuration: `TOP_K` is a parameter (default 8 in `Query.DefaultTopK`), and the other environment settings are not used by the core.
- The scripts and `test_ingest.py` are manual tools and are left out.
- Strings.Lower: lower-cases ASCII letters only, whereas Python's `str.lower` also maps other Unicode capitals.
- Decision.Tail: `\d` and `[A-Za-z]` are ASCII only, whereas Python's `\d` also accepts other Unicode digits. The keywords, codes and `[A-Za-z]` also match ASCII letters only, whereas Python's `(?i)` also equates 'ſ' (U+017F) with 's' and 'ı' (U+0131) with 'i', and lets `[A-Za-z]` take 'İ' (U+0130) and 'K' (U+212A); so "ſection 302 ipc" gets a section boost in Python and none in the model, and "section 302ſ" reads the number "302ſ" in Python and "302" in the model.
- Ui.Scan: `\d` is ASCII only, as for `Decision.Tail`.
- Schemas.ValidateAnswer: pydantic coercion is not modelled. A page must be a JSON integer or absent, a string must be a JSON string, and error messages are stand-ins.
- Ui.SuperscriptMarkers: its own ensures cover only the missing answer; the rewriting is stated by `Ui.SuperscriptRef`, `Ui.SuperscriptPlain` and `Ui.MarkersIffRefs`.
- The vector store is modelled as a map from point id to point. Collection creation, vector dimensions and payload indexes are left out.
- Indexer.IndexChunks: an exception from the embedding service or from an upsert is not modelled, so neither is a run that stops after some batches. Every call in the trace succeeds.
- Indexer.ReindexIdempotent: holds for the map model only. The real store accepts only an unsigned integer or a UUID as a point id, so a chunk id such as `a.pdf:1:000` would be rejected there. The model accepts any string as an id.
- Query.HandleQuery: an exception from a service (network, timeout) is not modelled. Only the source's own failures are: an empty embedding list, a payload without `doc_name`, a second parse failure, and a non-string `query`.
- Chunker.GuessCorpus: `text[:200]` counts code points, as Python does; the model's strings are sequences of Dafny characters.
- The system prompt asks for page 0 when a snippet has no page, whereas the schema and the packer default to page 1. The model keeps both constants as written.
- `if num:` in `decision_agent` is always true, because the pattern requires a digit; the model has no branch for it.
- The citation display's defaults for a missing source (`"Unknown"`) and page (`"?"`) are formatting only and are not modelled.

=== FILE: chunker.dfy ===
/** `chunk_page` and `guess_corpus`: a page of text becomes a list of chunk
    records, each a run of whole sentences, with a positional id, a corpus
    tag and a detected language. */
module Chunker {

  import opened Outcomes
  import opened Strings
  import opened Corpora
  import opened Sentences

  /** The defaults `chunk_page` is called with. */
  const TargetTokens: int := 450
  const OverlapSentences: nat := 1

  /** The dictionary `chunk_page` emits for one chunk. */
  datatype Chunk = Chunk(
    docName: string,
    page: int,
    chunkIndex: nat,
    chunkId: string,
    text: string,
    corpus: Corpus,
    lang: string)

  // ---------------------------------------------------------------------
  // chunk ids

  /** `f"{doc_name}:{page}:{idx:03d}"`. */
  function ChunkId(doc: string, page: int, idx: nat): string {
    doc + ":" + IntToDecimal(page) + ":" + ZeroPad(idx, 3)
  }

  datatype IdParts = IdParts(doc: string, page: int, idx: nat)

  /** Reads an id back, splitting at its last two colons (the document name
      may itself contain colons; the page and index never do). */
  function ParseChunkId(id: string): Option<IdParts> {
    match LastIndexOf(id, ':')
    case None => None
    case Some(b) =>
      var head := id[..b];
      var tail := id[b + 1..];
      match LastIndexOf(head, ':')
      case None => None
      case Some(a) =>
        var page := ParseInt(head[a + 1..]);
        if page.Some? && |tail| > 0 && AllDigitsCheck(tail) then
          Some(IdParts(head[..a], page.value, DecimalValue(tail)))
        else None
  }

  predicate NoColon(s: string) {
    forall j | 0 <= j < |s| :: s[j] != ':'
  }

  lemma LastColon(x: string, y: string)
    requires NoColon(y)
    ensures LastIndexOf(x + ":" + y, ':') == Some(|x|)
  {
    var s := x + ":" + y;
    var r := LastIndexOf(s, ':');
    assert s[|x|] == ':';
    forall j | |x| < j < |s| ensures s[j] != ':' {
      assert s[j] == y[j - |x| - 1];
    }
    assert r.Some?;
    assert r.value == |x|;
  }

  lemma DecimalHasNoColon(i: int)
    ensures NoColon(IntToDecimal(i))
  {
    if i < 0 {
      assert IntToDecimal(i) == "-" + NatToDecimal(-i);
      assert forall j :: 1 <= j < |IntToDecimal(i)| ==> IntToDecimal(i)[j] == NatToDecimal(-i)[j - 1];
    }
  }

  /** The page and index can be read back from an id, whatever the
      document name holds. */
  lemma {:induction false} ChunkIdRoundTrip(doc: string, page: int, idx: nat)
    ensures ParseChunkId(ChunkId(doc, page, idx)) == Some(IdParts(doc, page, idx))
  {
    var p := IntToDecimal(page);
    var z := ZeroPad(idx, 3);
    DecimalHasNoColon(page);
    IntRoundTrip(page);
    assert NoColon(z);
    ParseJoined(doc, p, z);
  }

  /** An id made of a name, a colon-free page part and a colon-free digit
      part splits back into those three parts. */
  lemma {:induction false} ParseJoined(doc: string, p: string, z: string)
    requires NoColon(p) && NoColon(z)
    requires ParseInt(p).Some? && |z| > 0 && AllDigitsCheck(z)
    ensures ParseChunkId(doc + ":" + p + ":" + z) == Some(IdParts(doc, ParseInt(p).value, DecimalValue(z)))
  {
    var head := doc + ":" + p;
    var id := doc + ":" + p + ":" + z;
    assert id == head + ":" + z;
    LastColon(head, z);
    assert id[..|head|] == head && id[|head| + 1..] == z;
    LastColon(doc, p);
    assert head[..|doc|] == doc && head[|doc| + 1..] == p;
  }

  /** Distinct positions get distinct ids. */
  lemma ChunkIdInjective(doc: string, page: int, i: nat, doc': string, page': int, j: nat)
    requires ChunkId(doc, page, i) == ChunkId(doc', page', j)
    ensures doc == doc' && page == page' && i == j
  {
    ChunkIdRoundTrip(doc, page, i);
    ChunkIdRoundTrip(doc', page', j);
  }

  // ---------------------------------------------------------------------
  // corpus guess

  /** The bands of `guess_corpus`, in the order they are tried. */
  function ChunkBands(): seq<Band> {
    [ Band(BNS, ["bns", "nyaya", "ipc"]),
      Band(BNSS, ["bnss", "crpc", "procedure"]),
      Band(BSA, ["bsa", "evidence", "iea"]),
      Band(Constitution, ["constitution", "article "]),
      Band(Judgments, [" v. ", "scc", "air ", "judgment", "appeal"]) ]
  }

  /** `(doc_name + " " + text[:200]).lower()`. */
  function CorpusKey(doc: string, text: string): string {
    Lower(doc + " " + Take(text, 200))
  }

  /** `guess_corpus`: the corpus of the first band with a keyword in the
      key, `Unknown` when none has. */
  function GuessCorpus(doc: string, text: string): (r: Corpus)
    ensures var n := CorpusKey(doc, text);
            r == Unknown <==> forall j :: 0 <= j < |ChunkBands()| ==> !AnyIn(ChunkBands()[j].keywords, n)
    ensures var n := CorpusKey(doc, text);
            r != Unknown ==>
              exists j :: 0 <= j < |ChunkBands()| && ChunkBands()[j].corpus == r
                          && AnyIn(ChunkBands()[j].keywords, n)
                          && forall i :: 0 <= i < j ==> !AnyIn(ChunkBands()[i].keywords, n)
  {
    FirstBand(ChunkBands(), CorpusKey(doc, text), Unknown)
  }

  /** "bns" is tried first and occurs in "bnss": anything whose key holds
      "bnss" is tagged BNS, never BNSS. */
  lemma BnssTaggedBns(doc: string, text: string)
    requires Contains(CorpusKey(doc, text), "bnss")
    ensures GuessCorpus(doc, text) == BNS
  {
    ContainsPrefixOfNeedle(CorpusKey(doc, text), "bns", "s");
    assert "bnss" == "bns" + "s";
    assert ChunkBands()[0].keywords[0] == "bns";
  }

  /** The name alone decides the quirk: "BNSS" anywhere in the document
      name tags every chunk of it BNS. */
  lemma BnssNameTaggedBns(doc: string, text: string)
    requires Contains(Lower(doc), "bnss")
    ensures GuessCorpus(doc, text) == BNS
  {
    LowerAppend(doc, " " + Take(text, 200));
    assert doc + " " + Take(text, 200) == doc + (" " + Take(text, 200));
    ContainsInLeft(Lower(doc), Lower(" " + Take(text, 200)), "bnss");
    BnssTaggedBns(doc, text);
  }

  /** A key with no keyword of any band is Unknown. */
  lemma NoCueUnknown(doc: string, text: string)
    requires forall j, i :: 0 <= j < |ChunkBands()| && 0 <= i < |ChunkBands()[j].keywords| ==>
               !Contains(CorpusKey(doc, text), ChunkBands()[j].keywords[i])
    ensures GuessCorpus(doc, text) == Unknown
  {
  }

  // ---------------------------------------------------------------------
  // chunk_page

  /** `lang = "en"; try: lang = detect(c) except: pass`; detection is an
      oracle that either names a language or fails. */
  function Language(detect: string -> Option<string>, c: string): string {
    detect(c).GetOr("en")
  }

  /** The chunk texts of a page under the source's defaults. */
  function PageTexts(text: string): seq<string> {
    ChunkTexts(text, TargetTokens, OverlapSentences)
  }

  /** The record for chunk `idx` of a page, with text `c`. */
  function MakeChunk(docName: string, page: int, idx: nat, c: string, detect: string -> Option<string>)
    : (r: Chunk)
    ensures r.docName == docName && r.page == page && r.chunkIndex == idx && r.text == c
    ensures ParseChunkId(r.chunkId) == Some(IdParts(docName, page, idx))
    ensures r.corpus == GuessCorpus(docName, c)
    ensures detect(c).None? ==> r.lang == "en"
    ensures detect(c).Some? ==> r.lang == detect(c).value
  {
    ChunkIdRoundTrip(docName, page, idx);
    Chunk(docName, page, idx, ChunkId(docName, page, idx), c, GuessCorpus(docName, c), Language(detect, c))
  }

  /** `chunk_page(doc_name, page, text)` with `detect` for langdetect:
      one record per chunk text, numbered in emission order. */
  function ChunkPage(docName: string, page: int, text: string, detect: string -> Option<string>)
    : (r: seq<Chunk>)
    ensures |r| == |PageTexts(text)|
    ensures forall k :: 0 <= k < |r| ==> r[k] == MakeChunk(docName, page, k, PageTexts(text)[k], detect)
  {
    var texts := PageTexts(text);
    seq(|texts|, k requires 0 <= k < |texts| => MakeChunk(docName, page, k, texts[k], detect))
  }

  /** No two chunks of a page share an id. */
  lemma ChunkIdsDistinct(docName: string, page: int, text: string, detect: string -> Option<string>, i: nat, j: nat)
    requires i < j < |ChunkPage(docName, page, text, detect)|
    ensures ChunkPage(docName, page, text, detect)[i].chunkId != ChunkPage(docName, page, text, detect)[j].chunkId
  {
    var r := ChunkPage(docName, page, text, detect);
    assert ParseChunkId(r[i].chunkId) != ParseChunkId(r[j].chunkId);
  }

  /** A page yields chunk records exactly when it holds a non-whitespace
      character. */
  lemma BlankPageNoChunks(docName: string, page: int, text: string, detect: string -> Option<string>)
    ensures ChunkPage(docName, page, text, detect) == [] <==> AllSpace(text)
  {
    ChunksOfBlankPage(text, TargetTokens, OverlapSentences);
  }

  /** Every sentence of the page is in the text of some chunk record. */
  lemma {:induction false} EverySentenceChunked(docName: string, page: int, text: string, detect: string -> Option<string>, j: nat)
    requires j < |SplitSentences(text)|
    ensures var r := ChunkPage(docName, page, text, detect);
            exists k :: 0 <= k < |r| && Contains(r[k].text, SplitSentences(text)[j])
  {
    var sents := SplitSentences(text);
    var texts := PackTexts(sents, TargetTokens, OverlapSentences);
    assert texts == PageTexts(text);
    SentenceInSomeChunk(sents, TargetTokens, OverlapSentences, j);
    var k :| 0 <= k < |texts| && Contains(texts[k], sents[j]);
    var r := ChunkPage(docName, page, text, detect);
    assert r[k].text == texts[k] by {
      assert r[k] == MakeChunk(docName, page, k, texts[k], detect);
    }
    assert 0 <= k < |r| && Contains(r[k].text, sents[j]);
  }
}

=== FILE: corpora.dfy ===
/** The legal corpora a chunk or a query can belong to, and the
    priority-ordered keyword rule both the chunker and the query router use
    to pick one: the first band with a keyword occurring in the text wins. */
module Corpora {

  import opened Outcomes
  import opened Strings

  datatype Corpus = BNS | BNSS | BSA | Constitution | Judgments | Unknown {

    /** The string stored in the chunk payload and matched by the filter. */
    function Name(): string {
      match this
      case BNS => "BNS"
      case BNSS => "BNSS"
      case BSA => "BSA"
      case Constitution => "Constitution"
      case Judgments => "Judgments"
      case Unknown => "Unknown"
    }
  }

  /** One `if any(k in n for k in keywords): return corpus` line. */
  datatype Band = Band(corpus: Corpus, keywords: seq<string>)

  /** Python's `any(k in n for k in keys)`. */
  predicate AnyIn(keys: seq<string>, n: string) {
    exists i | 0 <= i < |keys| :: Contains(n, keys[i])
  }

  /** Index of the first band, from `from` on, with a keyword in `n`. */
  function FirstHitFrom(bands: seq<Band>, n: string, from: nat): (r: Option<nat>)
    requires from <= |bands|
    ensures r.Some? ==> from <= r.value < |bands| && AnyIn(bands[r.value].keywords, n)
                        && forall j :: from <= j < r.value ==> !AnyIn(bands[j].keywords, n)
    ensures r.None? <==> forall j :: from <= j < |bands| ==> !AnyIn(bands[j].keywords, n)
    decreases |bands| - from
  {
    if from == |bands| then None
    else if AnyIn(bands[from].keywords, n) then Some(from)
    else FirstHitFrom(bands, n, from + 1)
  }

  /** The corpus of the first band that matches `n`, else `fallback`. */
  function FirstBand(bands: seq<Band>, n: string, fallback: Corpus): Corpus {
    match FirstHitFrom(bands, n, 0)
    case Some(j) => bands[j].corpus
    case None => fallback
  }
}

=== FILE: decision.dfy ===
/** The query router of `retrieve/decision.py`: a statute reference
    (`section|sec <num><letter?> <code?>`, else `article <num>`) or a keyword
    cue picks a corpus; the router returns boost phrases, a corpus filter and
    the code, and `rewrite_query` prefixes the boosts to the query. */
module Decision {

  import opened Outcomes
  import opened Strings
  import opened Corpora

  // ---------------------------------------------------------------------
  // the two reference patterns

  /** `(kw1|kw2|...)\s*(\d+[A-Za-z]?)\s*(code1|code2|...)?`, searched in a
      query that is already lower-cased. */
  datatype Pattern = Pattern(keywords: seq<string>, codes: seq<string>)

  /** `SEC_RE`. */
  function SecPattern(): Pattern {
    Pattern(["section", "sec"], ["bns", "ipc", "bnss", "crpc", "bsa", "iea"])
  }

  /** `ART_RE`. */
  function ArtPattern(): Pattern {
    Pattern(["article"], ["constitution"])
  }

  /** A match: where it starts, which keyword matched, group 2 (`num`) and
      group 3 (the code, when the optional group took part). */
  datatype RefMatch = RefMatch(start: nat, keyword: string, num: string, code: Option<string>)

  /** Groups 2 and 3 as read after a keyword. */
  datatype Reading = Reading(num: string, code: Option<string>)

  /** Index of the first alternative, from `from` on, that `s` starts with:
      the choice a regex alternation makes when nothing after it can fail. */
  function FirstPrefix(s: string, alts: seq<string>, from: nat): (r: Option<nat>)
    requires from <= |alts|
    ensures r.Some? ==> from <= r.value < |alts|
    decreases |alts| - from
  {
    if from == |alts| then None
    else if StartsWith(s, alts[from]) then Some(from)
    else FirstPrefix(s, alts, from + 1)
  }

  /** `FirstPrefix` finds the first alternative present, and finds none
      exactly when no alternative is present. */
  lemma {:induction false} FirstPrefixFirst(s: string, alts: seq<string>, from: nat)
    requires from <= |alts|
    ensures var r := FirstPrefix(s, alts, from);
            && (r.Some? ==> StartsWith(s, alts[r.value]) && forall j :: from <= j < r.value ==> !StartsWith(s, alts[j]))
            && (r.None? ==> forall j :: from <= j < |alts| ==> !StartsWith(s, alts[j]))
    decreases |alts| - from
  {
    if from < |alts| && !StartsWith(s, alts[from]) {
      FirstPrefixFirst(s, alts, from + 1);
    }
  }

  /** After a keyword ending at `j`, `\s*\d` can match: the whitespace run
      from `j` is followed by a digit. */
  predicate DigitAfterSpaces(q: string, j: nat)
    requires j <= |q|
  {
    SpaceRunEnd(q, j) < |q| && IsDigit(q[SpaceRunEnd(q, j)])
  }

  /** `n` is what the greedy `\d+[A-Za-z]?` takes at `q[a..]`: the digits
      as far as they go, then one ASCII letter exactly when one follows. */
  ghost predicate NumberAt(q: string, a: nat, n: string) {
    && a + |n| <= |q| && q[a..a + |n|] == n
    && |n| > 0 && IsDigit(n[0])
    && (forall k :: 0 <= k < |n| - 1 ==> IsDigit(n[k]))
    && (IsDigit(n[|n| - 1]) ==> a + |n| == |q| || (!IsDigit(q[a + |n|]) && !IsAsciiLetter(q[a + |n|])))
    && (!IsDigit(n[|n| - 1]) ==> IsAsciiLetter(n[|n| - 1]))
  }

  /** `c` is the first alternative of `alts` that `s` starts with. */
  ghost predicate FirstListed(s: string, alts: seq<string>, c: string) {
    exists x :: 0 <= x < |alts| && alts[x] == c && StartsWith(s, c)
                && forall y :: 0 <= y < x ==> !StartsWith(s, alts[y])
  }

  /** `s` starts with none of `alts`. */
  ghost predicate NoneListed(s: string, alts: seq<string>) {
    forall x :: 0 <= x < |alts| ==> !StartsWith(s, alts[x])
  }

  /** What the optional group `(alt1|alt2|...)?` captures at the front of
      `s`: the first listed alternative present, and nothing exactly when
      none is. */
  ghost predicate CodeOf(s: string, alts: seq<string>, code: Option<string>) {
    && (code.Some? ==> FirstListed(s, alts, code.value))
    && (code.None? <==> NoneListed(s, alts))
  }

  /** The text the code group reads after the number `n`. */
  function AfterNumber(q: string, j: nat, n: string): string
    requires j <= |q| && SpaceRunEnd(q, j) + |n| <= |q|
  {
    q[SpaceRunEnd(q, SpaceRunEnd(q, j) + |n|)..]
  }

  /** Groups 2 and 3 as the regex takes them after a keyword that ends at
      `j`: `\s*`, the number, `\s*`, then the code group. */
  ghost predicate Groups(p: Pattern, q: string, j: nat, num: string, code: Option<string>)
    requires j <= |q|
  {
    NumberAt(q, SpaceRunEnd(q, j), num) && CodeOf(AfterNumber(q, j, num), p.codes, code)
  }

  /** Groups 2 and 3 of a match whose keyword ends at `j`: greedy `\s*`,
      the digit run and an optional letter, greedy `\s*`, then the first
      code alternative present.  Everything after `\d+` is optional, so the
      greedy choices are never undone by backtracking.  `TailGroups` and
      `TailExact` relate the result to `Groups`. */
  function Tail(p: Pattern, q: string, j: nat): (r: Option<Reading>)
    requires j <= |q|
    ensures r.None? <==> !DigitAfterSpaces(q, j)
    ensures r.Some? ==> |r.value.num| > 0 && IsDigit(r.value.num[0])
    ensures r.Some? && r.value.code.Some? ==> r.value.code.value in p.codes
  {
    if !DigitAfterSpaces(q, j) then None
    else
      var n := NumberFrom(q, SpaceRunEnd(q, j));
      Some(Reading(n, CodeAt(AfterNumber(q, j, n), p.codes)))
  }

  /** What the greedy `\d+[A-Za-z]?` takes at `q[a..]` when a digit is there. */
  function NumberFrom(q: string, a: nat): (n: string)
    requires a < |q| && IsDigit(q[a])
    ensures a + |n| <= |q| && |n| > 0 && IsDigit(n[0])
  {
    q[a..NumberEnd(q, a)]
  }

  lemma NumberFromTaken(q: string, a: nat)
    requires a < |q| && IsDigit(q[a])
    ensures NumberAt(q, a, NumberFrom(q, a))
  {
    DigitRunDigits(q, a);
    NumberTaken(q, a, DigitRunEnd(q, a), NumberEnd(q, a));
  }

  /** What the optional group `(alt1|alt2|...)?` captures at the front of `s`. */
  function CodeAt(s: string, alts: seq<string>): (c: Option<string>)
    ensures c.Some? ==> c.value in alts
  {
    var fp := FirstPrefix(s, alts, 0);
    if fp.Some? then Some(alts[fp.value]) else None
  }

  /** The first alternative present is what the optional code group
      captures. */
  lemma CodeAtTaken(s: string, alts: seq<string>)
    ensures CodeOf(s, alts, CodeAt(s, alts))
  {
    var fp := FirstPrefix(s, alts, 0);
    FirstPrefixFirst(s, alts, 0);
    if fp.Some? {
      assert FirstListed(s, alts, alts[fp.value]);
    }
  }

  /** `Tail` reads groups 2 and 3 the way the regex takes them. */
  lemma TailGroups(p: Pattern, q: string, j: nat)
    requires j <= |q|
    ensures var r := Tail(p, q, j); r.Some? ==> Groups(p, q, j, r.value.num, r.value.code)
  {
    if DigitAfterSpaces(q, j) {
      var n := NumberFrom(q, SpaceRunEnd(q, j));
      NumberFromTaken(q, SpaceRunEnd(q, j));
      CodeAtTaken(AfterNumber(q, j, n), p.codes);
    }
  }

  /** `Tail` finds a reading exactly when the regex has one, and it is the
      only one. */
  lemma TailExact(p: Pattern, q: string, j: nat, n: string, c: Option<string>)
    requires j <= |q|
    ensures Tail(p, q, j) == Some(Reading(n, c)) <==> Groups(p, q, j, n, c)
  {
    TailGroups(p, q, j);
    if Groups(p, q, j, n, c) {
      var a := SpaceRunEnd(q, j);
      assert q[a] == q[a..a + |n|][0];
      var r := Tail(p, q, j);
      GroupsDetermined(p, q, j, r.value.num, r.value.code, n, c);
    }
  }

  /** The digit run `q[a..d]`, with the letter after it when there is one,
      is what `\d+[A-Za-z]?` takes. */
  lemma NumberTaken(q: string, a: nat, d: nat, l: nat)
    requires a < d <= |q|
    requires forall k :: a <= k < d ==> IsDigit(q[k])
    requires d == |q| || !IsDigit(q[d])
    requires l == if d < |q| && IsAsciiLetter(q[d]) then d + 1 else d
    ensures NumberAt(q, a, q[a..l])
  {
    var n := q[a..l];
    assert forall k :: 0 <= k < |n| ==> n[k] == q[a + k];
  }

  /** The regex's groups are determined by the text: two readings of the
      number and code after the same keyword agree. */
  lemma {:induction false} GroupsDetermined(p: Pattern, q: string, j: nat, n1: string, c1: Option<string>,
                                            n2: string, c2: Option<string>)
    requires j <= |q|
    requires Groups(p, q, j, n1, c1) && Groups(p, q, j, n2, c2)
    ensures n1 == n2 && c1 == c2
  {
    var a := SpaceRunEnd(q, j);
    NumbersAgree(q, a, n1, n2);
    GroupsCode(p, q, j, n1, c1);
    GroupsCode(p, q, j, n2, c2);
    CodeDetermined(AfterNumber(q, j, n1), p.codes, c1, c2);
  }

  lemma GroupsCode(p: Pattern, q: string, j: nat, n: string, c: Option<string>)
    requires j <= |q| && Groups(p, q, j, n, c)
    ensures SpaceRunEnd(q, j) + |n| <= |q| && CodeOf(AfterNumber(q, j, n), p.codes, c)
  {
  }

  /** Two numbers the regex can take at the same place are the same. */
  lemma NumbersAgree(q: string, a: nat, n1: string, n2: string)
    requires NumberAt(q, a, n1) && NumberAt(q, a, n2)
    ensures n1 == n2
  {
    NumberLength(q, a, n1);
    NumberLength(q, a, n2);
    assert n1 == q[a..a + |n1|];
    assert n2 == q[a..a + |n2|];
  }

  lemma CodeDetermined(s: string, alts: seq<string>, c1: Option<string>, c2: Option<string>)
    requires CodeOf(s, alts, c1) && CodeOf(s, alts, c2)
    ensures c1 == c2
  {
    if c1.Some? && c2.Some? {
      FirstListedDetermined(s, alts, c1.value, c2.value);
    }
  }

  /** Where the greedy `\d+[A-Za-z]?` stops when it starts at `a`. */
  function NumberEnd(q: string, a: nat): nat
    requires a <= |q|
  {
    var d := DigitRunEnd(q, a);
    if d < |q| && IsAsciiLetter(q[d]) then d + 1 else d
  }

  /** A number the regex can take at `a` ends where the greedy scan ends. */
  lemma NumberLength(q: string, a: nat, n: string)
    requires NumberAt(q, a, n)
    ensures a + |n| == NumberEnd(q, a)
  {
    var m := a + |n|;
    DigitRunDigits(q, a);
    forall k | a <= k < m - 1 ensures IsDigit(q[k]) {
      assert q[k] == n[k - a];
    }
    assert q[m - 1] == n[|n| - 1];
  }

  lemma FirstListedDetermined(s: string, alts: seq<string>, c1: string, c2: string)
    requires FirstListed(s, alts, c1) && FirstListed(s, alts, c2)
    ensures c1 == c2
  {
    var x1 :| 0 <= x1 < |alts| && alts[x1] == c1 && StartsWith(s, c1)
              && forall y :: 0 <= y < x1 ==> !StartsWith(s, alts[y]);
    var x2 :| 0 <= x2 < |alts| && alts[x2] == c2 && StartsWith(s, c2)
              && forall y :: 0 <= y < x2 ==> !StartsWith(s, alts[y]);
    assert x1 == x2;
  }

  /** Keyword alternative `x` can start a match at `i`. */
  predicate KeywordFits(p: Pattern, q: string, i: nat, x: nat)
    requires i <= |q| && x < |p.keywords|
  {
    StartsWith(q[i..], p.keywords[x]) && DigitAfterSpaces(q, i + |p.keywords[x]|)
  }

  /** Index of the first `true` in `bs` from `k` on. */
  function FirstTrue(bs: seq<bool>, k: nat): (r: Option<nat>)
    requires k <= |bs|
    ensures r.Some? ==> k <= r.value < |bs| && bs[r.value] && forall y :: k <= y < r.value ==> !bs[y]
    ensures r.None? ==> forall y :: k <= y < |bs| ==> !bs[y]
    decreases |bs| - k
  {
    if k == |bs| then None
    else if bs[k] then Some(k)
    else FirstTrue(bs, k + 1)
  }

  /** Which keyword alternatives can start a match at `i`. */
  function Fits(p: Pattern, q: string, i: nat): (bs: seq<bool>)
    requires i <= |q|
  {
    seq(|p.keywords|, x requires 0 <= x < |p.keywords| => KeywordFits(p, q, i, x))
  }

  /** The first keyword alternative that starts a match at `i`: the regex
      backtracks over a keyword whose number is missing.
      `FirstFitIndexFirst` states which one it is. */
  function FirstFitIndex(p: Pattern, q: string, i: nat): (r: Option<nat>)
    requires i <= |q|
    ensures r.Some? ==> && r.value < |p.keywords| && i + |p.keywords[r.value]| <= |q|
                        && DigitAfterSpaces(q, i + |p.keywords[r.value]|)
  {
    var r := FirstTrue(Fits(p, q, i), 0);
    assert r.Some? ==> KeywordFits(p, q, i, r.value) by {
      if r.Some? {
        assert Fits(p, q, i)[r.value];
      }
    }
    r
  }

  lemma FirstFitIndexFirst(p: Pattern, q: string, i: nat)
    requires i <= |q|
    ensures var r := FirstFitIndex(p, q, i);
            && (r.Some? ==> KeywordFits(p, q, i, r.value) && forall y :: 0 <= y < r.value ==> !KeywordFits(p, q, i, y))
            && (r.None? ==> forall x :: 0 <= x < |p.keywords| ==> !KeywordFits(p, q, i, x))
  {
    var bs := Fits(p, q, i);
    assert forall x :: 0 <= x < |p.keywords| ==> bs[x] == KeywordFits(p, q, i, x);
  }

  /** `kw` is the first keyword alternative that starts a match at `i`. */
  ghost predicate FirstFit(p: Pattern, q: string, i: nat, kw: string)
    requires i <= |q|
  {
    exists x :: 0 <= x < |p.keywords| && p.keywords[x] == kw && KeywordFits(p, q, i, x)
                && forall y :: 0 <= y < x ==> !KeywordFits(p, q, i, y)
  }

  /** `m` is a match of `p` at `i`: it starts there with one of the
      keywords, and its number and code are what `Tail` reads after it. */
  predicate ReadAt(p: Pattern, q: string, i: nat, m: RefMatch)
    requires i <= |q|
  {
    && m.start == i && m.keyword in p.keywords && i + |m.keyword| <= |q|
    && |m.num| > 0 && IsDigit(m.num[0])
    && (m.code.Some? ==> m.code.value in p.codes)
    && Tail(p, q, i + |m.keyword|) == Some(Reading(m.num, m.code))
  }

  /** The match of `p` starting at `i`, if there is one: the first keyword
      that fits, then groups 2 and 3 as `Tail` reads them (`TailExact`
      says that is the regex's reading).  `MatchFirst` states which
      keyword is taken. */
  function MatchAt(p: Pattern, q: string, i: nat): (r: Option<RefMatch>)
    requires i <= |q|
    ensures r.Some? ==> ReadAt(p, q, i, r.value)
  {
    match FirstFitIndex(p, q, i)
    case None => None
    case Some(x) =>
      var kw := p.keywords[x];
      var t := ReadingAfter(p, q, i + |kw|);
      Some(RefMatch(i, kw, t.num, t.code))
  }

  /** `Tail`'s reading after a keyword that fits. */
  function ReadingAfter(p: Pattern, q: string, j: nat): (t: Reading)
    requires j <= |q| && DigitAfterSpaces(q, j)
    ensures Tail(p, q, j) == Some(Reading(t.num, t.code))
  {
    Tail(p, q, j).value
  }

  /** There is a match at `i` exactly when some keyword fits there, and its
      keyword is the first one that does. */
  lemma MatchFirst(p: Pattern, q: string, i: nat)
    requires i <= |q|
    ensures var r := MatchAt(p, q, i);
            && (r.None? <==> forall x :: 0 <= x < |p.keywords| ==> !KeywordFits(p, q, i, x))
            && (r.Some? ==> StartsWith(q[i..], r.value.keyword) && FirstFit(p, q, i, r.value.keyword))
  {
    FirstFitIndexFirst(p, q, i);
    var f := FirstFitIndex(p, q, i);
    if f.Some? {
      assert KeywordFits(p, q, i, f.value);
    }
  }

  /** A match's number and code are groups 2 and 3 as the regex takes them
      after its keyword: with `MatchAt`'s contract, every match `MatchAt`
      returns reads its groups the way the regex does. */
  lemma ReadAtGroups(p: Pattern, q: string, i: nat, m: RefMatch)
    requires i <= |q| && ReadAt(p, q, i, m)
    ensures Groups(p, q, i + |m.keyword|, m.num, m.code)
  {
    TailExact(p, q, i + |m.keyword|, m.num, m.code);
  }

  /** `p.search(q[from:])`: the leftmost match. */
  function Search(p: Pattern, q: string, from: nat): (r: Option<RefMatch>)
    requires from <= |q|
    ensures r.Some? ==> from <= r.value.start <= |q| && MatchAt(p, q, r.value.start) == r
    decreases |q| - from
  {
    var m := MatchAt(p, q, from);
    if m.Some? then m
    else if from == |q| then None
    else Search(p, q, from + 1)
  }

  /** The match `Search` returns is the leftmost one, and `None` means
      there is no match from `from` on: no position before the one found
      holds a match. */
  lemma {:induction false} SearchLeftmost(p: Pattern, q: string, from: nat, i: nat)
    requires from <= i <= |q|
    requires Search(p, q, from).None? || i < Search(p, q, from).value.start
    ensures MatchAt(p, q, i).None?
    decreases i - from
  {
    if MatchAt(p, q, from).None? && i > from {
      assert Search(p, q, from) == Search(p, q, from + 1);
      SearchLeftmost(p, q, from + 1, i);
    }
  }

  // ---------------------------------------------------------------------
  // normalize_code, looks_like_case, the keyword fallback

  /** `normalize_code`: a legacy or current code, in any case, to the
      corpus it belongs to. */
  function NormalizeCode(code: Option<string>): (r: Option<Corpus>)
    ensures code.Some? && Lower(code.value) in {"ipc", "bns"} ==> r == Some(BNS)
    ensures code.Some? && Lower(code.value) in {"crpc", "bnss"} ==> r == Some(BNSS)
    ensures code.Some? && Lower(code.value) in {"iea", "bsa"} ==> r == Some(BSA)
    ensures r.Some? <==> code.Some? && Lower(code.value) in {"ipc", "bns", "crpc", "bnss", "iea", "bsa"}
  {
    match code
    case None => None
    case Some(raw) =>
      var c := Lower(raw);
      if c == "ipc" || c == "bns" then Some(BNS)
      else if c == "crpc" || c == "bnss" then Some(BNSS)
      else if c == "iea" || c == "bsa" then Some(BSA)
      else None
  }

  /** The keywords of `looks_like_case`. */
  function CaseKeywords(): seq<string> {
    [" v. ", "vs.", "judgment", "appeal", "petition", "scc", "air "]
  }

  /** `looks_like_case(q)`. */
  predicate LooksLikeCase(q: string) {
    AnyIn(CaseKeywords(), q)
  }

  /** The `if not code:` chain of `decision_agent`, the last test being
      `looks_like_case`. */
  function FallbackBands(): seq<Band> {
    [ Band(BNS, ["bns", "ipc"]),
      Band(BNSS, ["bnss", "crpc", "procedure"]),
      Band(BSA, ["bsa", "evidence", "iea"]),
      Band(Constitution, ["constitution", "fundamental rights", "article "]),
      Band(Judgments, CaseKeywords()) ]
  }

  /** The corpus the keyword chain picks, if any. */
  function FallbackCode(q: string): (r: Option<Corpus>)
    ensures r.None? <==> forall j :: 0 <= j < |FallbackBands()| ==> !AnyIn(FallbackBands()[j].keywords, q)
    ensures r.Some? ==>
              exists j :: 0 <= j < |FallbackBands()| && FallbackBands()[j].corpus == r.value
                          && AnyIn(FallbackBands()[j].keywords, q)
                          && forall i :: 0 <= i < j ==> !AnyIn(FallbackBands()[i].keywords, q)
  {
    match FirstHitFrom(FallbackBands(), q, 0)
    case Some(j) => Some(FallbackBands()[j].corpus)
    case None => None
  }

  // ---------------------------------------------------------------------
  // decision_agent

  /** `{"must": [{"key": key, "match": {"value": value}}, ...]}`. */
  datatype FieldMatch = FieldMatch(key: string, value: string)
  datatype Filter = Filter(must: seq<FieldMatch>)

  /** The dictionary `decision_agent` returns. */
  datatype Route = Route(filter: Option<Filter>, boosts: seq<string>, code: Option<Corpus>)

  /** Which pattern matched, if any: `SEC_RE.search(q) or ART_RE.search(q)`. */
  datatype Ref = SectionRef(m: RefMatch) | ArticleRef(m: RefMatch) | NoRef

  function FindRef(q: string): Ref {
    match Search(SecPattern(), q, 0)
    case Some(m) => SectionRef(m)
    case None =>
      match Search(ArtPattern(), q, 0)
      case Some(m) => ArticleRef(m)
      case None => NoRef
  }

  /** `str(code)` inside the f-string: a corpus name, or `None`. */
  function CodeText(code: Option<Corpus>): string {
    match code
    case Some(c) => c.Name()
    case None => "None"
  }

  /** `decision_agent(query)`. */
  function Decide(query: string): (r: Route)
    ensures r.filter.Some? <==> r.code.Some?
    ensures r.code.Some? ==> r.filter == Some(Filter([FieldMatch("corpus", r.code.value.Name())]))
    ensures |r.boosts| <= 1
  {
    var q := Lower(query);
    var ref := FindRef(q);
    var refCode := match ref
                   case SectionRef(m) => NormalizeCode(m.code)
                   case ArticleRef(_) => Some(Constitution)
                   case NoRef => None;
    var boosts := match ref
                  case SectionRef(m) => ["Section " + m.num + " " + CodeText(refCode)]
                  case ArticleRef(m) => ["Article " + m.num + " Constitution"]
                  case NoRef => [];
    var code := if refCode.Some? then refCode else FallbackCode(q);
    var filter := if code.Some? then Some(Filter([FieldMatch("corpus", code.value.Name())])) else None;
    Route(filter, boosts, code)
  }

  // ---------------------------------------------------------------------
  // rewrite_query

  /** `rewrite_query(original, boosts)`. */
  function RewriteQuery(original: string, boosts: seq<string>): (r: string)
    ensures |original| <= |r| && r[|r| - |original|..] == original
    ensures boosts == [] <==> r == original
    ensures boosts != [] ==> StartsWith(r, boosts[0])
    ensures boosts != [] ==> r == Join(" ", boosts) + " || " + original
  {
    if boosts == [] then original
    else
      var head := Join(" ", boosts) + " || ";
      JoinEnds(" ", boosts);
      assert (head + original)[..|boosts[0]|] == head[..|boosts[0]|];
      assert (head + original)[|head|..] == original;
      head + original
  }

  /** The router makes at most one boost, and a single boost is written
      in front of the question with the ` || ` separator. */
  lemma RewriteOneBoost(original: string, boost: string)
    ensures RewriteQuery(original, [boost]) == boost + " || " + original
  {
    assert Join(" ", [boost]) == boost;
  }

  /** The query the router's own boosts turn the question into: unchanged
      without a boost, `<boost> || <question>` with one. */
  lemma RewriteOfRoute(query: string)
    ensures Decide(query).boosts == [] ==> RewriteQuery(query, Decide(query).boosts) == query
    ensures Decide(query).boosts != [] ==>
              RewriteQuery(query, Decide(query).boosts) == Decide(query).boosts[0] + " || " + query
  {
    var b := Decide(query).boosts;
    if b != [] {
      assert b == [b[0]];
      RewriteOneBoost(query, b[0]);
    }
  }

  // ---------------------------------------------------------------------
  // routing properties

  /** A section reference anywhere wins: it alone decides the boost, and
      its code, when recognised, is the route's code. */
  lemma SectionWins(query: string)
    requires Search(SecPattern(), Lower(query), 0).Some?
    ensures var m := Search(SecPattern(), Lower(query), 0).value;
            var r := Decide(query);
            && r.boosts == ["Section " + m.num + " " + CodeText(NormalizeCode(m.code))]
            && (NormalizeCode(m.code).Some? ==> r.code == NormalizeCode(m.code))
            && (NormalizeCode(m.code).None? ==> r.code == FallbackCode(Lower(query)))
  {
  }

  /** With no section reference, an article reference routes to the
      Constitution with an `Article <num> Constitution` boost. */
  lemma ArticleRoutesToConstitution(query: string)
    requires Search(SecPattern(), Lower(query), 0).None?
    requires Search(ArtPattern(), Lower(query), 0).Some?
    ensures var m := Search(ArtPattern(), Lower(query), 0).value;
            Decide(query).boosts == ["Article " + m.num + " Constitution"]
            && Decide(query).code == Some(Constitution)
  {
  }

  /** With no reference at all, there is no boost and the keyword chain
      alone decides the code. */
  lemma NoReferenceFallsBack(query: string)
    requires Search(SecPattern(), Lower(query), 0).None?
    requires Search(ArtPattern(), Lower(query), 0).None?
    ensures Decide(query).boosts == []
    ensures Decide(query).code == FallbackCode(Lower(query))
  {
  }

  /** The whole route of a query whose first section reference carries a
      recognised code. */
  lemma SectionRoute(query: string, m: RefMatch, c: Corpus)
    requires Search(SecPattern(), Lower(query), 0) == Some(m)
    requires NormalizeCode(m.code) == Some(c)
    ensures Decide(query) == Route(Some(Filter([FieldMatch("corpus", c.Name())])), ["Section " + m.num + " " + c.Name()], Some(c))
  {
  }

  /** `looks_like_case` is the last test of the keyword chain: once no
      statute or Constitution keyword occurs, the question goes to the case
      law exactly when it looks like a case, and to no corpus otherwise. */
  lemma CaseLawLast(q: string)
    requires forall j :: 0 <= j < 4 ==> !AnyIn(FallbackBands()[j].keywords, q)
    ensures FallbackCode(q) == Some(Judgments) <==> LooksLikeCase(q)
    ensures FallbackCode(q).None? <==> !LooksLikeCase(q)
  {
    assert FallbackBands()[4].keywords == CaseKeywords();
  }

  /** A query holding none of a pattern's keywords has no match of it. */
  lemma NoKeywordNoMatch(p: Pattern, q: string)
    requires forall x :: 0 <= x < |p.keywords| ==> !Contains(q, p.keywords[x])
    ensures Search(p, q, 0).None?
  {
    forall i | 0 <= i <= |q| ensures MatchAt(p, q, i).None? {
      forall x | 0 <= x < |p.keywords| ensures !KeywordFits(p, q, i, x) {
        ContainsIffOccurs(q, p.keywords[x]);
      }
      MatchFirst(p, q, i);
    }
  }

  /** "bns" precedes "bnss" in the code alternation, so a code written
      "bnss" is read as "bns". */
  lemma BnssCodeReadAsBns(s: string)
    requires StartsWith(s, "bnss")
    ensures FirstPrefix(s, SecPattern().codes, 0) == Some(0)
  {
    assert s[..3] == s[..4][..3];
    assert SecPattern().codes[0] == "bns";
  }
}


=== FILE: decision_examples.dfy ===
/** Worked routes of `decision_agent` on concrete queries. */
module DecisionExamples {

  import opened Outcomes
  import opened Strings
  import opened Corpora
  import opened Decision

  function CorpusFilter(c: Corpus): Filter {
    Filter([FieldMatch("corpus", c.Name())])
  }

  // ---------------------------------------------------------------------
  // "section 302 ipc"

  lemma Section302IpcFirst()
    ensures FirstFitIndex(SecPattern(), "section 302 ipc", 0) == Some(0)
  {
    var q := "section 302 ipc";
    assert KeywordFits(SecPattern(), q, 0, 0) by {
      assert q[0..] == q;
      assert q[..7] == "section";
      assert SpaceRunEnd(q, 7) == 8 by { assert q[8] == '3'; assert !IsSpace('3'); }
    }
    assert Fits(SecPattern(), q, 0)[0];
  }

  /** `\s*` then `\d+[A-Za-z]?` after "section" read "302". */
  lemma Section302IpcNumber()
    ensures SpaceRunEnd("section 302 ipc", 7) == 8
    ensures NumberFrom("section 302 ipc", 8) == "302"
  {
    var q := "section 302 ipc";
    assert SpaceRunEnd(q, 7) == 8 by { assert q[8] == '3'; assert !IsSpace('3'); }
    assert DigitRunEnd(q, 8) == 11 by { assert q[11] == ' '; }
    assert q[8..11] == "302";
  }

  /** The code group reads "ipc" after the number. */
  lemma Section302IpcCode()
    requires SpaceRunEnd("section 302 ipc", 7) == 8
    ensures AfterNumber("section 302 ipc", 7, "302") == "ipc"
    ensures CodeAt("ipc", SecPattern().codes) == Some("ipc")
  {
    var q := "section 302 ipc";
    assert SpaceRunEnd(q, 11) == 12 by { assert q[12] == 'i'; assert !IsSpace('i'); }
    assert q[12..] == "ipc";
    assert FirstPrefix("ipc", SecPattern().codes, 0) == Some(1);
  }

  lemma Section302IpcTail()
    ensures Tail(SecPattern(), "section 302 ipc", 7) == Some(Reading("302", Some("ipc")))
  {
    Section302IpcNumber();
    Section302IpcCode();
  }

  lemma Section302IpcMatch()
    ensures MatchAt(SecPattern(), "section 302 ipc", 0) == Some(RefMatch(0, "section", "302", Some("ipc")))
  {
    Section302IpcFirst();
    Section302IpcTail();
  }

  lemma Section302IpcSearch()
    ensures Search(SecPattern(), Lower("section 302 ipc"), 0) == Some(RefMatch(0, "section", "302", Some("ipc")))
  {
    LowerOfLowercase("section 302 ipc");
    Section302IpcMatch();
  }

  lemma IpcIsBns()
    ensures NormalizeCode(Some("ipc")) == Some(BNS)
  {
    LowerOfLowercase("ipc");
  }

  lemma Section302BnsText()
    ensures "Section " + "302" + " " + "BNS" == "Section 302 BNS"
  {
  }

  /** "section 302 ipc": the legacy code routes to BNS. */
  lemma Section302Ipc()
    ensures Decide("section 302 ipc") == Route(Some(CorpusFilter(BNS)), ["Section 302 BNS"], Some(BNS))
  {
    Section302IpcSearch();
    IpcIsBns();
    SectionRoute("section 302 ipc", RefMatch(0, "section", "302", Some("ipc")), BNS);
    Section302BnsText();
  }

  // ---------------------------------------------------------------------
  // "section 437 bnss"

  lemma Section437BnssFirst()
    ensures FirstFitIndex(SecPattern(), "section 437 bnss", 0) == Some(0)
  {
    var q := "section 437 bnss";
    assert KeywordFits(SecPattern(), q, 0, 0) by {
      assert q[0..] == q;
      assert q[..7] == "section";
      assert SpaceRunEnd(q, 7) == 8 by { assert q[8] == '4'; assert !IsSpace('4'); }
    }
    assert Fits(SecPattern(), q, 0)[0];
  }

  /** `\s*` then `\d+[A-Za-z]?` after "section" read "437". */
  lemma Section437BnssNumber()
    ensures SpaceRunEnd("section 437 bnss", 7) == 8
    ensures NumberFrom("section 437 bnss", 8) == "437"
  {
    var q := "section 437 bnss";
    assert SpaceRunEnd(q, 7) == 8 by { assert q[8] == '4'; assert !IsSpace('4'); }
    assert DigitRunEnd(q, 8) == 11 by { assert q[11] == ' '; }
    assert q[8..11] == "437";
  }

  /** The code group reads "bns", the first listed code "bnss" starts with. */
  lemma Section437BnssCode()
    requires SpaceRunEnd("section 437 bnss", 7) == 8
    ensures AfterNumber("section 437 bnss", 7, "437") == "bnss"
    ensures CodeAt("bnss", SecPattern().codes) == Some("bns")
  {
    var q := "section 437 bnss";
    assert SpaceRunEnd(q, 11) == 12 by { assert q[12] == 'b'; assert !IsSpace('b'); }
    assert q[12..] == "bnss";
    BnssCodeReadAsBns("bnss");
  }

  lemma Section437BnssTail()
    ensures Tail(SecPattern(), "section 437 bnss", 7) == Some(Reading("437", Some("bns")))
  {
    Section437BnssNumber();
    Section437BnssCode();
  }

  lemma Section437BnssMatch()
    ensures MatchAt(SecPattern(), "section 437 bnss", 0) == Some(RefMatch(0, "section", "437", Some("bns")))
  {
    Section437BnssFirst();
    Section437BnssTail();
  }

  lemma Section437BnssSearch()
    ensures Search(SecPattern(), Lower("section 437 bnss"), 0) == Some(RefMatch(0, "section", "437", Some("bns")))
  {
    LowerOfLowercase("section 437 bnss");
    Section437BnssMatch();
  }

  lemma BnsIsBns()
    ensures NormalizeCode(Some("bns")) == Some(BNS)
  {
    LowerOfLowercase("bns");
  }

  lemma Section437BnsText()
    ensures "Section " + "437" + " " + "BNS" == "Section 437 BNS"
  {
  }

  /** "section 437 bnss": the code group stops at "bns", so a BNSS
      reference routes to BNS. */
  lemma Section437Bnss()
    ensures Decide("section 437 bnss") == Route(Some(CorpusFilter(BNS)), ["Section 437 BNS"], Some(BNS))
  {
    Section437BnssSearch();
    BnsIsBns();
    SectionRoute("section 437 bnss", RefMatch(0, "section", "437", Some("bns")), BNS);
    Section437BnsText();
  }

  // ---------------------------------------------------------------------
  // "article 21"

  lemma Article21First()
    ensures FirstFitIndex(ArtPattern(), "article 21", 0) == Some(0)
  {
    var q := "article 21";
    assert KeywordFits(ArtPattern(), q, 0, 0) by {
      assert q[0..] == q;
      assert q[..7] == "article";
      assert SpaceRunEnd(q, 7) == 8 by { assert q[8] == '2'; assert !IsSpace('2'); }
    }
    assert Fits(ArtPattern(), q, 0)[0];
  }

  /** `\s*` then `\d+[A-Za-z]?` after "article" read "21", and nothing follows. */
  lemma Article21Number()
    ensures SpaceRunEnd("article 21", 7) == 8
    ensures NumberFrom("article 21", 8) == "21"
    ensures AfterNumber("article 21", 7, "21") == ""
  {
    var q := "article 21";
    assert SpaceRunEnd(q, 7) == 8 by { assert q[8] == '2'; assert !IsSpace('2'); }
    assert DigitRunEnd(q, 8) == 10;
    assert q[8..10] == "21";
    assert q[10..] == "";
  }

  lemma Article21Tail()
    ensures Tail(ArtPattern(), "article 21", 7) == Some(Reading("21", None))
  {
    Article21Number();
    assert FirstPrefix("", ArtPattern().codes, 0) == None;
  }

  lemma Article21Match()
    ensures MatchAt(ArtPattern(), "article 21", 0) == Some(RefMatch(0, "article", "21", None))
  {
    Article21First();
    Article21Tail();
  }

  /** The characters of "article 21". */
  function ArticleChars(): set<char> {
    {'a', 'r', 't', 'i', 'c', 'l', 'e', ' ', '2', '1'}
  }

  lemma ArticleAlphabet()
    ensures forall i :: 0 <= i < |Lower("article 21")| ==> Lower("article 21")[i] in ArticleChars()
  {
  }

  lemma ArticleIsLower()
    ensures Lower("article 21") == "article 21"
  {
    LowerOfLowercase("article 21");
  }

  /** Neither section keyword occurs: both begin with an "s". */
  lemma Article21NoSection()
    ensures Search(SecPattern(), Lower("article 21"), 0) == None
  {
    ArticleAlphabet();
    MissingCharNotContained(Lower("article 21"), ArticleChars(), "section", 0);
    MissingCharNotContained(Lower("article 21"), ArticleChars(), "sec", 0);
    NoKeywordNoMatch(SecPattern(), Lower("article 21"));
  }

  lemma Article21Searches()
    ensures Search(SecPattern(), Lower("article 21"), 0) == None
    ensures Search(ArtPattern(), Lower("article 21"), 0) == Some(RefMatch(0, "article", "21", None))
  {
    Article21NoSection();
    ArticleIsLower();
    Article21Match();
  }

  lemma Article21Text()
    ensures "Article " + "21" + " Constitution" == "Article 21 Constitution"
  {
  }

  /** "article 21": no section reference, so the article one routes to the
      Constitution. */
  lemma Article21()
    ensures Decide("article 21")
            == Route(Some(CorpusFilter(Constitution)), ["Article 21 Constitution"], Some(Constitution))
  {
    Article21Searches();
    ArticleRoutesToConstitution("article 21");
    Article21Text();
  }

  // ---------------------------------------------------------------------
  // "what is bail"

  /** The characters of "what is bail". */
  function BailChars(): set<char> {
    {'w', 'h', 'a', 't', ' ', 'i', 's', 'b', 'l'}
  }

  lemma BailAlphabet()
    ensures forall i :: 0 <= i < |Lower("what is bail")| ==> Lower("what is bail")[i] in BailChars()
  {
  }

  lemma BailLacks(k: string, j: nat)
    requires j < |k| && k[j] !in BailChars()
    ensures !Contains(Lower("what is bail"), k)
  {
    BailAlphabet();
    MissingCharNotContained(Lower("what is bail"), BailChars(), k, j);
  }

  lemma WhatIsBailNoSection()
    ensures Search(SecPattern(), Lower("what is bail"), 0) == None
  {
    var q := Lower("what is bail");
    BailLacks("section", 1);
    BailLacks("sec", 1);
    assert SecPattern().keywords == ["section", "sec"];
    NoKeywordNoMatch(SecPattern(), q);
  }

  lemma WhatIsBailNoArticle()
    ensures Search(ArtPattern(), Lower("what is bail"), 0) == None
  {
    var q := Lower("what is bail");
    BailLacks("article", 1);
    assert ArtPattern().keywords == ["article"];
    NoKeywordNoMatch(ArtPattern(), q);
  }

  /** The only "b" of the query is followed by "a". */
  lemma NoBsaInBail()
    ensures !Contains("what is bail", "bsa")
  {
    var q := "what is bail";
    assert forall i :: 0 <= i < |q| && i != 8 ==> q[i] != 'b';
    assert q[9] == 'a';
    forall i | 0 <= i <= |q| ensures !StartsWith(q[i..], "bsa") {
      NotStartingAt(q, i);
    }
    ContainsIffOccurs(q, "bsa");
  }

  lemma NotStartingAt(q: string, i: nat)
    requires |q| == 12 && i <= |q| && q[9] == 'a'
    requires forall j :: 0 <= j < |q| && j != 8 ==> q[j] != 'b'
    ensures !StartsWith(q[i..], "bsa")
  {
    if i < |q| {
      assert q[i..][0] == q[i];
      if i == 8 { assert q[i..][1] == q[9]; }
    }
  }

  lemma BailIsLower()
    ensures Lower("what is bail") == "what is bail"
  {
    LowerOfLowercase("what is bail");
  }

  lemma BailNoBsa()
    ensures !Contains(Lower("what is bail"), "bsa")
  {
    BailIsLower();
    NoBsaInBail();
  }

  /** No keyword of band `j` of the fallback chain occurs: each holds a
      character the query lacks, except "bsa". */
  lemma BailNoCue(j: nat)
    requires j < |FallbackBands()|
    ensures !AnyIn(FallbackBands()[j].keywords, Lower("what is bail"))
  {
    var keys := FallbackBands()[j].keywords;
    forall k | 0 <= k < |keys| ensures !Contains(Lower("what is bail"), keys[k]) {
      var key := keys[k];
      if key == "bsa" {
        BailNoBsa();
      } else {
        var m := if key in {"bns", "ipc", "bnss", "iea", "article ", " v. ", "appeal", "scc"} then 1
                 else if key == "air " then 2 else 0;
        BailLacks(key, m);
      }
    }
  }

  /** The keyword chain finds no cue in "what is bail". */
  lemma BailNoFallback()
    ensures FallbackCode(Lower("what is bail")) == None
  {
    forall j | 0 <= j < |FallbackBands()| ensures !AnyIn(FallbackBands()[j].keywords, Lower("what is bail")) {
      BailNoCue(j);
    }
  }

  /** "what is bail": no reference and no cue, so no boost, no code and no
      filter. */
  lemma WhatIsBail()
    ensures Decide("what is bail") == Route(None, [], None)
  {
    WhatIsBailNoSection();
    WhatIsBailNoArticle();
    BailNoFallback();
    NoReferenceFallsBack("what is bail");
  }
}

=== FILE: dedup.dfy ===
/** The query handler's dedup: retrieved points are kept in order, each
    id at its first occurrence only, and cut to `TOP_K`. */
module Dedup {

  import opened Strings
  import opened Pack

  /** The ids of `points`. */
  ghost function Ids(points: seq<Point>): set<string> {
    set i | 0 <= i < |points| :: points[i].id
  }

  /** Point `i` is the first with its id. */
  ghost predicate IsFirst(points: seq<Point>, i: nat)
    requires i < |points|
  {
    forall j :: 0 <= j < i ==> points[j].id != points[i].id
  }

  /** The positions of first occurrences, in increasing order: the
      reference the loop is measured against. */
  ghost function FirstPositions(points: seq<Point>): (r: seq<nat>)
    ensures forall k :: 0 <= k < |r| ==> r[k] < |points|
    decreases |points|
  {
    if points == [] then []
    else
      var n := |points| - 1;
      var init := FirstPositions(points[..n]);
      if points[n].id in Ids(points[..n]) then init else init + [n]
  }

  /** Each position in `FirstPositions` is a first occurrence, they
      increase, and every first occurrence is listed. */
  lemma {:induction false} FirstPositionsExact(points: seq<Point>)
    ensures forall k :: 0 <= k < |FirstPositions(points)| ==> IsFirst(points, FirstPositions(points)[k])
    ensures forall k, l :: 0 <= k < l < |FirstPositions(points)| ==> FirstPositions(points)[k] < FirstPositions(points)[l]
    ensures forall i :: 0 <= i < |points| && IsFirst(points, i) ==> i in FirstPositions(points)
    decreases |points|
  {
    if points != [] {
      var n := |points| - 1;
      var pre := points[..n];
      FirstPositionsExact(pre);
      var init := FirstPositions(pre);
      forall k | 0 <= k < |init| ensures IsFirst(points, init[k]) {
        assert IsFirst(pre, init[k]);
        assert forall j :: 0 <= j < init[k] ==> pre[j] == points[j];
      }
      forall i | 0 <= i < |points| && IsFirst(points, i) ensures i in FirstPositions(points) {
        if i < n {
          assert IsFirst(pre, i);
        } else {
          forall j | 0 <= j < n ensures pre[j].id != points[n].id {
            assert pre[j] == points[j];
          }
        }
      }
      if points[n].id !in Ids(pre) {
        forall j | 0 <= j < n ensures points[j].id != points[n].id {
          assert pre[j].id in Ids(pre);
        }
      }
    }
  }

  /** The reference: the points at their first positions, in order. */
  ghost function FirstOccurrences(points: seq<Point>): (r: seq<Point>)
    ensures |r| == |FirstPositions(points)|
  {
    var pos := FirstPositions(points);
    seq(|pos|, k requires 0 <= k < |pos| => points[pos[k]])
  }

  /** The dedup loop of `query`: `seen_ids` and `unique_points`. */
  method DedupById(points: seq<Point>) returns (unique: seq<Point>)
    ensures unique == FirstOccurrences(points)
  {
    var seen: set<string> := {};
    unique := [];
    ghost var pos: seq<nat> := [];
    for i := 0 to |points|
      invariant seen == Ids(points[..i])
      invariant pos == FirstPositions(points[..i])
      invariant |unique| == |pos|
      invariant forall k :: 0 <= k < |pos| ==> pos[k] < i && unique[k] == points[pos[k]]
    {
      assert points[..i + 1][..i] == points[..i];
      assert Ids(points[..i + 1]) == Ids(points[..i]) + {points[i].id} by {
        assert forall j :: 0 <= j < i + 1 ==> points[..i + 1][j] == points[j];
      }
      if points[i].id !in seen {
        seen := seen + {points[i].id};
        unique := unique + [points[i]];
        pos := pos + [i];
      }
    }
    assert points[..|points|] == points;
  }

  /** No two kept points share an id. */
  lemma DedupNoDuplicates(points: seq<Point>)
    ensures forall k, l :: 0 <= k < l < |FirstOccurrences(points)| ==>
              FirstOccurrences(points)[k].id != FirstOccurrences(points)[l].id
  {
    FirstPositionsExact(points);
    var pos := FirstPositions(points);
    var u := FirstOccurrences(points);
    forall k, l | 0 <= k < l < |u| ensures u[k].id != u[l].id {
      assert pos[k] < pos[l] && IsFirst(points, pos[l]);
    }
  }

  /** Every id of the input is kept. */
  lemma DedupKeepsIds(points: seq<Point>)
    ensures Ids(FirstOccurrences(points)) == Ids(points)
  {
    FirstPositionsExact(points);
    var pos := FirstPositions(points);
    var u := FirstOccurrences(points);
    forall x | x in Ids(points) ensures x in Ids(u) {
      var i :| 0 <= i < |points| && points[i].id == x;
      var f := FirstWithId(points, i);
      var k :| 0 <= k < |pos| && pos[k] == f;
      assert u[k].id == x;
    }
    forall x | x in Ids(u) ensures x in Ids(points) {
      var k :| 0 <= k < |u| && u[k].id == x;
      assert points[pos[k]].id == x;
    }
  }

  /** The first position holding the id of point `i`. */
  lemma {:induction false} FirstWithIdExists(points: seq<Point>, i: nat)
    requires i < |points|
    ensures exists f :: 0 <= f <= i && points[f].id == points[i].id && IsFirst(points, f)
    decreases i
  {
    if !IsFirst(points, i) {
      var j :| 0 <= j < i && points[j].id == points[i].id;
      FirstWithIdExists(points, j);
    }
  }

  ghost function FirstWithId(points: seq<Point>, i: nat): (f: nat)
    requires i < |points|
    ensures f <= i && points[f].id == points[i].id && IsFirst(points, f)
  {
    FirstWithIdExists(points, i);
    var f :| 0 <= f <= i && points[f].id == points[i].id && IsFirst(points, f);
    f
  }

  /** `unique_points[:TOP_K]`: what reaches `build_snippets`. */
  method TopUnique(points: seq<Point>, topK: nat) returns (r: seq<Point>)
    ensures |r| <= topK
    ensures r == Take(FirstOccurrences(points), topK)
  {
    var unique := DedupById(points);
    r := Take(unique, topK);
  }
}

=== FILE: indexer.dfy ===
/** `index_chunks`: chunks are embedded and upserted in batches of 64,
    each point keyed by its chunk id. The embedding service and the vector
    store are outside the model: embedding is a function parameter, and
    the store calls are returned as a trace. */
module Indexer {

  import opened Strings
  import opened Chunker

  const BatchSize: nat := 64
  const Collection: string := "legal_mvp"

  /** An embedding; its numbers are never inspected. */
  type Vector = seq<real>

  /** `PointStruct(id=..., vector=..., payload=...)`. */
  datatype PointStruct = PointStruct(id: string, vector: Vector, payload: Chunk)

  /** The calls `index_chunks` makes on the outside world. */
  datatype StoreCall =
    | EnsureCollection
    | Embed(texts: seq<string>)
    | Upsert(collection: string, points: seq<PointStruct>)

  // ---------------------------------------------------------------------
  // batching

  /** The concatenation of a list of lists. */
  function Flatten<T>(xss: seq<seq<T>>): seq<T>
    decreases |xss|
  {
    if xss == [] then [] else Flatten(xss[..|xss| - 1]) + xss[|xss| - 1]
  }

  /** A concatenation is empty exactly when every part is. */
  lemma {:induction false} FlattenEmpty<T>(xss: seq<seq<T>>)
    ensures Flatten(xss) == [] <==> forall i :: 0 <= i < |xss| ==> xss[i] == []
    decreases |xss|
  {
    if xss != [] {
      var pre := xss[..|xss| - 1];
      FlattenEmpty(pre);
      assert forall i :: 0 <= i < |pre| ==> pre[i] == xss[i];
    }
  }

  /** `chunks[i:i+64]` for `i` in `range(0, len(chunks), 64)`. */
  function Batches<T>(xs: seq<T>): (r: seq<seq<T>>)
    ensures forall b :: 0 <= b < |r| ==> |r[b]| > 0
  {
    seq((|xs| + BatchSize - 1) / BatchSize, b requires 0 <= b < (|xs| + BatchSize - 1) / BatchSize =>
      xs[b * BatchSize..Min((b + 1) * BatchSize, |xs|)])
  }

  lemma {:induction false} BatchesPrefix<T>(xs: seq<T>, b: nat)
    requires b <= |Batches(xs)|
    ensures Flatten(Batches(xs)[..b]) == xs[..Min(b * BatchSize, |xs|)]
  {
    var bs := Batches(xs);
    if b > 0 {
      BatchesPrefix(xs, b - 1);
      assert bs[..b][..b - 1] == bs[..b - 1];
      assert Flatten(bs[..b]) == Flatten(bs[..b - 1]) + bs[b - 1];
    }
  }

  /** The batches partition the chunk list in order: they concatenate to
      it, each is non-empty, and all but the last hold exactly 64. */
  lemma BatchesPartition<T>(xs: seq<T>)
    ensures Flatten(Batches(xs)) == xs
    ensures forall b :: 0 <= b < |Batches(xs)| ==> 0 < |Batches(xs)[b]| <= BatchSize
    ensures forall b :: 0 <= b < |Batches(xs)| - 1 ==> |Batches(xs)[b]| == BatchSize
  {
    var bs := Batches(xs);
    BatchesPrefix(xs, |bs|);
    assert bs[..|bs|] == bs;
  }

  /** There is no batch exactly when there is no chunk. */
  lemma NoChunksNoBatches<T>(xs: seq<T>)
    ensures Batches(xs) == [] <==> xs == []
  {
    if xs != [] {
      assert |Batches(xs)| >= 1;
    }
  }

  // ---------------------------------------------------------------------
  // points

  /** `[c["text"] for c in batch]`. */
  function Texts(batch: seq<Chunk>): (r: seq<string>)
    ensures |r| == |batch| && forall i :: 0 <= i < |batch| ==> r[i] == batch[i].text
  {
    seq(|batch|, i requires 0 <= i < |batch| => batch[i].text)
  }

  /** `zip(batch, vecs)` made into points: chunk `i` pairs with vector `i`,
      up to the shorter list. */
  function MakePoints(batch: seq<Chunk>, vecs: seq<Vector>): (r: seq<PointStruct>)
    ensures |r| == Min(|batch|, |vecs|)
    ensures forall i :: 0 <= i < |r| ==>
              r[i].id == batch[i].chunkId && r[i].vector == vecs[i] && r[i].payload == batch[i]
  {
    seq(Min(|batch|, |vecs|), i requires 0 <= i < Min(|batch|, |vecs|) => PointStruct(batch[i].chunkId, vecs[i], batch[i]))
  }

  /** The payloads of a list of points. */
  function Payloads(points: seq<PointStruct>): (r: seq<Chunk>)
    ensures |r| == |points| && forall i :: 0 <= i < |points| ==> r[i] == points[i].payload
  {
    seq(|points|, i requires 0 <= i < |points| => points[i].payload)
  }

  /** When the embedding service answers one vector per text, the points of
      a batch carry exactly its chunks. */
  lemma PointsCarryBatch(batch: seq<Chunk>, vecs: seq<Vector>)
    requires |vecs| == |batch|
    ensures Payloads(MakePoints(batch, vecs)) == batch
  {
  }

  // ---------------------------------------------------------------------
  // index_chunks

  /** The embed and upsert calls for each batch, in order. */
  function BatchCalls(batches: seq<seq<Chunk>>, embed: seq<string> -> seq<Vector>): (r: seq<StoreCall>)
    ensures |r| == 2 * |batches|
    ensures forall b :: 0 <= b < |batches| ==>
              && r[2 * b] == Embed(Texts(batches[b]))
              && r[2 * b + 1] == Upsert(Collection, MakePoints(batches[b], embed(Texts(batches[b]))))
    decreases |batches|
  {
    if batches == [] then []
    else
      var ts := Texts(batches[0]);
      var rest := BatchCalls(batches[1..], embed);
      assert forall b :: 1 <= b < |batches| ==> batches[b] == batches[1..][b - 1];
      [Embed(ts), Upsert(Collection, MakePoints(batches[0], embed(ts)))] + rest
  }

  /** `index_chunks(chunks)` with `embed` for `embed_texts`: the collection
      is ensured, then each batch is embedded and upserted. */
  function IndexChunks(chunks: seq<Chunk>, embed: seq<string> -> seq<Vector>): (r: seq<StoreCall>)
    ensures |r| == 1 + 2 * |Batches(chunks)| && r[0] == EnsureCollection
    ensures forall b :: 0 <= b < |Batches(chunks)| ==>
              && r[1 + 2 * b] == Embed(Texts(Batches(chunks)[b]))
              && r[2 + 2 * b] == Upsert(Collection, MakePoints(Batches(chunks)[b], embed(Texts(Batches(chunks)[b]))))
  {
    [EnsureCollection] + BatchCalls(Batches(chunks), embed)
  }

  /** An empty chunk list makes no embed or upsert call. */
  lemma EmptyIndexOnlyEnsures(embed: seq<string> -> seq<Vector>)
    ensures IndexChunks([], embed) == [EnsureCollection]
  {
    NoChunksNoBatches<Chunk>([]);
  }

  /** The upserted points, batch after batch. */
  function UpsertedPoints(calls: seq<StoreCall>): seq<PointStruct>
    decreases |calls|
  {
    if calls == [] then []
    else
      var last := calls[|calls| - 1];
      UpsertedPoints(calls[..|calls| - 1]) + (if last.Upsert? then last.points else [])
  }

  /** `r` is the trace `index_chunks` makes for the batches `bs`. */
  predicate BatchTrace(r: seq<StoreCall>, bs: seq<seq<Chunk>>, embed: seq<string> -> seq<Vector>) {
    && |r| == 1 + 2 * |bs|
    && r[0] == EnsureCollection
    && forall i :: 0 <= i < |bs| ==>
         r[1 + 2 * i].Embed? && r[2 + 2 * i] == Upsert(Collection, MakePoints(bs[i], embed(Texts(bs[i]))))
  }

  lemma {:induction false} UpsertedPrefix(r: seq<StoreCall>, bs: seq<seq<Chunk>>, embed: seq<string> -> seq<Vector>, b: nat)
    requires BatchTrace(r, bs, embed) && b <= |bs|
    requires forall ts: seq<string> :: |embed(ts)| == |ts|
    ensures Payloads(UpsertedPoints(r[..1 + 2 * b])) == Flatten(bs[..b])
  {
    if b == 0 {
      assert r[..1] == [EnsureCollection];
      assert r[..1][..0] == [];
    } else {
      UpsertedPrefix(r, bs, embed, b - 1);
      var pts := MakePoints(bs[b - 1], embed(Texts(bs[b - 1])));
      assert r[2 * b - 1].Embed? && r[2 * b] == Upsert(Collection, pts) by {
        assert 1 + 2 * (b - 1) == 2 * b - 1;
      }
      UpsertedStep(r, 2 * b - 1, pts);
      PointsCarryBatch(bs[b - 1], embed(Texts(bs[b - 1])));
      PayloadsAppend(UpsertedPoints(r[..2 * b - 1]), pts);
      assert bs[..b][..b - 1] == bs[..b - 1];
    }
  }

  /** An embed call followed by an upsert adds the upserted points. */
  lemma UpsertedStep(r: seq<StoreCall>, k: nat, pts: seq<PointStruct>)
    requires k + 1 < |r| && r[k].Embed? && r[k + 1] == Upsert(Collection, pts)
    ensures UpsertedPoints(r[..k + 2]) == UpsertedPoints(r[..k]) + pts
  {
    assert r[..k + 2][..k + 1] == r[..k + 1];
    assert r[..k + 1][..k] == r[..k];
  }

  lemma PayloadsAppend(a: seq<PointStruct>, b: seq<PointStruct>)
    ensures Payloads(a + b) == Payloads(a) + Payloads(b)
  {
  }

  /** When every text gets its vector, the upserts store every chunk once,
      in order. */
  lemma EveryChunkUpserted(chunks: seq<Chunk>, embed: seq<string> -> seq<Vector>)
    requires forall ts: seq<string> :: |embed(ts)| == |ts|
    ensures Payloads(UpsertedPoints(IndexChunks(chunks, embed))) == chunks
  {
    var r := IndexChunks(chunks, embed);
    var bs := Batches(chunks);
    assert Payloads(UpsertedPoints(r)) == Flatten(bs) by {
      IndexTrace(chunks, embed);
      UpsertedAll(r, bs, embed);
    }
    assert Flatten(bs) == chunks by { BatchesPartition(chunks); }
  }

  lemma UpsertedAll(r: seq<StoreCall>, bs: seq<seq<Chunk>>, embed: seq<string> -> seq<Vector>)
    requires BatchTrace(r, bs, embed)
    requires forall ts: seq<string> :: |embed(ts)| == |ts|
    ensures Payloads(UpsertedPoints(r)) == Flatten(bs)
  {
    UpsertedPrefix(r, bs, embed, |bs|);
    assert r[..1 + 2 * |bs|] == r;
    assert bs[..|bs|] == bs;
  }

  lemma IndexTrace(chunks: seq<Chunk>, embed: seq<string> -> seq<Vector>)
    ensures BatchTrace(IndexChunks(chunks, embed), Batches(chunks), embed)
  {
  }

  /** Each point's id is the chunk id of its payload. */
  predicate KeyedByChunkId(points: seq<PointStruct>) {
    forall i :: 0 <= i < |points| ==> points[i].id == points[i].payload.chunkId
  }

  lemma {:induction false} UpsertsKeyedFrom(r: seq<StoreCall>, bs: seq<seq<Chunk>>, embed: seq<string> -> seq<Vector>, b: nat)
    requires BatchTrace(r, bs, embed) && b <= |bs|
    ensures KeyedByChunkId(UpsertedPoints(r[..1 + 2 * b]))
  {
    if b == 0 {
      assert r[..1] == [EnsureCollection];
      assert r[..1][..0] == [];
    } else {
      UpsertsKeyedFrom(r, bs, embed, b - 1);
      var pts := MakePoints(bs[b - 1], embed(Texts(bs[b - 1])));
      assert r[2 * b - 1].Embed? && r[2 * b] == Upsert(Collection, pts) by {
        assert 1 + 2 * (b - 1) == 2 * b - 1;
      }
      UpsertedStep(r, 2 * b - 1, pts);
    }
  }

  /** Every point `index_chunks` upserts is keyed by its chunk's id, not a
      fresh identifier. */
  lemma UpsertsKeyedByChunkId(chunks: seq<Chunk>, embed: seq<string> -> seq<Vector>)
    ensures KeyedByChunkId(UpsertedPoints(IndexChunks(chunks, embed)))
  {
    IndexTrace(chunks, embed);
    UpsertsKeyedAll(IndexChunks(chunks, embed), Batches(chunks), embed);
  }

  lemma UpsertsKeyedAll(r: seq<StoreCall>, bs: seq<seq<Chunk>>, embed: seq<string> -> seq<Vector>)
    requires BatchTrace(r, bs, embed)
    ensures KeyedByChunkId(UpsertedPoints(r))
  {
    UpsertsKeyedFrom(r, bs, embed, |bs|);
    assert r[..1 + 2 * |bs|] == r;
  }

  // ---------------------------------------------------------------------
  // the store

  /** The part of the vector store the model keeps: what each id holds. */
  type Store = map<string, PointStruct>

  /** An upsert of `points`, one after the other: each point replaces
      whatever its id held. */
  function ApplyUpsert(store: Store, points: seq<PointStruct>): Store
    decreases |points|
  {
    if points == [] then store
    else
      var p := points[|points| - 1];
      ApplyUpsert(store, points[..|points| - 1])[p.id := p]
  }

  /** The store after a trace of calls; only upserts change it. */
  function Apply(store: Store, calls: seq<StoreCall>): Store
    decreases |calls|
  {
    if calls == [] then store
    else
      var s := Apply(store, calls[..|calls| - 1]);
      var last := calls[|calls| - 1];
      if last.Upsert? then ApplyUpsert(s, last.points) else s
  }

  /** An upsert overlays the map of its points on the store. */
  lemma {:induction false} UpsertOverlays(store: Store, points: seq<PointStruct>)
    ensures ApplyUpsert(store, points) == store + ApplyUpsert(map[], points)
    decreases |points|
  {
    if points != [] {
      UpsertOverlays(store, points[..|points| - 1]);
    }
  }

  lemma {:induction false} UpsertAppend(store: Store, a: seq<PointStruct>, b: seq<PointStruct>)
    ensures ApplyUpsert(store, a + b) == ApplyUpsert(ApplyUpsert(store, a), b)
    decreases |b|
  {
    if b == [] {
      assert a + b == a;
    } else {
      assert (a + b)[..|a + b| - 1] == a + b[..|b| - 1];
      UpsertAppend(store, a, b[..|b| - 1]);
    }
  }

  /** A trace acts on the store as one upsert of all its points. */
  lemma {:induction false} ApplyIsOneUpsert(store: Store, calls: seq<StoreCall>)
    ensures Apply(store, calls) == ApplyUpsert(store, UpsertedPoints(calls))
    decreases |calls|
  {
    if calls != [] {
      var init := calls[..|calls| - 1];
      ApplyIsOneUpsert(store, init);
      var last := calls[|calls| - 1];
      if last.Upsert? {
        UpsertAppend(store, UpsertedPoints(init), last.points);
      } else {
        assert UpsertedPoints(init) + [] == UpsertedPoints(init);
      }
    }
  }

  /** Indexing the same chunks again leaves the store as one indexing did:
      with the chunk id as point id, re-ingesting a document overwrites its
      points rather than adding copies. This holds for the store as an
      id-keyed map that accepts every upsert; id validation and service
      failures are not modelled. */
  lemma ReindexIdempotent(store: Store, chunks: seq<Chunk>, embed: seq<string> -> seq<Vector>)
    ensures var calls := IndexChunks(chunks, embed);
            Apply(Apply(store, calls), calls) == Apply(store, calls)
  {
    var calls := IndexChunks(chunks, embed);
    var pts := UpsertedPoints(calls);
    var m := ApplyUpsert(map[], pts);
    ApplyIsOneUpsert(store, calls);
    ApplyIsOneUpsert(Apply(store, calls), calls);
    UpsertOverlays(store, pts);
    UpsertOverlays(store + m, pts);
    assert (store + m) + m == store + m;
  }
}

=== FILE: ingest.dfy ===
/** The two `/ingest` handlers: uploaded files become chunk records that
    are indexed, and the response reports counts. `app.py` picks the
    extractor by file-name suffix and lets an extraction failure escape;
    `app_backup.py` parses the extension, records per-file errors and
    carries on, and indexes only when there is something to index. The
    extractors and the language detector are function parameters, and the
    collection loops are stated over any page chunker. */
module Ingest {

  import opened Outcomes
  import opened Strings
  import opened Chunker
  import opened Indexer

  datatype FileKind = Pdf | Docx | Txt

  /** An uploaded file: its base name and its bytes. */
  datatype Upload = Upload(name: string, data: seq<bv8>)

  /** The pages an extractor returns: `(page, text)` pairs. */
  type Pages = seq<(int, string)>

  /** An extractor: the pages of a file of the given kind, or the message
      of the exception it raised. */
  type Extractor = (FileKind, seq<bv8>) -> Result<Pages>

  /** A page chunker: the chunk records of page `page` of the document
      `name` with text `text`. */
  type PageChunker = (string, int, string) -> seq<Chunk>

  /** `chunk_page(name, page, text)` with `detect` standing for
      langdetect. The handlers use this chunker; the per-file lemmas below
      hold for any chunker. */
  function SourceChunker(detect: string -> Option<string>): PageChunker {
    (name, page, text) => ChunkPage(name, page, text, detect)
  }

  /** The chunk records of all pages of one file, page after page. */
  function FileChunks(name: string, pages: Pages, chunk: PageChunker): seq<Chunk>
    decreases |pages|
  {
    if pages == [] then []
    else
      var last := pages[|pages| - 1];
      FileChunks(name, pages[..|pages| - 1], chunk) + chunk(name, last.0, last.1)
  }

  /** Page by page, the chunk records of one file. */
  function PageChunks(name: string, pages: Pages, chunk: PageChunker): (r: seq<seq<Chunk>>)
    ensures |r| == |pages|
    ensures forall i :: 0 <= i < |pages| ==> r[i] == chunk(name, pages[i].0, pages[i].1)
  {
    seq(|pages|, i requires 0 <= i < |pages| => chunk(name, pages[i].0, pages[i].1))
  }

  /** `for (page, text) in pages: chunks.extend(chunk_page(...))`: the
      records of a file are those of each page, in page order. */
  lemma {:induction false} FileChunksPages(name: string, pages: Pages, chunk: PageChunker)
    ensures FileChunks(name, pages, chunk) == Flatten(PageChunks(name, pages, chunk))
    decreases |pages|
  {
    if pages != [] {
      var n := |pages| - 1;
      var pre := pages[..n];
      FileChunksPages(name, pre, chunk);
      assert PageChunks(name, pages, chunk)[..n] == PageChunks(name, pre, chunk) by {
        assert forall i :: 0 <= i < n ==> pre[i] == pages[i];
      }
    }
  }

  /** The chunks one file contributes: those of its pages when it read,
      none when it failed. */
  function ChunksOf(name: string, read: Result<Pages>, chunk: PageChunker): seq<Chunk> {
    match read
    case Ok(pages) => FileChunks(name, pages, chunk)
    case Err(_) => []
  }

  // ---------------------------------------------------------------------
  // app.py

  /** `app.py`: `.pdf` and `.docx` by case-insensitive suffix, anything
      else as text. */
  function KindBySuffix(name: string): (k: FileKind)
    ensures k == Pdf <==> EndsWith(Lower(name), ".pdf")
    ensures k == Docx <==> !EndsWith(Lower(name), ".pdf") && EndsWith(Lower(name), ".docx")
  {
    var n := Lower(name);
    if EndsWith(n, ".pdf") then Pdf else if EndsWith(n, ".docx") then Docx else Txt
  }

  /** The reply of `app.py`'s handler: `files`, `chunks` and
      `vectors_indexed`, and the store calls made. */
  datatype SimpleReport = SimpleReport(files: nat, chunks: nat, vectorsIndexed: nat, calls: seq<StoreCall>)

  /** `app.py` can extract the pages of `f`. */
  predicate Extracts(f: Upload, extract: Extractor) {
    extract(KindBySuffix(f.name), f.data).Ok?
  }

  /** File by file, what `app.py`'s extractor makes of each upload. */
  function SuffixChunks(files: seq<Upload>, extract: Extractor, chunk: PageChunker)
    : (r: seq<seq<Chunk>>)
    ensures |r| == |files|
    ensures forall i :: 0 <= i < |files| ==>
              r[i] == ChunksOf(files[i].name, extract(KindBySuffix(files[i].name), files[i].data), chunk)
  {
    seq(|files|, i requires 0 <= i < |files| =>
          ChunksOf(files[i].name, extract(KindBySuffix(files[i].name), files[i].data), chunk))
  }

  /** The chunks of `files` under `app.py`, or the first extraction
      failure, which ends the request. */
  function CollectAll(files: seq<Upload>, extract: Extractor, chunk: PageChunker)
    : Result<seq<Chunk>>
    decreases |files|
  {
    if files == [] then Ok([])
    else
      var n := |files| - 1;
      var f := files[n];
      match CollectAll(files[..n], extract, chunk)
      case Err(e) => Err(e)
      case Ok(before) =>
        match extract(KindBySuffix(f.name), f.data)
        case Err(e) => Err(e)
        case Ok(pages) => Ok(before + FileChunks(f.name, pages, chunk))
  }

  /** The handler gets past extraction exactly when every file extracts. */
  lemma {:induction false} CollectAllOk(files: seq<Upload>, extract: Extractor, chunk: PageChunker)
    ensures CollectAll(files, extract, chunk).Ok? <==> forall i :: 0 <= i < |files| ==> Extracts(files[i], extract)
    decreases |files|
  {
    if files != [] {
      var n := |files| - 1;
      var pre := files[..n];
      CollectAllOk(pre, extract, chunk);
      if CollectAll(files, extract, chunk).Ok? {
        forall i | 0 <= i < |files| ensures Extracts(files[i], extract) {
          if i < n {
            assert files[i] == pre[i];
          }
        }
      } else if CollectAll(pre, extract, chunk).Err? {
        var i :| 0 <= i < n && !Extracts(pre[i], extract);
        assert files[i] == pre[i];
      } else {
        assert !Extracts(files[n], extract);
      }
    }
  }

  /** When every file extracts, the chunks are those of each file, file
      after file and page after page. */
  lemma {:induction false} CollectAllChunks(files: seq<Upload>, extract: Extractor, chunk: PageChunker)
    ensures CollectAll(files, extract, chunk).Ok? ==>
              CollectAll(files, extract, chunk).value == Flatten(SuffixChunks(files, extract, chunk))
    decreases |files|
  {
    if files != [] && CollectAll(files, extract, chunk).Ok? {
      var n := |files| - 1;
      var pre := files[..n];
      assert forall i :: 0 <= i < n ==> pre[i] == files[i];
      CollectAllChunks(pre, extract, chunk);
      assert SuffixChunks(files, extract, chunk)[..n] == SuffixChunks(pre, extract, chunk);
    }
  }

  /** `ingest(files)` in `app.py`: every chunk is handed to `index_chunks`,
      even when there are none. */
  function IngestSimple(files: seq<Upload>, extract: Extractor, detect: string -> Option<string>,
                        embed: seq<string> -> seq<Vector>): (r: Result<SimpleReport>)
    ensures r.Ok? <==> CollectAll(files, extract, SourceChunker(detect)).Ok?
    ensures r.Ok? <==> forall i :: 0 <= i < |files| ==> Extracts(files[i], extract)
    ensures r.Ok? ==> var chunks := CollectAll(files, extract, SourceChunker(detect)).value;
                      && r.value.files == |files|
                      && r.value.chunks == r.value.vectorsIndexed == |chunks|
                      && r.value.calls == IndexChunks(chunks, embed)
    ensures r.Ok? ==> r.value.calls == IndexChunks(Flatten(SuffixChunks(files, extract, SourceChunker(detect))), embed)
  {
    CollectAllOk(files, extract, SourceChunker(detect));
    CollectAllChunks(files, extract, SourceChunker(detect));
    match CollectAll(files, extract, SourceChunker(detect))
    case Err(e) => Err(e)
    case Ok(chunks) => Ok(SimpleReport(|files|, |chunks|, |chunks|, IndexChunks(chunks, embed)))
  }

  /** The suffix test ignores case. */
  lemma KindIgnoresCase(name: string)
    ensures KindBySuffix(name) == KindBySuffix(Lower(name))
  {
    LowerIdempotent(name);
  }

  // ---------------------------------------------------------------------
  // app_backup.py

  /** `name.lower().split(".")[-1]`: the lower-cased text after the last
      dot, or the whole lower-cased name when it has none. */
  function Extension(name: string): (ext: string)
    ensures forall j :: 0 <= j < |ext| ==> ext[j] != '.'
    ensures |ext| <= |name| && EndsWith(Lower(name), ext)
    ensures |ext| < |name| ==> Lower(name)[|name| - |ext| - 1] == '.'
    ensures |ext| == |name| ==> ext == Lower(name)
  {
    var n := Lower(name);
    match LastIndexOf(n, '.')
    case None => n
    case Some(d) => n[d + 1..]
  }

  /** The extension of `stem.ext` is `ext`, lower-cased, whatever the
      stem holds. */
  lemma ExtensionOfName(stem: string, ext: string)
    requires forall j :: 0 <= j < |ext| ==> ext[j] != '.'
    ensures Extension(stem + "." + ext) == Lower(ext)
  {
    var name := stem + "." + ext;
    var n := Lower(name);
    assert n[|stem|] == '.';
    forall j | |stem| < j < |n| ensures n[j] != '.' {
      assert name[j] == ext[j - |stem| - 1];
    }
    assert LastIndexOf(n, '.') == Some(|stem|);
    assert n[|stem| + 1..] == Lower(ext);
  }

  /** The extractor an extension selects, if any. */
  function KindByExtension(ext: string): Option<FileKind> {
    if ext == "pdf" then Some(Pdf)
    else if ext == "docx" then Some(Docx)
    else if ext == "txt" then Some(Txt)
    else None
  }

  /** `{"file": name, "error": str(e)}`. */
  datatype FileError = FileError(file: string, error: string)

  /** The body of the `try` for one file: its pages, or the error that
      ends up in `errors`. */
  function ReadFile(f: Upload, extract: Extractor): Result<Pages> {
    var ext := Extension(f.name);
    match KindByExtension(ext)
    case None => Err("Unsupported file type: " + ext)
    case Some(k) => extract(k, f.data)
  }

  /** `all_chunks` and `errors` after the loop over `files`. */
  function Collect(files: seq<Upload>, extract: Extractor, chunk: PageChunker)
    : (r: (seq<Chunk>, seq<FileError>))
    decreases |files|
  {
    if files == [] then ([], [])
    else
      var n := |files| - 1;
      var before := Collect(files[..n], extract, chunk);
      var read := ReadFile(files[n], extract);
      (before.0 + ChunksOf(files[n].name, read, chunk), before.1 + ErrorsOf(files[n].name, read))
  }

  /** The reply of `app_backup.py`'s handler, and the store calls made. */
  datatype Report = Report(filesReceived: nat, chunksIndexed: nat, errors: seq<FileError>, status: nat,
                           calls: seq<StoreCall>)

  /** `ingest(files)` in `app_backup.py`. */
  function IngestReport(files: seq<Upload>, extract: Extractor, detect: string -> Option<string>,
                        embed: seq<string> -> seq<Vector>): (r: Report)
    ensures r.filesReceived == |files|
    ensures r.chunksIndexed == |Collect(files, extract, SourceChunker(detect)).0|
    ensures r.errors == Collect(files, extract, SourceChunker(detect)).1
    ensures r.status == 400 <==> r.chunksIndexed == 0 && r.errors == []
    ensures r.status == 200 || r.status == 400
    ensures r.calls != [] <==> r.chunksIndexed > 0
    ensures r.chunksIndexed > 0 ==> r.calls == IndexChunks(Collect(files, extract, SourceChunker(detect)).0, embed)
    ensures r.chunksIndexed > 0 ==> r.calls == IndexChunks(Flatten(ReadChunks(files, extract, SourceChunker(detect))), embed)
    ensures r.errors == Flatten(ReadErrors(files, extract))
  {
    ChunksPerFile(files, extract, SourceChunker(detect));
    ErrorsPerFile(files, extract, SourceChunker(detect));
    var (chunks, errors) := Collect(files, extract, SourceChunker(detect));
    var calls := if chunks != [] then IndexChunks(chunks, embed) else [];
    Report(|files|, |chunks|, errors, if chunks != [] || errors != [] then 200 else 400, calls)
  }

  /** A name without a dot: `app.py` reads it as text, while
      `app_backup.py` takes the whole name as the extension and rejects it
      unless the name itself is "pdf", "docx" or "txt". */
  lemma DotlessName(f: Upload, extract: Extractor)
    requires forall j :: 0 <= j < |f.name| ==> f.name[j] != '.'
    requires Lower(f.name) != "pdf" && Lower(f.name) != "docx" && Lower(f.name) != "txt"
    ensures KindBySuffix(f.name) == Txt
    ensures ReadFile(f, extract) == Err("Unsupported file type: " + Lower(f.name))
  {
    var n := Lower(f.name);
    assert forall j :: 0 <= j < |n| ==> n[j] != '.';
    assert !EndsWith(n, ".pdf") by {
      if |n| >= 4 { assert n[|n| - 4..][0] == n[|n| - 4]; }
    }
    assert !EndsWith(n, ".docx") by {
      if |n| >= 5 { assert n[|n| - 5..][0] == n[|n| - 5]; }
    }
  }

  /** The error entry one file contributes: one naming it when it
      failed, none when it read. */
  function ErrorsOf(name: string, read: Result<Pages>): seq<FileError> {
    match read
    case Ok(_) => []
    case Err(e) => [FileError(name, e)]
  }

  /** File by file, the chunks `app_backup.py` collects from each upload. */
  function ReadChunks(files: seq<Upload>, extract: Extractor, chunk: PageChunker)
    : (r: seq<seq<Chunk>>)
    ensures |r| == |files|
    ensures forall i :: 0 <= i < |files| ==> r[i] == ChunksOf(files[i].name, ReadFile(files[i], extract), chunk)
  {
    seq(|files|, i requires 0 <= i < |files| => ChunksOf(files[i].name, ReadFile(files[i], extract), chunk))
  }

  /** File by file, the error entries `app_backup.py` records. */
  function ReadErrors(files: seq<Upload>, extract: Extractor): (r: seq<seq<FileError>>)
    ensures |r| == |files|
    ensures forall i :: 0 <= i < |files| ==> r[i] == ErrorsOf(files[i].name, ReadFile(files[i], extract))
  {
    seq(|files|, i requires 0 <= i < |files| => ErrorsOf(files[i].name, ReadFile(files[i], extract)))
  }

  /** The per-file lists of all files but the last are those of the
      shorter upload list. */
  lemma ReadPrefix(files: seq<Upload>, extract: Extractor, chunk: PageChunker)
    requires files != []
    ensures ReadChunks(files, extract, chunk)[..|files| - 1] == ReadChunks(files[..|files| - 1], extract, chunk)
    ensures ReadErrors(files, extract)[..|files| - 1] == ReadErrors(files[..|files| - 1], extract)
  {
    var pre := files[..|files| - 1];
    assert forall i :: 0 <= i < |pre| ==> pre[i] == files[i];
  }

  /** The chunks are, file after file, those of each file that read. */
  lemma {:induction false} ChunksPerFile(files: seq<Upload>, extract: Extractor, chunk: PageChunker)
    ensures Collect(files, extract, chunk).0 == Flatten(ReadChunks(files, extract, chunk))
    decreases |files|
  {
    if files != [] {
      var n := |files| - 1;
      var pre := files[..n];
      var rc := ReadChunks(files, extract, chunk);
      assert Collect(files, extract, chunk).0 == Collect(pre, extract, chunk).0 + rc[n];
      ChunksPerFile(pre, extract, chunk);
      assert Flatten(rc) == Flatten(ReadChunks(pre, extract, chunk)) + rc[n] by {
        ReadPrefix(files, extract, chunk);
      }
    }
  }

  /** One failure does not stop the others: file by file and in order,
      the errors are one entry for each file that failed, naming it and
      carrying its message. */
  lemma {:induction false} ErrorsPerFile(files: seq<Upload>, extract: Extractor, chunk: PageChunker)
    ensures Collect(files, extract, chunk).1 == Flatten(ReadErrors(files, extract))
    decreases |files|
  {
    if files != [] {
      var n := |files| - 1;
      var pre := files[..n];
      var re := ReadErrors(files, extract);
      assert Collect(files, extract, chunk).1 == Collect(pre, extract, chunk).1 + re[n];
      ErrorsPerFile(pre, extract, chunk);
      assert Flatten(re) == Flatten(ReadErrors(pre, extract)) + re[n] by {
        ReadPrefix(files, extract, chunk);
      }
    }
  }

  /** The reply lists no error exactly when every file read. */
  lemma {:induction false} NoErrorsIffAllRead(files: seq<Upload>, extract: Extractor, chunk: PageChunker)
    ensures Collect(files, extract, chunk).1 == [] <==> forall i :: 0 <= i < |files| ==> ReadFile(files[i], extract).Ok?
  {
    var re := ReadErrors(files, extract);
    assert Collect(files, extract, chunk).1 == Flatten(re) by { ErrorsPerFile(files, extract, chunk); }
    FlattenEmpty(re);
    assert forall i :: 0 <= i < |files| ==> (re[i] == [] <==> ReadFile(files[i], extract).Ok?);
  }
}

=== FILE: outcomes.dfy ===
/** Failure-carrying values used throughout the model: `Option` for Python's
    `None`-or-value and `Result` for an operation that can raise. */
module Outcomes {

  datatype Option<+T> = None | Some(value: T) {

    /** Python's `x or default` for an optional value. */
    function GetOr(default: T): T {
      match this
      case Some(v) => v
      case None => default
    }
  }

  /** `Err` carries the message of the exception the source would raise. */
  datatype Result<+T> = Ok(value: T) | Err(error: string)
}

=== FILE: pack.dfy ===
/** `build_snippets`: retrieved points become the numbered snippets the
    prompt cites. */
module Pack {

  import opened Outcomes
  import opened Strings

  /** The payload fields `build_snippets` reads. `doc_name` is indexed
      directly, so its absence raises; `page` and `text` have defaults. */
  datatype Payload = Payload(docName: Option<string>, page: Option<int>, text: Option<string>)

  /** A search hit: its point id and payload. */
  datatype Point = Point(id: string, payload: Payload)

  /** One numbered snippet: `{"n", "source", "page", "snippet"}`. */
  datatype Snippet = Snippet(n: nat, source: string, page: int, snippet: string)

  const SnippetLimit: nat := 900
  const DefaultPage: int := 1

  /** `payload.get("text", "").strip().replace("\n", " ")[:900]`. */
  function SnippetText(p: Payload): string {
    Take(Normalize(p.text.GetOr("")), SnippetLimit)
  }

  /** `s` is the snippet `build_snippets` makes of point `p` at number `n`. */
  predicate Describes(p: Point, n: nat, s: Snippet)
    requires p.payload.docName.Some?
  {
    && s.n == n
    && s.source == p.payload.docName.value
    && s.page == p.payload.page.GetOr(DefaultPage)
    && s.snippet == SnippetText(p.payload)
  }

  predicate HasSource(p: Point) {
    p.payload.docName.Some?
  }

  /** `build_snippets(points)`: the points numbered from 1 in order, or the
      `KeyError` of a point without a `doc_name`. */
  function BuildSnippets(points: seq<Point>): (r: Result<seq<Snippet>>)
    ensures r.Ok? <==> forall i :: 0 <= i < |points| ==> HasSource(points[i])
    ensures r.Ok? ==> |r.value| == |points|
    ensures r.Ok? ==> forall i :: 0 <= i < |points| ==> Describes(points[i], i + 1, r.value[i])
  {
    if forall i :: 0 <= i < |points| ==> HasSource(points[i]) then
      Ok(seq(|points|, i requires 0 <= i < |points| => SnippetOf(points[i], i + 1)))
    else Err("KeyError: 'doc_name'")
  }

  /** The dict `build_snippets` makes of one point. */
  function SnippetOf(p: Point, n: nat): (s: Snippet)
    requires HasSource(p)
    ensures Describes(p, n, s)
  {
    Snippet(n, p.payload.docName.value, p.payload.page.GetOr(DefaultPage), SnippetText(p.payload))
  }

  /** One snippet per point, in order, numbered 1..N, each citing its
      point's document. */
  lemma SnippetsNumbered(points: seq<Point>, i: nat)
    requires BuildSnippets(points).Ok? && i < |points|
    ensures |BuildSnippets(points).value| == |points|
    ensures BuildSnippets(points).value[i].n == i + 1
    ensures BuildSnippets(points).value[i].source == points[i].payload.docName.value
  {
  }

  /** The snippet text is a prefix of the stripped, newline-replaced
      text, at most 900 characters long, and the whole of it when it fits. */
  lemma SnippetIsPrefix(p: Payload)
    ensures |SnippetText(p)| == Min(SnippetLimit, |Normalize(p.text.GetOr(""))|)
    ensures |SnippetText(p)| <= SnippetLimit
    ensures |SnippetText(p)| <= |Normalize(p.text.GetOr(""))|
    ensures SnippetText(p) == Normalize(p.text.GetOr(""))[..|SnippetText(p)|]
    ensures |Normalize(p.text.GetOr(""))| <= SnippetLimit ==> SnippetText(p) == Normalize(p.text.GetOr(""))
  {
    var full := Normalize(p.text.GetOr(""));
    assert |Take(full, SnippetLimit)| == Min(SnippetLimit, |full|);
    if |full| <= SnippetLimit {
      TakeAll(full, SnippetLimit);
    }
  }

  /** No snippet holds a newline. */
  lemma SnippetHasNoNewline(p: Payload)
    ensures forall j :: 0 <= j < |SnippetText(p)| ==> SnippetText(p)[j] != '\n'
  {
    TakeAvoids(Normalize(p.text.GetOr("")), SnippetLimit, '\n');
  }

  /** An absent page reads as page 1, and absent text as an empty snippet. */
  lemma SnippetDefaults(points: seq<Point>, i: nat)
    requires BuildSnippets(points).Ok? && i < |points|
    ensures points[i].payload.page.None? ==> BuildSnippets(points).value[i].page == 1
    ensures points[i].payload.text.None? ==> BuildSnippets(points).value[i].snippet == ""
  {
    if points[i].payload.text.None? {
      assert Strip("") == "";
    }
  }

  /** A point without a document name makes the whole call fail. */
  lemma MissingSourceFails(points: seq<Point>, i: nat)
    requires i < |points| && points[i].payload.docName.None?
    ensures BuildSnippets(points).Err?
  {
  }
}

=== FILE: prompt.dfy ===
/** `build_messages`: the system prompt and the user message that lays
    out the question and the numbered snippets. The Jinja template is
    written out as concatenation: `-%}` after the loop tag drops the
    newline that follows it, and the template's final newline is dropped
    on rendering. */
module Prompt {

  import opened Strings
  import opened Pack

  /** A chat message: `{"role": ..., "content": ...}`. */
  datatype Message = Message(role: string, content: string)

  /** `SYS`. */
  const Sys: string :=
    "You are a legal assistant for Indian law.\n"
    + "Answer only using the numbered snippets provided below.\n"
    + "If missing info, reply exactly: \"Insufficient information in provided"
    + " sources.\"\n"
    + "Return ONLY valid JSON with keys: query, answer, citations.\n"
    + "In \"answer\", write in the user's language and include inline markers [1][2] that refer to the snippet numbers.\n"
    + "\"citations\" is an array of {source, page, snippet}. For the \"snippet\" value, use the full text from the corresponding numbered snippet.\n"
    + "Ensure 'page' is always an integer. If the snippet has no page, use page 0.\n"
    + "Do not include any text outside JSON.\n"

  const SnippetsHeader: string := "\n\nSnippets:\n"
  const Footer: string := "\n\nReturn JSON only."

  /** The text before the snippet lines. */
  function Header(q: string): string {
    "Question:\n" + q + SnippetsHeader
  }

  /** One rendered loop iteration: `[n] (source, p.page): snippet`. */
  function Line(s: Snippet): (r: string)
    ensures |r| > 0 && r[0] == '[' && r[|r| - 1] == '\n'
  {
    "[" + NatToDecimal(s.n) + "] (" + s.source + ", p." + IntToDecimal(s.page) + "): " + s.snippet + "\n"
  }

  /** The rendered loop iterations, one per snippet. */
  function LineTexts(ss: seq<Snippet>): (r: seq<string>)
    ensures |r| == |ss| && forall k :: 0 <= k < |ss| ==> r[k] == Line(ss[k])
  {
    seq(|ss|, k requires 0 <= k < |ss| => Line(ss[k]))
  }

  /** The rendered loop: one line per snippet, in order. */
  function Lines(ss: seq<Snippet>): string {
    Concat(LineTexts(ss))
  }

  /** `USR_TMPL.render(q=q, snippets=snippets)`. */
  function UserContent(q: string, ss: seq<Snippet>): string {
    Header(q) + Lines(ss) + Footer
  }

  /** `build_messages(q, snippets)`: the system message, then the user
      message. */
  function BuildMessages(q: string, ss: seq<Snippet>): (r: seq<Message>)
    ensures |r| == 2
    ensures r[0] == Message("system", Sys)
    ensures r[1].role == "user" && r[1].content == UserContent(q, ss)
  {
    [Message("system", Sys), Message("user", UserContent(q, ss))]
  }

  /** The user message opens with the question and closes with the JSON
      instruction, and the system message does not depend on either input. */
  lemma UserContentFrame(q: string, ss: seq<Snippet>)
    ensures StartsWith(UserContent(q, ss), "Question:\n" + q)
    ensures var c := UserContent(q, ss);
            |c| >= |Footer| && c[|c| - |Footer|..] == Footer
    ensures forall q', ss' :: BuildMessages(q, ss)[0] == BuildMessages(q', ss')[0]
  {
    var c := UserContent(q, ss);
    assert c[..|"Question:\n" + q|] == "Question:\n" + q;
  }

  /** Where the line of snippet `k` starts in the user message. */
  function LineStart(q: string, ss: seq<Snippet>, k: nat): nat
    requires k <= |ss|
  {
    |Header(q)| + |Lines(ss[..k])|
  }

  /** The lines of the first `k + 1` snippets end with the line of
      snippet `k`. */
  lemma LinesSnoc(ss: seq<Snippet>, k: nat)
    requires k < |ss|
    ensures Lines(ss[..k + 1]) == Lines(ss[..k]) + Line(ss[k])
  {
    var ls := LineTexts(ss);
    assert LineTexts(ss[..k + 1]) == ls[..k + 1];
    assert LineTexts(ss[..k]) == ls[..k];
    ConcatAround(ls[..k + 1], k);
    assert ls[..k + 1][..k] == ls[..k];
    assert ls[..k + 1][k + 1..] == [];
  }

  /** The rendered lines split around the line of snippet `k`. */
  lemma LinesAround(ss: seq<Snippet>, k: nat)
    requires k < |ss|
    ensures Lines(ss) == Lines(ss[..k]) + Line(ss[k]) + Concat(LineTexts(ss)[k + 1..])
  {
    var ls := LineTexts(ss);
    assert LineTexts(ss[..k]) == ls[..k];
    ConcatAround(ls, k);
  }

  /** The line of each snippet sits in the user message right after the
      lines of the snippets before it: the snippets are laid out one line
      each, in input order. */
  lemma LinesInOrder(q: string, ss: seq<Snippet>, k: nat)
    requires k < |ss|
    ensures LineStart(q, ss, k + 1) == LineStart(q, ss, k) + |Line(ss[k])|
    ensures LineStart(q, ss, k + 1) <= |UserContent(q, ss)|
    ensures UserContent(q, ss)[LineStart(q, ss, k)..LineStart(q, ss, k + 1)] == Line(ss[k])
  {
    LinesSnoc(ss, k);
    var h := Header(q);
    var pre := Lines(ss[..k]);
    var l := Line(ss[k]);
    var rest := Concat(LineTexts(ss)[k + 1..]);
    assert UserContent(q, ss) == (h + pre) + l + (rest + Footer) by {
      LinesAround(ss, k);
      Regroup(h, pre, l, rest, Footer);
    }
    SliceOfMiddle(h + pre, l, rest + Footer);
  }

  lemma Regroup(a: string, b: string, c: string, d: string, e: string)
    ensures a + (b + c + d) + e == (a + b) + c + (d + e)
  {
  }

  lemma SliceOfMiddle(a: string, b: string, c: string)
    ensures (a + b + c)[|a|..|a| + |b|] == b
  {
  }

  /** With no snippets, the user message is the question and the closing
      instruction alone. */
  lemma NoSnippetsMessage(q: string)
    ensures UserContent(q, []) == "Question:\n" + q + "\n\nSnippets:\n\n\nReturn JSON only."
  {
  }
}

=== FILE: query.dfy ===
/** The `/query` handler, the same in `app.py` and `app_backup.py`:
    route, rewrite, embed, search, dedup, pack, prompt, answer, repair,
    validate. The embedding, search, chat and JSON services are function
    parameters, and the calls made on them are returned as a trace. */
module Query {

  import opened Outcomes
  import opened Strings
  import opened Decision
  import opened Pack
  import opened Dedup
  import opened Prompt
  import opened Repair
  import opened Schemas
  import Indexer

  /** `TOP_K` when the environment does not set it. */
  const DefaultTopK: nat := 8
  /** `get_json_answer` asks for at most 900 tokens. */
  const AnswerMaxTokens: nat := 900

  /** The outside services the handler calls. */
  datatype Services = Services(
    embed: seq<string> -> seq<Indexer.Vector>,
    search: (Indexer.Vector, nat, Option<Filter>) -> seq<Point>,
    chat: ChatRequest -> string,
    parse: string -> Result<Json>)

  /** The service calls, in the order they are made. */
  datatype Call =
    | EmbedCall(texts: seq<string>)
    | SearchCall(vector: Indexer.Vector, limit: nat, filter: Option<Filter>)
    | ChatCall(request: ChatRequest)

  /** A JSON reply, the HTML report (its rendering is not modelled), or an
      exception that escapes the handler. */
  datatype Response = Reply(status: nat, body: Json) | Html(data: Json) | Crash(error: string)

  /** `body.get("query", "").strip()`; a value that is not a string has no
      `strip` and raises. */
  function QueryText(body: map<string, Json>): (r: Result<string>)
    ensures "query" !in body ==> r == Ok("")
    ensures "query" in body ==> (r.Ok? <==> body["query"].JStr?)
    ensures "query" in body && r.Ok? ==> r.value == Strip(body["query"].s)
  {
    if "query" !in body then Ok("")
    else match body["query"]
      case JStr(s) => Ok(Strip(s))
      case _ => Err("AttributeError: 'strip'")
  }

  /** The request for the answer, when `points` are what the search
      returned. */
  ghost function AnswerRequest(q: string, points: seq<Point>, topK: nat): ChatRequest
    requires BuildSnippets(Take(FirstOccurrences(points), topK)).Ok?
  {
    ChatRequest(BuildMessages(q, BuildSnippets(Take(FirstOccurrences(points), topK)).value), AnswerMaxTokens)
  }

  function ChatCalls(requests: seq<ChatRequest>): (r: seq<Call>)
    ensures |r| == |requests| && forall i :: 0 <= i < |r| ==> r[i] == ChatCall(requests[i])
  {
    seq(|requests|, i requires 0 <= i < |requests| => ChatCall(requests[i]))
  }

  /** The message of the `IndexError` raised by `embed_texts([q2])[0]`
      when the embedding list is empty. */
  const EmptyEmbedding := "IndexError: list index out of range"

  /** The body of the 500 reply for a validation failure. */
  function ValidationFailure(error: string, raw: string): Json {
    JObj(map["error" := JStr("JSON validation failed: " + error), "raw_response" := JStr(raw)])
  }

  /** The reply chosen for the parsed answer `data`: a 500 naming the
      validation error and the raw text when `AnswerJSON(**data)` fails,
      otherwise the HTML report or the data itself. */
  ghost predicate Judged(data: Json, raw: string, format: string, resp: Response) {
    var v := ValidateAnswer(data);
    && (v.Err? ==> resp == Reply(500, ValidationFailure(v.error, raw)))
    && (v.Ok? ==> resp == if format == "html" then Html(data) else Reply(200, data))
  }

  /** The handler from the search hits `points` on: the snippets of the
      first `TOP_K` distinct hits, the answer request built from them, the
      repair request if the answer does not parse, and the reply. */
  ghost predicate Responded(q: string, points: seq<Point>, topK: nat, format: string, svc: Services,
                            resp: Response, calls: seq<Call>) {
    var sn := BuildSnippets(Take(FirstOccurrences(points), topK));
    && (sn.Err? ==> resp == Crash(sn.error) && calls == [])
    && (sn.Ok? ==>
          var req := AnswerRequest(q, points, topK);
          var raw := svc.chat(req);
          var rep := ParseOrRepair(raw, svc.parse, svc.chat);
          && calls == [ChatCall(req)] + ChatCalls(rep.requests)
          && (rep.result.Err? ==> resp == Crash(rep.result.error))
          && (rep.result.Ok? ==> Judged(rep.result.value, raw, format, resp)))
  }

  /** The handler for the non-empty question `q`: the rewritten question
      is embedded; with no vector back the handler raises; otherwise the
      search asks for `3 * TOP_K` hits near the first vector under the
      routed filter, and the rest is `Responded` on those hits. */
  ghost predicate Handled(q: string, format: string, topK: nat, svc: Services, resp: Response, calls: seq<Call>) {
    var d := Decide(q);
    var q2 := RewriteQuery(q, d.boosts);
    var v := svc.embed([q2]);
    && |calls| >= 1 && calls[0] == EmbedCall([q2])
    && (|v| == 0 ==> calls == [EmbedCall([q2])] && resp == Crash(EmptyEmbedding))
    && (|v| > 0 ==>
          && |calls| >= 2
          && calls[1] == SearchCall(v[0], 3 * topK, d.filter)
          && Responded(q, svc.search(v[0], 3 * topK, d.filter), topK, format, svc, resp, calls[2..]))
  }

  /** `query(body, format)` with `TOP_K` as `topK`. */
  method HandleQuery(body: map<string, Json>, format: string, topK: nat, svc: Services)
    returns (resp: Response, calls: seq<Call>)
    ensures QueryText(body).Err? ==> resp == Crash(QueryText(body).error) && calls == []
    ensures QueryText(body) == Ok("") ==> resp == Reply(400, JObj(map["error" := JStr("empty query")])) && calls == []
    ensures QueryText(body).Ok? && QueryText(body).value != "" ==>
              Handled(QueryText(body).value, format, topK, svc, resp, calls)
    ensures |calls| <= 4
    ensures resp.Reply? && resp.status == 200 ==> ValidateAnswer(resp.body).Ok?
    ensures resp.Html? ==> format == "html" && ValidateAnswer(resp.data).Ok?
  {
    var text := QueryText(body);
    if text.Err? {
      return Crash(text.error), [];
    }
    var q := text.value;
    if q == "" {
      return Reply(400, JObj(map["error" := JStr("empty query")])), [];
    }
    resp, calls := Answer(q, format, topK, svc);
  }

  /** The handler once the question `q` is known not to be empty. */
  method Answer(q: string, format: string, topK: nat, svc: Services)
    returns (resp: Response, calls: seq<Call>)
    ensures Handled(q, format, topK, svc, resp, calls)
    ensures |calls| <= 4
    ensures resp.Reply? && resp.status == 200 ==> ValidateAnswer(resp.body).Ok?
    ensures resp.Html? ==> format == "html" && ValidateAnswer(resp.data).Ok?
  {
    var d := Decide(q);
    var q2 := RewriteQuery(q, d.boosts);
    var vecs := svc.embed([q2]);
    var embed := EmbedCall([q2]);
    if |vecs| == 0 {
      calls := [embed];
      resp := Crash(EmptyEmbedding);
    } else {
      var search := SearchCall(vecs[0], 3 * topK, d.filter);
      var points := svc.search(vecs[0], 3 * topK, d.filter);
      var rest;
      resp, rest := Respond(q, points, topK, format, svc);
      calls := [embed, search] + rest;
      TraceShape(embed, search, rest);
    }
  }

  lemma TraceShape(first: Call, second: Call, rest: seq<Call>)
    ensures |[first, second] + rest| == 2 + |rest|
    ensures ([first, second] + rest)[0] == first && ([first, second] + rest)[1] == second
    ensures ([first, second] + rest)[2..] == rest
  {
  }

  /** The handler from the search hits on: dedup, pack, prompt, answer,
      repair, validate. */
  method Respond(q: string, points: seq<Point>, topK: nat, format: string, svc: Services)
    returns (resp: Response, calls: seq<Call>)
    ensures Responded(q, points, topK, format, svc, resp, calls)
    ensures |calls| <= 2
    ensures resp.Reply? && resp.status == 200 ==> ValidateAnswer(resp.body).Ok?
    ensures resp.Html? ==> format == "html" && ValidateAnswer(resp.data).Ok?
  {
    var unique := DedupById(points);
    var snippets := BuildSnippets(Take(unique, topK));
    if snippets.Err? {
      return Crash(snippets.error), [];
    }
    var request := ChatRequest(BuildMessages(q, snippets.value), AnswerMaxTokens);
    var raw := svc.chat(request);
    var repaired := ParseOrRepair(raw, svc.parse, svc.chat);
    AtMostOneRepair(raw, svc.parse, svc.chat);
    calls := [ChatCall(request)] + ChatCalls(repaired.requests);
    if repaired.result.Err? {
      return Crash(repaired.result.error), calls;
    }
    var data := repaired.result.value;
    var valid := ValidateAnswer(data);
    if valid.Err? {
      resp := Reply(500, ValidationFailure(valid.error, raw));
    } else if format == "html" {
      resp := Html(data);
    } else {
      resp := Reply(200, data);
    }
  }

  /** At most `TOP_K` snippets reach the prompt, one per distinct id, in
      the order the search ranked them. */
  lemma AtMostTopKSnippets(points: seq<Point>, topK: nat)
    requires BuildSnippets(Take(FirstOccurrences(points), topK)).Ok?
    ensures |BuildSnippets(Take(FirstOccurrences(points), topK)).value| <= topK
    ensures var sel := Take(FirstOccurrences(points), topK);
            forall k, l :: 0 <= k < l < |sel| ==> sel[k].id != sel[l].id
  {
    DedupNoDuplicates(points);
  }
}

=== FILE: repair.dfy ===
/** `parse_or_repair`: a model answer that does not parse as JSON gets
    exactly one repair round through the chat model. The JSON parser and
    the chat model are function parameters. */
module Repair {

  import opened Outcomes
  import opened Prompt

  const RepairSys: string := "You output JSON only. Do not include any extra text."
  /** `REPAIR_USER` up to its `{}` placeholder, which is its end. */
  const RepairUserPrefix: string := "Repair the following into valid JSON only, keeping the same keys and content:\n\n"
  const RepairMaxTokens: nat := 900

  /** A call of `chat_json(messages, max_tokens=...)`. */
  datatype ChatRequest = ChatRequest(messages: seq<Message>, maxTokens: nat)

  /** The outcome of `parse_or_repair` and the chat calls it made. A parse
      failure that escapes is the `Err` result. */
  datatype Repaired<J> = Repaired(result: Result<J>, requests: seq<ChatRequest>)

  /** The repair request for `raw`. */
  function RepairRequest(raw: string): (r: ChatRequest)
    ensures r.maxTokens == RepairMaxTokens && |r.messages| == 2
    ensures r.messages[0] == Message("system", RepairSys)
    ensures r.messages[1] == Message("user", RepairUserPrefix + raw)
    ensures |RepairUserPrefix| <= |r.messages[1].content|
    ensures r.messages[1].content[|RepairUserPrefix|..] == raw
  {
    ChatRequest([Message("system", RepairSys), Message("user", RepairUserPrefix + raw)], RepairMaxTokens)
  }

  /** `parse_or_repair(raw)` with `parse` for `json.loads` and `chat` for
      `chat_json`. */
  function ParseOrRepair<J>(raw: string, parse: string -> Result<J>, chat: ChatRequest -> string)
    : (r: Repaired<J>)
    ensures parse(raw).Ok? ==> r.result == parse(raw) && r.requests == []
    ensures parse(raw).Err? ==> r.requests == [RepairRequest(raw)]
    ensures parse(raw).Err? ==> r.result == parse(chat(RepairRequest(raw)))
  {
    match parse(raw)
    case Ok(v) => Repaired(Ok(v), [])
    case Err(_) =>
      var req := RepairRequest(raw);
      Repaired(parse(chat(req)), [req])
  }

  /** At most one repair call, and one exactly when the raw answer does not
      parse. */
  lemma AtMostOneRepair<J>(raw: string, parse: string -> Result<J>, chat: ChatRequest -> string)
    ensures |ParseOrRepair(raw, parse, chat).requests| <= 1
    ensures |ParseOrRepair(raw, parse, chat).requests| == 1 <==> parse(raw).Err?
  {
  }

  /** The call succeeds exactly when the raw answer parses or its repair
      does: a repair that fails to parse is not retried. */
  lemma RepairSucceedsIff<J>(raw: string, parse: string -> Result<J>, chat: ChatRequest -> string)
    ensures ParseOrRepair(raw, parse, chat).result.Ok?
            <==> parse(raw).Ok? || parse(chat(RepairRequest(raw))).Ok?
  {
  }

  /** The chat model is consulted only on a parse failure: with a parsable
      answer the result does not depend on it. */
  lemma NoRepairOnSuccess<J>(raw: string, parse: string -> Result<J>, chat: ChatRequest -> string, chat': ChatRequest -> string)
    requires parse(raw).Ok?
    ensures ParseOrRepair(raw, parse, chat) == ParseOrRepair(raw, parse, chat')
  {
  }
}

=== FILE: schemas.dfy ===
/** `Citation` and `AnswerJSON` as a check on a parsed JSON value: which
    values validate, and the record they validate to. */
module Schemas {

  import opened Outcomes

  /** A value `json.loads` can return. Numbers that are not integers are
      kept as reals; their precision is not modelled. */
  datatype Json =
    | JNull
    | JBool(b: bool)
    | JInt(i: int)
    | JNum(x: real)
    | JStr(s: string)
    | JArr(items: seq<Json>)
    | JObj(fields: map<string, Json>)

  datatype Citation = Citation(source: string, page: int, snippet: string)
  datatype Answer = Answer(query: string, answer: string, citations: seq<Citation>)

  /** `page: int = 1`. */
  const DefaultPage: int := 1

  /** A required `str` field. */
  function StrField(o: map<string, Json>, key: string): (r: Result<string>)
    ensures r.Ok? <==> key in o && o[key].JStr?
    ensures r.Ok? ==> o[key] == JStr(r.value)
  {
    if key in o && o[key].JStr? then Ok(o[key].s) else Err(key + ": field required or not a string")
  }

  /** The `page` field: an integer, or 1 when absent. */
  function PageField(o: map<string, Json>): (r: Result<int>)
    ensures "page" !in o ==> r == Ok(DefaultPage)
    ensures "page" in o ==> (r.Ok? <==> o["page"].JInt?)
    ensures "page" in o && r.Ok? ==> o["page"] == JInt(r.value)
  {
    if "page" !in o then Ok(DefaultPage)
    else if o["page"].JInt? then Ok(o["page"].i)
    else Err("page: not an integer")
  }

  /** `Citation(**c)`. */
  function ValidateCitation(j: Json): (r: Result<Citation>)
    ensures r.Ok? <==> j.JObj? && StrField(j.fields, "source").Ok? && StrField(j.fields, "snippet").Ok?
                       && PageField(j.fields).Ok?
    ensures r.Ok? ==> r.value == Citation(StrField(j.fields, "source").value, PageField(j.fields).value,
                                          StrField(j.fields, "snippet").value)
  {
    if !j.JObj? then Err("citation: not an object")
    else
      var o := j.fields;
      match (StrField(o, "source"), PageField(o), StrField(o, "snippet"))
      case (Ok(source), Ok(page), Ok(snippet)) => Ok(Citation(source, page, snippet))
      case (Err(e), _, _) => Err(e)
      case (_, Err(e), _) => Err(e)
      case (_, _, Err(e)) => Err(e)
  }

  /** `List[Citation]`: every item must validate. */
  function ValidateCitations(items: seq<Json>): (r: Result<seq<Citation>>)
    ensures r.Ok? <==> forall i :: 0 <= i < |items| ==> ValidateCitation(items[i]).Ok?
    ensures r.Ok? ==> |r.value| == |items|
    ensures r.Ok? ==> forall i :: 0 <= i < |items| ==> ValidateCitation(items[i]) == Ok(r.value[i])
    decreases |items|
  {
    if items == [] then Ok([])
    else
      match (ValidateCitation(items[0]), ValidateCitations(items[1..]))
      case (Ok(c), Ok(rest)) =>
        assert forall i :: 1 <= i < |items| ==> items[i] == items[1..][i - 1];
        Ok([c] + rest)
      case (Err(e), _) => Err(e)
      case (_, Err(e)) =>
        assert exists i :: 1 <= i < |items| && ValidateCitation(items[i]).Err? by {
          var i :| 0 <= i < |items[1..]| && ValidateCitation(items[1..][i]).Err?;
          assert items[1..][i] == items[i + 1];
        }
        Err(e)
  }

  /** `AnswerJSON(**data)`: the three fields are required, other keys are
      ignored. */
  function ValidateAnswer(j: Json): (r: Result<Answer>)
    ensures r.Ok? ==> j.JObj? && "citations" in j.fields && j.fields["citations"].JArr?
    ensures r.Ok? ==> |r.value.citations| == |j.fields["citations"].items|
    ensures r.Ok? <==>
              && j.JObj?
              && "query" in j.fields && j.fields["query"].JStr?
              && "answer" in j.fields && j.fields["answer"].JStr?
              && "citations" in j.fields && j.fields["citations"].JArr?
              && forall i :: 0 <= i < |j.fields["citations"].items| ==>
                   ValidateCitation(j.fields["citations"].items[i]).Ok?
    ensures r.Ok? ==>
              && j.fields["query"] == JStr(r.value.query)
              && j.fields["answer"] == JStr(r.value.answer)
              && forall i :: 0 <= i < |r.value.citations| ==>
                   ValidateCitation(j.fields["citations"].items[i]) == Ok(r.value.citations[i])
  {
    if !j.JObj? then Err("data: not an object")
    else
      var o := j.fields;
      match (StrField(o, "query"), StrField(o, "answer"))
      case (Ok(query), Ok(answer)) =>
        if "citations" in o && o["citations"].JArr? then
          match ValidateCitations(o["citations"].items)
          case Ok(cs) => Ok(Answer(query, answer, cs))
          case Err(e) => Err(e)
        else Err("citations: field required or not a list")
      case (Err(e), _) => Err(e)
      case (_, Err(e)) => Err(e)
  }

  // ---------------------------------------------------------------------
  // the JSON form of a record

  function CitationToJson(c: Citation): Json {
    JObj(map["source" := JStr(c.source), "page" := JInt(c.page), "snippet" := JStr(c.snippet)])
  }

  function CitationsToJson(cs: seq<Citation>): (r: seq<Json>)
    ensures |r| == |cs| && forall i :: 0 <= i < |cs| ==> r[i] == CitationToJson(cs[i])
  {
    seq(|cs|, i requires 0 <= i < |cs| => CitationToJson(cs[i]))
  }

  function AnswerToJson(a: Answer): Json {
    JObj(map["query" := JStr(a.query), "answer" := JStr(a.answer), "citations" := JArr(CitationsToJson(a.citations))])
  }

  /** Every answer record, written out as JSON, validates back to itself. */
  lemma AnswerRoundTrip(a: Answer)
    ensures ValidateAnswer(AnswerToJson(a)) == Ok(a)
  {
    var items := CitationsToJson(a.citations);
    forall i | 0 <= i < |items| ensures ValidateCitation(items[i]) == Ok(a.citations[i]) {
      CitationRoundTrip(a.citations[i]);
    }
    var r := ValidateCitations(items);
    assert r.value == a.citations;
  }

  lemma CitationRoundTrip(c: Citation)
    ensures ValidateCitation(CitationToJson(c)) == Ok(c)
  {
    var o := CitationToJson(c).fields;
    assert StrField(o, "source") == Ok(c.source);
    assert StrField(o, "snippet") == Ok(c.snippet);
    assert PageField(o) == Ok(c.page);
  }

  /** A citation without a page validates with page 1. */
  lemma PageDefaultsToOne(source: string, snippet: string)
    ensures ValidateCitation(JObj(map["source" := JStr(source), "snippet" := JStr(snippet)]))
            == Ok(Citation(source, 1, snippet))
  {
    var o := map["source" := JStr(source), "snippet" := JStr(snippet)];
    assert StrField(o, "source") == Ok(source);
    assert StrField(o, "snippet") == Ok(snippet);
    assert "page" !in o;
  }

  /** A citation needs its source and its snippet. */
  lemma CitationNeedsSourceAndSnippet(o: map<string, Json>)
    requires "source" !in o || "snippet" !in o
    ensures ValidateCitation(JObj(o)).Err?
  {
  }

  /** An answer needs its query, its answer text and its citation list. */
  lemma AnswerNeedsFields(o: map<string, Json>)
    requires "query" !in o || "answer" !in o || "citations" !in o
    ensures ValidateAnswer(JObj(o)).Err?
  {
  }

  /** Keys other than the three fields do not change the verdict. */
  lemma ExtraKeysIgnored(o: map<string, Json>, k: string, v: Json)
    requires k != "query" && k != "answer" && k != "citations"
    ensures ValidateAnswer(JObj(o[k := v])) == ValidateAnswer(JObj(o))
  {
    var o' := o[k := v];
    assert StrField(o', "query") == StrField(o, "query");
    assert StrField(o', "answer") == StrField(o, "answer");
    assert ("citations" in o') == ("citations" in o);
    if "citations" in o {
      assert o'["citations"] == o["citations"];
    }
  }

  /** Nothing ties the `[n]` markers of the answer to the citations: an
      answer citing snippet 3 with no citation at all validates. */
  lemma MarkersNotChecked()
    ensures ValidateAnswer(AnswerToJson(Answer("q", "See [3].", []))) == Ok(Answer("q", "See [3].", []))
  {
    AnswerRoundTrip(Answer("q", "See [3].", []));
  }
}

=== FILE: sentences.dfy ===
/** Sentence splitting and greedy sentence packing of `chunk_page`
    (ingest/chunk.py): the page text is cut at every whitespace run that
    follows `.`, `?` or `!`, the pieces are stripped and empty ones dropped,
    and the sentences are packed greedily into chunks of about
    `target_tokens` whitespace tokens, the last `overlap_sentences`
    sentences of a closed chunk seeding the next one.

    A chunk under construction (`cur` in the source) is always a contiguous
    run `sents[start..i]` of the sentence list, so chunks are modelled as
    spans of sentence indices. */
module Sentences {

  import opened Strings

  predicate IsTerminal(c: char) {
    c == '.' || c == '?' || c == '!'
  }

  /** The pattern `(?<=[.?!])\s+` can start a match at position `i`. */
  predicate BreakAt(t: string, i: nat) {
    0 < i < |t| && IsSpace(t[i]) && IsTerminal(t[i - 1])
  }

  /** No sentence boundary lies strictly inside `p`. */
  ghost predicate NoBreakInside(p: string) {
    forall k :: 0 < k < |p| ==> !(IsSpace(p[k]) && IsTerminal(p[k - 1]))
  }

  // ---------------------------------------------------------------------
  // splitting

  /** `re.split` of `t[from..]` by the sentence pattern, scanning from `i`;
      every match is the whole whitespace run after the punctuation. */
  function SplitFrom(t: string, from: nat, i: nat): (pieces: seq<string>)
    requires from <= i <= |t|
    requires forall k :: from < k < i ==> !BreakAt(t, k)
    ensures |pieces| >= 1
    ensures forall k :: 0 <= k < |pieces| ==> NoBreakInside(pieces[k])
    decreases |t| - i
  {
    if i == |t| then
      assert NoBreakInside(t[from..]) by {
        forall k | 0 < k < |t| - from ensures !(IsSpace(t[from..][k]) && IsTerminal(t[from..][k - 1])) {
          assert !BreakAt(t, from + k);
        }
      }
      [t[from..]]
    else if BreakAt(t, i) then
      var j := SpaceRunEnd(t, i);
      assert NoBreakInside(t[from..i]) by {
        forall k | 0 < k < i - from ensures !(IsSpace(t[from..i][k]) && IsTerminal(t[from..i][k - 1])) {
          assert !BreakAt(t, from + k);
        }
      }
      [t[from..i]] + SplitFrom(t, j, j)
    else
      SplitFrom(t, from, i + 1)
  }

  /** Dropping a whitespace separator `t[i..j]` loses no content. */
  lemma {:induction false} SeparatorDropped(t: string, from: nat, i: nat, j: nat, rest: string)
    requires from <= i <= j <= |t|
    requires AllSpace(t[i..j])
    requires NonSpace(rest) == NonSpace(t[j..])
    ensures NonSpace(t[from..i] + rest) == NonSpace(t[from..])
  {
    NonSpaceAppend(t[from..i], rest);
    NonSpaceSlices(t, from, i);
    NonSpaceSlices(t, i, j);
    NonSpaceOfAllSpace(t[i..j]);
  }

  /** Only whitespace separators are removed by the split. */
  lemma {:induction false} SplitKeepsContent(t: string, from: nat, i: nat)
    requires from <= i <= |t|
    requires forall k :: from < k < i ==> !BreakAt(t, k)
    ensures NonSpace(Concat(SplitFrom(t, from, i))) == NonSpace(t[from..])
    decreases |t| - i
  {
    if i == |t| {
      assert SplitFrom(t, from, i) == [t[from..]];
      ConcatCons(t[from..], []);
      assert t[from..] + "" == t[from..];
    } else if BreakAt(t, i) {
      var j := SpaceRunEnd(t, i);
      SpaceRunSpaces(t, i);
      var rest := SplitFrom(t, j, j);
      assert SplitFrom(t, from, i) == [t[from..i]] + rest;
      SplitKeepsContent(t, j, j);
      ConcatCons(t[from..i], rest);
      SeparatorDropped(t, from, i, j, Concat(rest));
    } else {
      SplitKeepsContent(t, from, i + 1);
    }
  }

  /** The whitespace runs `re.split` consumes, in order, scanning from `i`. */
  ghost function SplitSeparators(t: string, from: nat, i: nat): seq<string>
    requires from <= i <= |t|
    decreases |t| - i
  {
    if i == |t| then []
    else if BreakAt(t, i) then
      var j := SpaceRunEnd(t, i);
      [t[i..j]] + SplitSeparators(t, j, j)
    else
      SplitSeparators(t, from, i + 1)
  }

  /** `pieces[0] + ws[0] + pieces[1] + ... + pieces[n]`. */
  ghost function Interleave(pieces: seq<string>, ws: seq<string>): string
    requires |pieces| == |ws| + 1
    decreases |ws|
  {
    if |ws| == 0 then pieces[0] else pieces[0] + ws[0] + Interleave(pieces[1..], ws[1..])
  }

  /** `pieces` is `t` cut at sentence boundaries: the separators `ws` between
      them are whole whitespace runs, each follows a piece ending in `.`, `?`
      or `!`, and each is followed by a piece that is empty or starts with
      something other than whitespace. */
  ghost predicate CutAtBoundaries(t: string, pieces: seq<string>, ws: seq<string>) {
    && |pieces| == |ws| + 1
    && Interleave(pieces, ws) == t
    && (forall k :: 0 <= k < |ws| ==> ws[k] != [] && AllSpace(ws[k]))
    && (forall k :: 0 <= k < |pieces| - 1 ==> pieces[k] != [] && IsTerminal(pieces[k][|pieces[k]| - 1]))
    && (forall k :: 0 < k < |pieces| ==> pieces[k] == [] || !IsSpace(pieces[k][0]))
  }

  lemma {:induction false} SplitCutsFrom(t: string, from: nat, i: nat)
    requires from <= i <= |t|
    requires forall k :: from < k < i ==> !BreakAt(t, k)
    requires !BreakAt(t, from)
    ensures CutAtBoundaries(t[from..], SplitFrom(t, from, i), SplitSeparators(t, from, i))
    ensures var p := SplitFrom(t, from, i)[0]; p != [] ==> p[0] == t[from]
    decreases |t| - i
  {
    var pieces := SplitFrom(t, from, i);
    var ws := SplitSeparators(t, from, i);
    if i == |t| {
      assert pieces == [t[from..]] && ws == [];
    } else if BreakAt(t, i) {
      var j := SpaceRunEnd(t, i);
      SpaceRunSpaces(t, i);
      var rest := SplitFrom(t, j, j);
      var rws := SplitSeparators(t, j, j);
      assert pieces == [t[from..i]] + rest;
      assert ws == [t[i..j]] + rws;
      SplitCutsFrom(t, j, j);
      CutStep(t, from, i, j, rest, rws);
    } else {
      SplitCutsFrom(t, from, i + 1);
    }
  }

  /** One boundary step: the piece `t[from..i]` and the separator `t[i..j]`
      in front of a cut of `t[j..]`. */
  lemma CutStep(t: string, from: nat, i: nat, j: nat, rest: seq<string>, rws: seq<string>)
    requires from < i < j <= |t|
    requires IsTerminal(t[i - 1])
    requires forall k :: i <= k < j ==> IsSpace(t[k])
    requires j == |t| || !IsSpace(t[j])
    requires CutAtBoundaries(t[j..], rest, rws)
    requires rest[0] != [] ==> rest[0][0] == t[j]
    ensures CutAtBoundaries(t[from..], [t[from..i]] + rest, [t[i..j]] + rws)
  {
    var pieces := [t[from..i]] + rest;
    var ws := [t[i..j]] + rws;
    assert pieces[1..] == rest && ws[1..] == rws;
    assert t[from..i] + t[i..j] + t[j..] == t[from..];
    assert forall k :: 0 < k < |pieces| ==> pieces[k] == rest[k - 1];
    assert forall k :: 0 < k < |ws| ==> ws[k] == rws[k - 1];
  }

  /** The cut `re.split` makes of a whole page. */
  lemma SplitCuts(t: string)
    ensures CutAtBoundaries(t, SplitFrom(t, 0, 0), SplitSeparators(t, 0, 0))
  {
    SplitCutsFrom(t, 0, 0);
    assert t[0..] == t;
  }

  /** What survives cleaning: a non-empty string without surrounding whitespace. */
  ghost predicate IsSentence(s: string) {
    s != [] && IsStripped(s)
  }

  /** `[s.strip() for s in pieces if s.strip()]`. */
  function CleanSentences(pieces: seq<string>): (r: seq<string>)
    ensures |r| <= |pieces|
    ensures forall k :: 0 <= k < |r| ==> IsSentence(r[k])
    decreases |pieces|
  {
    if |pieces| == 0 then []
    else
      var s := Strip(pieces[0]);
      var rest := CleanSentences(pieces[1..]);
      if s != [] then
        assert IsSentence(s);
        assert forall k :: 0 < k <= |rest| ==> ([s] + rest)[k] == rest[k - 1];
        [s] + rest
      else rest
  }

  /** The sentences of a page, as `chunk_page` computes them. */
  function SplitSentences(t: string): (r: seq<string>)
    ensures forall k :: 0 <= k < |r| ==> IsSentence(r[k])
  {
    CleanSentences(SplitFrom(t, 0, 0))
  }

  lemma {:induction false} CleanKeepsContent(pieces: seq<string>)
    ensures NonSpace(Concat(CleanSentences(pieces))) == NonSpace(Concat(pieces))
    decreases |pieces|
  {
    if |pieces| > 0 {
      var s := Strip(pieces[0]);
      var head: seq<string> := if s != [] then [s] else [];
      CleanKeepsContent(pieces[1..]);
      ConcatAppend(head, CleanSentences(pieces[1..]));
      NonSpaceAppend(Concat(head), Concat(CleanSentences(pieces[1..])));
      NonSpaceAppend(pieces[0], Concat(pieces[1..]));
      StripKeepsContent(pieces[0]);
      assert Concat(head) == s by {
        if s != [] { assert Concat([s]) == s + Concat([]); }
      }
    }
  }

  lemma {:induction false} StrippedPieceHasNoBreak(p: string)
    requires NoBreakInside(p)
    ensures NoBreakInside(Strip(p))
  {
    TrimStartKeepsNoBreak(p);
    TrimEndKeepsNoBreak(TrimStart(p));
  }

  lemma {:induction false} TrimStartKeepsNoBreak(p: string)
    requires NoBreakInside(p)
    ensures NoBreakInside(TrimStart(p))
  {
    NoBreakInsideSuffix(p, |p| - |TrimStart(p)|);
  }

  lemma {:induction false} TrimEndKeepsNoBreak(l: string)
    requires NoBreakInside(l)
    ensures NoBreakInside(TrimEnd(l))
  {
    var r := TrimEnd(l);
    forall k | 0 < k < |r| ensures !(IsSpace(r[k]) && IsTerminal(r[k - 1])) {
      assert r[k] == l[k] && r[k - 1] == l[k - 1];
    }
  }

  lemma NoBreakInsideSuffix(p: string, d: nat)
    requires d <= |p| && NoBreakInside(p)
    ensures NoBreakInside(p[d..])
  {
    var s := p[d..];
    forall k | 0 < k < |s| ensures !(IsSpace(s[k]) && IsTerminal(s[k - 1])) {
      assert s[k] == p[d + k] && s[k - 1] == p[d + k - 1];
    }
  }


  lemma {:induction false} CleanHasNoBreak(pieces: seq<string>)
    requires forall k :: 0 <= k < |pieces| ==> NoBreakInside(pieces[k])
    ensures forall k :: 0 <= k < |CleanSentences(pieces)| ==> NoBreakInside(CleanSentences(pieces)[k])
    decreases |pieces|
  {
    if |pieces| > 0 {
      CleanHasNoBreak(pieces[1..]);
      StrippedPieceHasNoBreak(pieces[0]);
    }
  }

  /** Splitting loses nothing but whitespace, cuts at every boundary, and
      leaves only stripped non-empty sentences; so a page yields no sentence
      exactly when it is all whitespace. */
  lemma SentencesOfPage(t: string)
    ensures NonSpace(Concat(SplitSentences(t))) == NonSpace(t)
    ensures forall k :: 0 <= k < |SplitSentences(t)| ==> NoBreakInside(SplitSentences(t)[k])
    ensures SplitSentences(t) == [] <==> AllSpace(t)
  {
    var ss := SplitSentences(t);
    assert NonSpace(Concat(ss)) == NonSpace(t) by {
      SplitKeepsContent(t, 0, 0);
      CleanKeepsContent(SplitFrom(t, 0, 0));
      assert t[0..] == t;
    }
    assert forall k :: 0 <= k < |ss| ==> NoBreakInside(ss[k]) by {
      CleanHasNoBreak(SplitFrom(t, 0, 0));
    }
    NonSpaceEmptyIffAllSpace(t);
    if ss != [] {
      var c := Concat(ss);
      assert c == ss[0] + Concat(ss[1..]);
      assert c[0] == ss[0][0] && !IsSpace(c[0]);
      assert NonSpace(c) != [];
    }
  }

  // ---------------------------------------------------------------------
  // packing

  /** `tokens(x) = max(1, len(x.split()))`. */
  function Tokens(s: string): (n: nat)
    ensures n >= 1
    ensures n == 1 <==> WordCount(s) <= 1
    ensures WordCount(s) > 0 ==> n == WordCount(s)
  {
    if WordCount(s) == 0 then 1 else WordCount(s)
  }

  /** A blank sentence still costs one token, and a sentence of words
      costs one token per word. */
  lemma TokensOfWords(s: string, ws: seq<string>)
    requires forall k :: 0 <= k < |ws| ==> IsWord(ws[k])
    ensures AllSpace(s) ==> Tokens(s) == 1
    ensures |ws| > 0 ==> Tokens(Join(" ", ws)) == |ws|
  {
    WordCountZeroIffBlank(s);
    WordCountOfWords(ws);
  }

  /** Token estimate of the sentences `sents[lo..hi]`. */
  function SumTokens(sents: seq<string>, lo: nat, hi: nat): nat
    requires lo <= hi <= |sents|
    decreases hi - lo
  {
    if lo == hi then 0 else SumTokens(sents, lo, hi - 1) + Tokens(sents[hi - 1])
  }

  /** A chunk: the sentences `sents[lo..hi]`. */
  datatype Span = Span(lo: nat, hi: nat)

  /** Start of `cur[-overlap:] if overlap else []` when `cur` is
      `sents[lo..hi]`. */
  function Carry(lo: nat, hi: nat, overlap: nat): nat
    requires lo <= hi
  {
    if overlap > 0 then Max(lo, hi - overlap) else hi
  }

  /** Every chunk is a non-empty run of sentences at or after `start`. */
  ghost predicate RunsFrom(sents: seq<string>, start: nat, spans: seq<Span>) {
    forall k :: 0 <= k < |spans| ==> start <= spans[k].lo < spans[k].hi <= |sents|
  }

  /** Each next chunk starts at the carried seed of the previous one and
      reaches further. */
  ghost predicate Chained(overlap: nat, spans: seq<Span>) {
    forall k :: 0 <= k < |spans| - 1 ==> Linked(overlap, spans, k)
  }

  ghost predicate Linked(overlap: nat, spans: seq<Span>, k: nat)
    requires k < |spans| - 1
  {
    spans[k].lo <= spans[k].hi
    && spans[k + 1].lo == Carry(spans[k].lo, spans[k].hi, overlap) && spans[k].hi < spans[k + 1].hi
  }

  /** Every chunk but the last was closed because its next sentence would
      push it over `target`. */
  ghost predicate ClosedGreedily(sents: seq<string>, target: int, spans: seq<Span>) {
    forall k :: 0 <= k < |spans| - 1 ==>
      spans[k].lo <= spans[k].hi < |sents|
      && SumTokens(sents, spans[k].lo, spans[k].hi) + Tokens(sents[spans[k].hi]) > target
  }

  /** Past its carried seed, every prefix of a chunk fits the target. */
  ghost predicate FitsPastSeed(sents: seq<string>, target: int, overlap: nat, spans: seq<Span>) {
    forall k, e :: 0 <= k < |spans| && spans[k].lo + overlap + 1 < e <= spans[k].hi <= |sents| ==>
      SumTokens(sents, spans[k].lo, e) <= target
  }

  /** The packing discipline for the chunks emitted from loop state
      (`start`, `i`) on. */
  ghost predicate PackedFrom(sents: seq<string>, target: int, overlap: nat, i: nat, start: nat, spans: seq<Span>) {
    && (|spans| == 0 <==> start == |sents|)
    && RunsFrom(sents, start, spans)
    && (|spans| > 0 ==> spans[0].lo == start && spans[0].hi >= i && spans[|spans| - 1].hi == |sents|)
    && Chained(overlap, spans)
    && ClosedGreedily(sents, target, spans)
    && FitsPastSeed(sents, target, overlap, spans)
  }

  /** Every prefix of two or more sentences of `sents[lo..hi]` fits the
      target. */
  ghost predicate PrefixesFit(sents: seq<string>, target: int, lo: nat, hi: nat) {
    forall e :: lo + 1 < e <= hi <= |sents| ==> SumTokens(sents, lo, e) <= target
  }

  /** The packing loop of `chunk_page` from sentence `i` on, with
      `cur == sents[start..i]` and `cur_len == curLen`; returns the chunks
      emitted from here on, the final partial chunk included. */
  function PackFrom(sents: seq<string>, target: int, overlap: nat, i: nat, start: nat, curLen: int)
    : (spans: seq<Span>)
    requires start <= i <= |sents|
    requires curLen == SumTokens(sents, start, i)
    requires forall e :: start + overlap + 1 < e <= i ==> SumTokens(sents, start, e) <= target
    ensures PackedFrom(sents, target, overlap, i, start, spans)
    ensures PrefixesFit(sents, target, start, i) && |spans| > 0 ==> PrefixesFit(sents, target, spans[0].lo, spans[0].hi)
    decreases |sents| - i
  {
    if i == |sents| then
      if start < i then [Span(start, i)] else []
    else
      var s := sents[i];
      if curLen + Tokens(s) > target && start < i then
        var ns := Carry(start, i, overlap);
        var rest := PackFrom(sents, target, overlap, i + 1, ns, SumTokens(sents, ns, i) + Tokens(s));
        EmitStep(sents, target, overlap, i, start, rest);
        [Span(start, i)] + rest
      else
        PackFrom(sents, target, overlap, i + 1, start, curLen + Tokens(s))
  }

  /** Closing the chunk `sents[start..i]` keeps the discipline. */
  lemma EmitStep(sents: seq<string>, target: int, overlap: nat, i: nat, start: nat, rest: seq<Span>)
    requires start < i < |sents|
    requires SumTokens(sents, start, i) + Tokens(sents[i]) > target
    requires forall e :: start + overlap + 1 < e <= i ==> SumTokens(sents, start, e) <= target
    requires PackedFrom(sents, target, overlap, i + 1, Carry(start, i, overlap), rest)
    ensures PackedFrom(sents, target, overlap, i, start, [Span(start, i)] + rest)
  {
    EmitRuns(sents, start, i, Carry(start, i, overlap), rest);
    EmitChained(overlap, start, i, rest);
    EmitGreedy(sents, target, start, i, rest);
    EmitFits(sents, target, overlap, start, i, rest);
  }

  lemma EmitRuns(sents: seq<string>, start: nat, i: nat, ns: nat, rest: seq<Span>)
    requires start <= ns && start < i <= |sents|
    requires RunsFrom(sents, ns, rest)
    ensures RunsFrom(sents, start, [Span(start, i)] + rest)
  {
    var spans := [Span(start, i)] + rest;
    forall k | 0 < k < |spans| ensures start <= spans[k].lo < spans[k].hi <= |sents| {
      assert spans[k] == rest[k - 1];
    }
  }

  lemma EmitChained(overlap: nat, start: nat, i: nat, rest: seq<Span>)
    requires start < i
    requires Chained(overlap, rest)
    requires |rest| > 0 ==> rest[0].lo == Carry(start, i, overlap) && rest[0].hi > i
    ensures Chained(overlap, [Span(start, i)] + rest)
  {
    var spans := [Span(start, i)] + rest;
    forall k | 0 <= k < |spans| - 1 ensures Linked(overlap, spans, k) {
      assert spans[k + 1] == rest[k];
      if k > 0 { assert spans[k] == rest[k - 1]; assert Linked(overlap, rest, k - 1); }
    }
  }

  lemma EmitGreedy(sents: seq<string>, target: int, start: nat, i: nat, rest: seq<Span>)
    requires start < i < |sents|
    requires SumTokens(sents, start, i) + Tokens(sents[i]) > target
    requires ClosedGreedily(sents, target, rest)
    ensures ClosedGreedily(sents, target, [Span(start, i)] + rest)
  {
    var spans := [Span(start, i)] + rest;
    forall k | 0 < k < |spans| - 1
      ensures spans[k].lo <= spans[k].hi < |sents|
              && SumTokens(sents, spans[k].lo, spans[k].hi) + Tokens(sents[spans[k].hi]) > target
    {
      assert spans[k] == rest[k - 1];
    }
  }

  lemma EmitFits(sents: seq<string>, target: int, overlap: nat, start: nat, i: nat, rest: seq<Span>)
    requires start < i <= |sents|
    requires forall e :: start + overlap + 1 < e <= i ==> SumTokens(sents, start, e) <= target
    requires FitsPastSeed(sents, target, overlap, rest)
    ensures FitsPastSeed(sents, target, overlap, [Span(start, i)] + rest)
  {
    var spans := [Span(start, i)] + rest;
    forall k, e | 0 <= k < |spans| && spans[k].lo + overlap + 1 < e <= spans[k].hi <= |sents|
      ensures SumTokens(sents, spans[k].lo, e) <= target
    {
      if k > 0 { assert spans[k] == rest[k - 1]; }
    }
  }

  /** The chunk spans of a sentence list. */
  function Pack(sents: seq<string>, target: int, overlap: nat): seq<Span> {
    PackFrom(sents, target, overlap, 0, 0, 0)
  }

  /** `" ".join(cur)` for a span. */
  function SpanText(sents: seq<string>, sp: Span): string
    requires sp.lo <= sp.hi <= |sents|
  {
    Join(" ", sents[sp.lo..sp.hi])
  }

  ghost predicate SpansIn(spans: seq<Span>, n: nat) {
    forall k :: 0 <= k < |spans| ==> spans[k].lo < spans[k].hi <= n
  }

  /** The chunk texts of a sentence list, in emission order. */
  function PackTexts(sents: seq<string>, target: int, overlap: nat): (r: seq<string>)
    ensures |r| == |Pack(sents, target, overlap)|
    ensures forall k :: 0 <= k < |r| ==> r[k] == SpanText(sents, Pack(sents, target, overlap)[k])
  {
    var spans := Pack(sents, target, overlap);
    seq(|spans|, k requires 0 <= k < |spans| => SpanText(sents, spans[k]))
  }

  /** The chunk texts of a page. */
  function ChunkTexts(t: string, target: int, overlap: nat): seq<string> {
    PackTexts(SplitSentences(t), target, overlap)
  }

  // ---------------------------------------------------------------------
  // properties of the packing

  /** Every sentence lands in some chunk. */
  lemma {:induction false} PackCovers(sents: seq<string>, target: int, overlap: nat, j: nat)
    requires j < |sents|
    ensures var spans := Pack(sents, target, overlap);
            exists k :: 0 <= k < |spans| && spans[k].lo <= j < spans[k].hi
  {
    var spans := Pack(sents, target, overlap);
    CoveredUpTo(spans, |spans| - 1, overlap, j);
  }

  lemma {:induction false} CoveredUpTo(spans: seq<Span>, k: nat, overlap: nat, j: nat)
    requires k < |spans|
    requires spans[0].lo == 0
    requires Chained(overlap, spans)
    requires j < spans[k].hi
    ensures exists x :: 0 <= x <= k && spans[x].lo <= j < spans[x].hi
    decreases k
  {
    if spans[k].lo > j {
      assert Linked(overlap, spans, k - 1);
      CoveredUpTo(spans, k - 1, overlap, j);
    }
  }

  /** With the source's one-sentence overlap, every chunk after the first
      starts with the last sentence of the chunk before it. */
  lemma OverlapOne(sents: seq<string>, target: int, k: nat)
    requires 0 < k < |Pack(sents, target, 1)|
    ensures var spans := Pack(sents, target, 1);
            spans[k].lo == spans[k - 1].hi - 1
  {
    assert Linked(1, Pack(sents, target, 1), k - 1);
  }

  /** The overlap seen on the chunk texts: the last sentence of chunk `k-1`
      ends that chunk and begins chunk `k`. */
  lemma OverlapOnText(sents: seq<string>, target: int, k: nat)
    requires 0 < k < |Pack(sents, target, 1)|
    ensures var spans := Pack(sents, target, 1);
            var last := sents[spans[k - 1].hi - 1];
            var prev := SpanText(sents, spans[k - 1]);
            var cur := SpanText(sents, spans[k]);
            && StartsWith(cur, last)
            && |last| <= |prev| && prev[|prev| - |last|..] == last
  {
    var spans := Pack(sents, target, 1);
    OverlapOne(sents, target, k);
    JoinEnds(" ", sents[spans[k].lo..spans[k].hi]);
    JoinEnds(" ", sents[spans[k - 1].lo..spans[k - 1].hi]);
  }

  /** A chunk over the token target holds at most its carried seed plus
      one new sentence: the greedy loop never adds a second sentence to an
      over-full chunk. */
  lemma PackSizeBound(sents: seq<string>, target: int, overlap: nat, k: nat)
    requires k < |Pack(sents, target, overlap)|
    ensures var sp := Pack(sents, target, overlap)[k];
            SumTokens(sents, sp.lo, sp.hi) > target ==> sp.hi - sp.lo <= overlap + 1
    ensures var sp := Pack(sents, target, overlap)[k];
            k == 0 && SumTokens(sents, sp.lo, sp.hi) > target ==> sp.hi - sp.lo == 1
  {
  }

  // ---------------------------------------------------------------------
  // properties of the chunk texts of a page

  /** A page yields no chunk exactly when it is all whitespace. */
  lemma ChunksOfBlankPage(t: string, target: int, overlap: nat)
    ensures ChunkTexts(t, target, overlap) == [] <==> AllSpace(t)
  {
    SentencesOfPage(t);
  }

  /** Every chunk is the `" "`-join of a non-empty run of consecutive
      sentences: no sentence is ever cut. */
  lemma ChunkIsSentenceRun(sents: seq<string>, target: int, overlap: nat, k: nat)
    requires k < |PackTexts(sents, target, overlap)|
    ensures exists lo: nat, hi: nat :: lo < hi <= |sents| && PackTexts(sents, target, overlap)[k] == Join(" ", sents[lo..hi])
  {
    var sp := Pack(sents, target, overlap)[k];
    assert PackTexts(sents, target, overlap)[k] == Join(" ", sents[sp.lo..sp.hi]);
  }

  /** Every sentence occurs in some chunk. */
  lemma {:induction false} SentenceInSomeChunk(sents: seq<string>, target: int, overlap: nat, j: nat)
    requires j < |sents|
    ensures var texts := PackTexts(sents, target, overlap);
            exists k :: 0 <= k < |texts| && Contains(texts[k], sents[j])
  {
    var spans := Pack(sents, target, overlap);
    PackCovers(sents, target, overlap, j);
    var k :| 0 <= k < |spans| && spans[k].lo <= j < spans[k].hi;
    var run := sents[spans[k].lo..spans[k].hi];
    JoinContainsElement(" ", run, j - spans[k].lo);
    assert run[j - spans[k].lo] == sents[j];
    assert PackTexts(sents, target, overlap)[k] == Join(" ", run);
  }

  /** With a one-sentence overlap, each chunk after the first starts with
      the sentence that ends the chunk before it. */
  lemma ChunkOverlap(sents: seq<string>, target: int, k: nat)
    requires 0 < k < |PackTexts(sents, target, 1)|
    ensures var texts := PackTexts(sents, target, 1);
            exists j :: 0 <= j < |sents| && StartsWith(texts[k], sents[j])
                        && |sents[j]| <= |texts[k - 1]| && texts[k - 1][|texts[k - 1]| - |sents[j]|..] == sents[j]
  {
    var spans := Pack(sents, target, 1);
    OverlapOnText(sents, target, k);
    assert 0 <= spans[k - 1].hi - 1 < |sents|;
  }
}

=== FILE: strings.dfy ===
/** Python string primitives the core relies on: `str.isspace`, `strip`,
    `split()` word counting, ASCII `lower`, substring search, `join`,
    `replace("\n", " ")`, slicing and decimal rendering of integers. */
module Strings {

  import Outcomes

  /** The characters Python's `str.isspace` accepts; the `\s` class of `re`
      and the argument-less `str.split`/`str.strip` use the same set. */
  predicate IsSpace(c: char) {
    SpaceIn(c, 2)
  }

  /** Whitespace by block: 2 is ASCII, 1 adds Latin-1, 0 adds the rest of
      Unicode.  Written as a recursion over the blocks so that a proof sees
      the non-ASCII ranges only when it asks for them. */
  predicate SpaceIn(c: char, block: nat)
    decreases block
  {
    if block >= 2 then c == ' ' || ('\t' <= c <= '\r') || ('\U{1c}' <= c <= '\U{1f}') || SpaceIn(c, 1)
    else if block == 1 then c == '\U{85}' || c == '\U{a0}' || SpaceIn(c, 0)
    else
      || c == '\U{1680}' || ('\U{2000}' <= c <= '\U{200a}') || c == '\U{2028}' || c == '\U{2029}'
      || c == '\U{202f}' || c == '\U{205f}' || c == '\U{3000}'
  }

  predicate IsDigit(c: char) {
    '0' <= c <= '9'
  }

  predicate IsAsciiLetter(c: char) {
    ('a' <= c <= 'z') || ('A' <= c <= 'Z')
  }

  ghost predicate AllSpace(s: string) {
    forall i :: 0 <= i < |s| ==> IsSpace(s[i])
  }

  ghost predicate AllDigits(s: string) {
    forall i :: 0 <= i < |s| ==> IsDigit(s[i])
  }

  /** `s` has no leading or trailing whitespace, as `str.strip` leaves it. */
  ghost predicate IsStripped(s: string) {
    |s| == 0 || (!IsSpace(s[0]) && !IsSpace(s[|s| - 1]))
  }

  function Min(a: int, b: int): int {
    if a <= b then a else b
  }

  function Max(a: int, b: int): int {
    if a <= b then b else a
  }

  /** Python's `xs[:k]` for a non-negative `k`. */
  function Take<T>(xs: seq<T>, k: nat): (r: seq<T>)
    ensures |r| == Min(k, |xs|)
    ensures r == xs[..|r|]
  {
    xs[..Min(k, |xs|)]
  }

  /** A prefix avoids every element its sequence avoids. */
  lemma TakeAvoids<T>(xs: seq<T>, k: nat, c: T)
    requires forall i :: 0 <= i < |xs| ==> xs[i] != c
    ensures forall i :: 0 <= i < |Take(xs, k)| ==> Take(xs, k)[i] != c
  {
    var r := Take(xs, k);
    forall i | 0 <= i < |r| ensures r[i] != c {
      assert r[i] == xs[i];
    }
  }

  /** Taking at least the whole sequence takes all of it. */
  lemma TakeAll<T>(xs: seq<T>, k: nat)
    requires |xs| <= k
    ensures Take(xs, k) == xs
  {
    assert xs[..|xs|] == xs;
  }

  // ---------------------------------------------------------------------
  // strip

  /** `str.lstrip()`: drops exactly the leading whitespace. */
  function TrimStart(s: string): (r: string)
    ensures |r| <= |s| && r == s[|s| - |r|..]
    ensures AllSpace(s[..|s| - |r|])
    ensures |r| > 0 ==> !IsSpace(r[0])
    decreases |s|
  {
    if |s| > 0 && IsSpace(s[0]) then TrimStart(s[1..]) else s
  }

  /** `str.rstrip()`: drops exactly the trailing whitespace. */
  function TrimEnd(s: string): (r: string)
    ensures |r| <= |s| && r == s[..|r|]
    ensures AllSpace(s[|r|..])
    ensures |r| > 0 ==> !IsSpace(r[|r| - 1])
    decreases |s|
  {
    if |s| > 0 && IsSpace(s[|s| - 1]) then TrimEnd(s[..|s| - 1]) else s
  }

  /** `str.strip()`. */
  function Strip(s: string): (r: string)
    ensures IsStripped(r)
    ensures |r| <= |s|
  {
    TrimEnd(TrimStart(s))
  }

  /** Only whitespace is ever removed by `strip`, so a string strips to the
      empty string exactly when it is all whitespace. */
  lemma StripEmptyIffAllSpace(s: string)
    ensures Strip(s) == [] <==> AllSpace(s)
  {
    var r := Strip(s);
    StripKeepsContent(s);
    NonSpaceEmptyIffAllSpace(s);
    if r != [] {
      assert NonSpace(r) == [r[0]] + NonSpace(r[1..]);
    }
  }

  /** A stripped string is left alone by `strip`. */
  lemma StripStripped(s: string)
    requires IsStripped(s)
    ensures Strip(s) == s
  {
    assert TrimStart(s) == s;
    assert TrimEnd(s) == s;
  }

  // ---------------------------------------------------------------------
  // non-whitespace content

  /** The non-whitespace characters of `s`, in order. */
  function NonSpace(s: string): (r: string)
    ensures |r| <= |s|
    decreases |s|
  {
    if |s| == 0 then []
    else (if IsSpace(s[0]) then [] else [s[0]]) + NonSpace(s[1..])
  }

  lemma {:induction false} NonSpaceAppend(a: string, b: string)
    ensures NonSpace(a + b) == NonSpace(a) + NonSpace(b)
    decreases |a|
  {
    if |a| > 0 {
      var h: string := if IsSpace(a[0]) then [] else [a[0]];
      assert NonSpace(a + b) == h + NonSpace(a[1..] + b) by {
        assert (a + b)[0] == a[0];
        assert (a + b)[1..] == a[1..] + b;
      }
      NonSpaceAppend(a[1..], b);
      AppendAssoc(h, NonSpace(a[1..]), NonSpace(b));
    } else {
      assert a + b == b;
    }
  }

  lemma NonSpaceSlices(t: string, a: nat, b: nat)
    requires a <= b <= |t|
    ensures NonSpace(t[a..]) == NonSpace(t[a..b]) + NonSpace(t[b..])
  {
    assert t[a..] == t[a..b] + t[b..];
    NonSpaceAppend(t[a..b], t[b..]);
  }

  lemma {:induction false} NonSpaceOfAllSpace(s: string)
    requires AllSpace(s)
    ensures NonSpace(s) == []
    decreases |s|
  {
    if |s| > 0 {
      NonSpaceOfAllSpace(s[1..]);
    }
  }

  lemma {:induction false} NonSpaceEmptyIffAllSpace(s: string)
    ensures NonSpace(s) == [] <==> AllSpace(s)
    decreases |s|
  {
    if |s| > 0 {
      NonSpaceEmptyIffAllSpace(s[1..]);
      if AllSpace(s) {
        assert AllSpace(s[1..]) by {
          forall i | 0 <= i < |s| - 1 ensures IsSpace(s[1..][i]) { assert s[1..][i] == s[i + 1]; }
        }
      } else if IsSpace(s[0]) {
        assert !AllSpace(s[1..]) by {
          var k :| 0 <= k < |s| && !IsSpace(s[k]);
          assert s[1..][k - 1] == s[k];
        }
      }
    }
  }

  /** Stripping keeps every non-whitespace character. */
  lemma StripKeepsContent(s: string)
    ensures NonSpace(Strip(s)) == NonSpace(s)
  {
    TrimStartKeepsContent(s);
    TrimEndKeepsContent(TrimStart(s));
  }

  lemma {:induction false} TrimStartKeepsContent(s: string)
    ensures NonSpace(TrimStart(s)) == NonSpace(s)
    decreases |s|
  {
    if |s| > 0 && IsSpace(s[0]) {
      TrimStartKeepsContent(s[1..]);
    }
  }

  lemma {:induction false} TrimEndKeepsContent(s: string)
    ensures NonSpace(TrimEnd(s)) == NonSpace(s)
    decreases |s|
  {
    if |s| > 0 && IsSpace(s[|s| - 1]) {
      var init := s[..|s| - 1];
      TrimEndKeepsContent(init);
      assert s == init + [s[|s| - 1]];
      NonSpaceAppend(init, [s[|s| - 1]]);
      assert NonSpace([s[|s| - 1]]) == [];
    }
  }

  // ---------------------------------------------------------------------
  // greedy character-class runs, as a regular expression scans them

  /** End of the greedy `\s*` run that starts at `i`. */
  function SpaceRunEnd(t: string, i: nat): (j: nat)
    requires i <= |t|
    ensures i <= j <= |t|
    ensures j == |t| || !IsSpace(t[j])
    decreases |t| - i
  {
    if i < |t| && IsSpace(t[i]) then SpaceRunEnd(t, i + 1) else i
  }

  /** Everything the `\s*` run passes over is whitespace. */
  lemma {:induction false} SpaceRunSpaces(t: string, i: nat)
    requires i <= |t|
    ensures forall k :: i <= k < SpaceRunEnd(t, i) ==> IsSpace(t[k])
    decreases |t| - i
  {
    if i < |t| && IsSpace(t[i]) {
      SpaceRunSpaces(t, i + 1);
    }
  }

  /** End of the greedy `\d*` run that starts at `i`. */
  function DigitRunEnd(t: string, i: nat): (j: nat)
    requires i <= |t|
    ensures i <= j <= |t|
    ensures j == |t| || !IsDigit(t[j])
    decreases |t| - i
  {
    if i < |t| && IsDigit(t[i]) then DigitRunEnd(t, i + 1) else i
  }

  /** Everything the `\d*` run passes over is a digit. */
  lemma {:induction false} DigitRunDigits(t: string, i: nat)
    requires i <= |t|
    ensures forall k :: i <= k < DigitRunEnd(t, i) ==> IsDigit(t[k])
    decreases |t| - i
  {
    if i < |t| && IsDigit(t[i]) {
      DigitRunDigits(t, i + 1);
    }
  }

  /** Position of the last `c` in `s` (Python's `s.rfind(c)`, with `None`
      for -1). */
  function LastIndexOf(s: string, c: char): (r: Outcomes.Option<nat>)
    ensures r.Some? ==> r.value < |s| && s[r.value] == c
                        && forall j :: r.value < j < |s| ==> s[j] != c
    ensures r.None? ==> forall j :: 0 <= j < |s| ==> s[j] != c
    decreases |s|
  {
    if |s| == 0 then Outcomes.None
    else if s[|s| - 1] == c then Outcomes.Some(|s| - 1)
    else LastIndexOf(s[..|s| - 1], c)
  }

  /** The concatenation of all strings of `xs`. */
  function Concat(xs: seq<string>): string
    decreases |xs|
  {
    if |xs| == 0 then "" else xs[0] + Concat(xs[1..])
  }

  lemma ConcatCons(x: string, xs: seq<string>)
    ensures Concat([x] + xs) == x + Concat(xs)
  {
    assert ([x] + xs)[1..] == xs;
  }

  lemma {:induction false} ConcatAppend(xs: seq<string>, ys: seq<string>)
    ensures Concat(xs + ys) == Concat(xs) + Concat(ys)
    decreases |xs|
  {
    if |xs| == 0 {
      assert xs + ys == ys;
    } else {
      assert (xs + ys)[1..] == xs[1..] + ys;
      ConcatAppend(xs[1..], ys);
    }
  }

  /** A concatenation split around its `k`-th part. */
  lemma {:induction false} ConcatAround(xs: seq<string>, k: nat)
    requires k < |xs|
    ensures Concat(xs) == Concat(xs[..k]) + xs[k] + Concat(xs[k + 1..])
  {
    var pre, mid, post := xs[..k], xs[k], xs[k + 1..];
    assert Concat(xs) == Concat(pre) + Concat([mid] + post) by {
      assert xs == pre + ([mid] + post);
      ConcatAppend(pre, [mid] + post);
    }
    assert Concat([mid] + post) == mid + Concat(post) by {
      ConcatCons(mid, post);
    }
    AppendAssoc(Concat(pre), mid, Concat(post));
  }

  lemma AppendAssoc(a: string, b: string, c: string)
    ensures a + (b + c) == a + b + c
  {
  }

  // ---------------------------------------------------------------------
  // str.split() word count

  /** A word of `str.split()` starts at `i`. */
  predicate WordStart(s: string, i: nat)
    requires i < |s|
  {
    !IsSpace(s[i]) && (i == 0 || IsSpace(s[i - 1]))
  }

  /** `len(s.split())`: the number of maximal non-whitespace runs. */
  function WordCount(s: string): (n: nat)
    ensures n <= |s|
    decreases |s|
  {
    if |s| == 0 then 0
    else WordCount(s[..|s| - 1]) + (if WordStart(s, |s| - 1) then 1 else 0)
  }

  /** A word of `str.split()`: a non-empty run without whitespace. */
  ghost predicate IsWord(w: string) {
    |w| > 0 && forall i :: 0 <= i < |w| ==> !IsSpace(w[i])
  }

  /** `s.split()` is empty exactly when `s` is blank. */
  lemma {:induction false} WordCountZeroIffBlank(s: string)
    ensures WordCount(s) == 0 <==> AllSpace(s)
    decreases |s|
  {
    if |s| > 0 {
      var p := s[..|s| - 1];
      WordCountZeroIffBlank(p);
      if AllSpace(s) {
        assert AllSpace(p) by {
          forall i | 0 <= i < |p| ensures IsSpace(p[i]) { assert p[i] == s[i]; }
        }
      } else if IsSpace(s[|s| - 1]) {
        assert !AllSpace(p) by {
          var k :| 0 <= k < |s| && !IsSpace(s[k]);
          assert p[k] == s[k];
        }
      } else if !WordStart(s, |s| - 1) {
        assert !IsSpace(p[|p| - 1]);
      }
    }
  }

  /** A single word counts once. */
  lemma {:induction false} OneWord(w: string)
    requires IsWord(w)
    ensures WordCount(w) == 1
    decreases |w|
  {
    if |w| > 1 {
      var p := w[..|w| - 1];
      assert IsWord(p) by {
        forall i | 0 <= i < |p| ensures !IsSpace(p[i]) { assert p[i] == w[i]; }
      }
      OneWord(p);
      assert !WordStart(w, |w| - 1);
    }
  }

  /** A whitespace character separates the words on its two sides. */
  lemma {:induction false} WordCountJoin(a: string, c: char, b: string)
    requires IsSpace(c)
    ensures WordCount(a + [c] + b) == WordCount(a) + WordCount(b)
    decreases |b|
  {
    var s := a + [c] + b;
    if |b| == 0 {
      assert s[..|s| - 1] == a;
    } else {
      var q := b[..|b| - 1];
      assert s[..|s| - 1] == a + [c] + q;
      WordCountJoin(a, c, q);
      assert s[|s| - 1] == b[|b| - 1];
      if |b| > 1 {
        assert s[|s| - 2] == b[|b| - 2];
      } else {
        assert s[|s| - 2] == c;
      }
      assert WordStart(s, |s| - 1) == WordStart(b, |b| - 1);
    }
  }

  /** `len(" ".join(ws).split()) == len(ws)` for words `ws`: the count is
      the number of maximal non-whitespace runs. */
  lemma {:induction false} WordCountOfWords(ws: seq<string>)
    requires forall k :: 0 <= k < |ws| ==> IsWord(ws[k])
    ensures WordCount(Join(" ", ws)) == |ws|
    decreases |ws|
  {
    if |ws| == 1 {
      OneWord(ws[0]);
    } else if |ws| > 1 {
      var rest := Join(" ", ws[1..]);
      WordCountOfWords(ws[1..]);
      OneWord(ws[0]);
      assert ws[0] + " " + rest == ws[0] + [' '] + rest;
      WordCountJoin(ws[0], ' ', rest);
    }
  }

  // ---------------------------------------------------------------------
  // lower

  /** ASCII case mapping; see README for the Unicode mapping left out. */
  function LowerChar(c: char): char {
    if 'A' <= c <= 'Z' then (c as int + 32) as char else c
  }

  function Lower(s: string): (r: string)
    ensures |r| == |s|
    ensures forall i :: 0 <= i < |s| ==> r[i] == LowerChar(s[i])
  {
    seq(|s|, i requires 0 <= i < |s| => LowerChar(s[i]))
  }

  /** Lower-casing twice is lower-casing once. */
  lemma LowerIdempotent(s: string)
    ensures Lower(Lower(s)) == Lower(s)
  {
  }

  /** Lower-casing leaves a string without capitals unchanged. */
  lemma LowerOfLowercase(s: string)
    requires forall i :: 0 <= i < |s| ==> !('A' <= s[i] <= 'Z')
    ensures Lower(s) == s
  {
  }

  lemma LowerAppend(a: string, b: string)
    ensures Lower(a + b) == Lower(a) + Lower(b)
  {
    assert forall i :: 0 <= i < |a + b| ==> Lower(a + b)[i] == (Lower(a) + Lower(b))[i];
  }

  // ---------------------------------------------------------------------
  // substring search

  predicate StartsWith(s: string, p: string) {
    |p| <= |s| && s[..|p|] == p
  }

  /** Python's `s.endswith(p)`. */
  predicate EndsWith(s: string, p: string) {
    |p| <= |s| && s[|s| - |p|..] == p
  }

  /** Python's `k in s`. */
  predicate Contains(s: string, k: string)
    decreases |s|
  {
    StartsWith(s, k) || (|s| > 0 && Contains(s[1..], k))
  }

  /** `Contains` agrees with the positional definition of an occurrence. */
  lemma {:induction false} ContainsIffOccurs(s: string, k: string)
    ensures Contains(s, k) <==> exists i :: 0 <= i <= |s| && StartsWith(s[i..], k)
    decreases |s|
  {
    if |s| > 0 {
      ContainsIffOccurs(s[1..], k);
      if exists i :: 0 <= i <= |s| && StartsWith(s[i..], k) {
        var i :| 0 <= i <= |s| && StartsWith(s[i..], k);
        if i > 0 { assert s[1..][i - 1..] == s[i..]; }
      }
      if Contains(s[1..], k) {
        var i :| 0 <= i <= |s| - 1 && StartsWith(s[1..][i..], k);
        assert s[1..][i..] == s[i + 1..];
        assert StartsWith(s[i + 1..], k);
      }
      if StartsWith(s, k) {
        assert s[0..] == s;
      }
    } else {
      assert s[0..] == s;
    }
  }

  /** A needle holding a character outside the haystack's alphabet does
      not occur in it. */
  lemma MissingCharNotContained(s: string, alphabet: set<char>, k: string, j: nat)
    requires forall i :: 0 <= i < |s| ==> s[i] in alphabet
    requires j < |k| && k[j] !in alphabet
    ensures !Contains(s, k)
  {
    ContainsIffOccurs(s, k);
    forall i | 0 <= i <= |s| ensures !StartsWith(s[i..], k) {
      if i + j < |s| { assert s[i..][j] == s[i + j]; }
    }
  }

  /** Whatever contains `k + m` contains `k`: the root of both "bnss"
      quirks of the corpus rules. */
  lemma {:induction false} ContainsPrefixOfNeedle(s: string, k: string, m: string)
    requires Contains(s, k + m)
    ensures Contains(s, k)
    decreases |s|
  {
    if StartsWith(s, k + m) {
      assert s[..|k|] == (k + m)[..|k|] == k;
    } else {
      ContainsPrefixOfNeedle(s[1..], k, m);
    }
  }

  lemma {:induction false} ContainsInLeft(a: string, b: string, k: string)
    requires Contains(a, k)
    ensures Contains(a + b, k)
    decreases |a|
  {
    if StartsWith(a, k) {
      assert (a + b)[..|k|] == a[..|k|];
    } else {
      assert (a + b)[1..] == a[1..] + b;
      ContainsInLeft(a[1..], b, k);
    }
  }

  lemma {:induction false} ContainsInRight(a: string, b: string, k: string)
    requires Contains(b, k)
    ensures Contains(a + b, k)
    decreases |a|
  {
    if |a| == 0 {
      assert a + b == b;
    } else {
      assert (a + b)[1..] == a[1..] + b;
      ContainsInRight(a[1..], b, k);
    }
  }

  // ---------------------------------------------------------------------
  // join, replace

  /** Python's `sep.join(xs)`. */
  function Join(sep: string, xs: seq<string>): string
    decreases |xs|
  {
    if |xs| == 0 then ""
    else if |xs| == 1 then xs[0]
    else xs[0] + sep + Join(sep, xs[1..])
  }

  /** A join starts with its first element and ends with its last. */
  lemma {:induction false} JoinEnds(sep: string, xs: seq<string>)
    requires |xs| > 0
    ensures StartsWith(Join(sep, xs), xs[0])
    ensures |xs[|xs| - 1]| <= |Join(sep, xs)|
    ensures Join(sep, xs)[|Join(sep, xs)| - |xs[|xs| - 1]|..] == xs[|xs| - 1]
    decreases |xs|
  {
    var j := Join(sep, xs);
    if |xs| > 1 {
      JoinEnds(sep, xs[1..]);
      var tail := Join(sep, xs[1..]);
      assert j == (xs[0] + sep) + tail;
      assert j[..|xs[0]|] == xs[0];
      assert j[|j| - |tail|..] == tail;
      assert xs[1..][|xs[1..]| - 1] == xs[|xs| - 1];
    }
  }

  /** Every element of a join occurs in it. */
  lemma {:induction false} JoinContainsElement(sep: string, xs: seq<string>, k: nat)
    requires k < |xs|
    ensures Contains(Join(sep, xs), xs[k])
    decreases |xs|
  {
    if |xs| == 1 || k == 0 {
      JoinEnds(sep, xs);
      ContainsIffOccurs(Join(sep, xs), xs[k]);
      assert Join(sep, xs)[0..] == Join(sep, xs);
    } else {
      JoinContainsElement(sep, xs[1..], k - 1);
      ContainsInRight(xs[0] + sep, Join(sep, xs[1..]), xs[k]);
    }
  }

  /** `s.replace("\n", " ")`. */
  function ReplaceNewlines(s: string): (r: string)
    ensures |r| == |s|
    ensures forall i :: 0 <= i < |s| ==> r[i] == (if s[i] == '\n' then ' ' else s[i])
    ensures forall i :: 0 <= i < |r| ==> r[i] != '\n'
  {
    seq(|s|, i requires 0 <= i < |s| => if s[i] == '\n' then ' ' else s[i])
  }

  /** `s.strip().replace("\n", " ")`, the normal form of displayed text. */
  function Normalize(s: string): (r: string)
    ensures forall i :: 0 <= i < |r| ==> r[i] != '\n'
    ensures IsStripped(r)
    ensures NonSpace(r) == NonSpace(s)
  {
    var t := Strip(s);
    NormalizeFacts(t);
    StripKeepsContent(s);
    ReplaceNewlines(t)
  }

  lemma NormalizeFacts(t: string)
    requires IsStripped(t)
    ensures IsStripped(ReplaceNewlines(t))
    ensures NonSpace(ReplaceNewlines(t)) == NonSpace(t)
  {
    NonSpaceReplace(t);
    if |t| > 0 {
      assert ReplaceNewlines(t)[0] == t[0];
      assert ReplaceNewlines(t)[|t| - 1] == t[|t| - 1];
    }
  }

  lemma {:induction false} NonSpaceReplace(s: string)
    ensures NonSpace(ReplaceNewlines(s)) == NonSpace(s)
    decreases |s|
  {
    if |s| > 0 {
      assert ReplaceNewlines(s)[1..] == ReplaceNewlines(s[1..]);
      NonSpaceReplace(s[1..]);
    }
  }

  /** Normalizing twice changes nothing. */
  lemma NormalizeIdempotent(s: string)
    ensures Normalize(Normalize(s)) == Normalize(s)
  {
    var r := Normalize(s);
    StripStripped(r);
    assert ReplaceNewlines(r) == r;
  }

  // ---------------------------------------------------------------------
  // decimal numbers

  function DigitChar(d: nat): (c: char)
    requires d < 10
    ensures IsDigit(c)
  {
    (48 + d) as char
  }

  function DigitValue(c: char): nat
    requires IsDigit(c)
  {
    c as int - 48
  }

  /** Python's `str(n)` for `n >= 0`: canonical decimal, no leading zero. */
  function NatToDecimal(n: nat): (r: string)
    ensures |r| >= 1 && AllDigits(r)
    ensures |r| > 1 ==> r[0] != '0'
    decreases n
  {
    if n < 10 then [DigitChar(n)] else NatToDecimal(n / 10) + [DigitChar(n % 10)]
  }

  /** The value of a string of decimal digits. */
  function DecimalValue(s: string): nat
    requires AllDigits(s)
    decreases |s|
  {
    if |s| == 0 then 0 else DecimalValue(s[..|s| - 1]) * 10 + DigitValue(s[|s| - 1])
  }

  lemma {:induction false} DecimalRoundTrip(n: nat)
    ensures DecimalValue(NatToDecimal(n)) == n
    decreases n
  {
    if n >= 10 {
      var s := NatToDecimal(n);
      assert s[..|s| - 1] == NatToDecimal(n / 10);
      DecimalRoundTrip(n / 10);
    }
  }

  /** Leading zeros do not change a decimal value. */
  lemma {:induction false} LeadingZeroValue(s: string)
    requires AllDigits(s)
    ensures DecimalValue(['0'] + s) == DecimalValue(s)
    decreases |s|
  {
    if |s| > 0 {
      assert (['0'] + s)[..|s|] == ['0'] + s[..|s| - 1];
      LeadingZeroValue(s[..|s| - 1]);
    }
  }

  /** Python's `str(i)` for any integer. */
  function IntToDecimal(i: int): (r: string)
    ensures |r| >= 1
  {
    if i < 0 then "-" + NatToDecimal(-i) else NatToDecimal(i)
  }

  /** Parses what `IntToDecimal` produces: an optional minus sign and at
      least one digit. */
  function ParseInt(s: string): (r: Outcomes.Option<int>)
  {
    if |s| > 1 && s[0] == '-' && AllDigitsCheck(s[1..]) then Outcomes.Some(0 - DecimalValue(s[1..]) as int)
    else if |s| > 0 && AllDigitsCheck(s) then Outcomes.Some(DecimalValue(s))
    else Outcomes.None
  }

  predicate AllDigitsCheck(s: string)
    ensures AllDigitsCheck(s) <==> AllDigits(s)
  {
    forall i | 0 <= i < |s| :: IsDigit(s[i])
  }

  lemma IntRoundTrip(i: int)
    ensures ParseInt(IntToDecimal(i)) == Outcomes.Some(i)
  {
    if i < 0 {
      var d := NatToDecimal(-i);
      assert ("-" + d)[1..] == d;
      assert AllDigitsCheck(d) && DecimalValue(d) == -i by { DecimalRoundTrip(-i); }
    } else {
      var d := NatToDecimal(i);
      assert d[0] != '-';
      assert AllDigitsCheck(d) && DecimalValue(d) == i by { DecimalRoundTrip(i); }
    }
  }

  /** Python's `f"{n:0Wd}"` for `n >= 0`: decimal, left-padded with zeros to
      at least `w` characters. */
  function ZeroPad(n: nat, w: nat): (r: string)
    ensures AllDigits(r)
    ensures |r| == Max(w, |NatToDecimal(n)|)
    ensures DecimalValue(r) == n
    decreases w
  {
    var d := NatToDecimal(n);
    if |d| >= w then
      DecimalRoundTrip(n);
      d
    else
      var r := ['0'] + ZeroPad(n, w - 1);
      LeadingZeroValue(ZeroPad(n, w - 1));
      r
  }
}

=== FILE: ui.dfy ===
/** The pure helpers of the Streamlit front end: marking `[n]` references
    as superscripts, styling the question, the submit guard, trimming a
    citation for display, and the answer history. */
module Ui {

  import opened Outcomes
  import opened Strings
  import opened Schemas
  import Query

  // ---------------------------------------------------------------------
  // superscript_markers

  /** A scanned piece of an answer: one character left as it is, or a
      `[digits]` reference. */
  datatype Piece = Plain(c: char) | Marker(digits: string)

  /** The text a piece was scanned from. */
  function Source(p: Piece): string {
    match p
    case Plain(c) => [c]
    case Marker(d) => "[" + d + "]"
  }

  /** What a piece becomes: a reference is wrapped in `<sup>`. */
  function Shown(p: Piece): string {
    match p
    case Plain(c) => [c]
    case Marker(d) => "<sup>[" + d + "]</sup>"
  }

  function Sources(ps: seq<Piece>): string {
    if ps == [] then "" else Source(ps[0]) + Sources(ps[1..])
  }

  function Render(ps: seq<Piece>): string {
    if ps == [] then "" else Shown(ps[0]) + Render(ps[1..])
  }

  /** The scan `re.sub(r"\[(\d+)\]", ...)` makes, left to right without
      overlaps: a `[` followed by one or more digits and a `]` is a
      reference; every other character stays plain. A digit run can only
      end at its last digit, so no backtracking is needed. */
  function Scan(s: string): (r: seq<Piece>)
    ensures forall k :: 0 <= k < |r| && r[k].Marker? ==> |r[k].digits| > 0 && AllDigits(r[k].digits)
    decreases |s|
  {
    if s == [] then []
    else if s[0] == '[' && MarkerEnd(s) < |s| && s[MarkerEnd(s)] == ']' && MarkerEnd(s) > 1 then
      [Marker(s[1..MarkerEnd(s)])] + Scan(s[MarkerEnd(s) + 1..])
    else
      [Plain(s[0])] + Scan(s[1..])
  }

  /** Where the digit run after a leading `[` ends. */
  function MarkerEnd(s: string): (j: nat)
    requires |s| > 0
    ensures 1 <= j <= |s| && AllDigits(s[1..j])
    ensures j == |s| || !IsDigit(s[j])
  {
    DigitRunDigits(s, 1);
    DigitRunEnd(s, 1)
  }

  /** `superscript_markers(text)`; `None` and `""` both give `""`. */
  function SuperscriptMarkers(text: Option<string>): (r: string)
    ensures text.None? ==> r == ""
  {
    Render(Scan(text.GetOr("")))
  }

  /** The scan loses nothing: the pieces put back together are the text. */
  lemma {:induction false} ScanLossless(s: string)
    ensures Sources(Scan(s)) == s
    decreases |s|
  {
    if s != [] {
      var ps := Scan(s);
      var j := MarkerEnd(s);
      if s[0] == '[' && j < |s| && s[j] == ']' && j > 1 {
        var rest := s[j + 1..];
        assert Sources(ps) == "[" + s[1..j] + "]" + Sources(Scan(rest)) by {
          assert ps == [Marker(s[1..j])] + Scan(rest);
          SourcesCons(Marker(s[1..j]), Scan(rest));
        }
        ScanLossless(rest);
        Reassemble(s, j);
      } else {
        assert Sources(ps) == [s[0]] + Sources(Scan(s[1..])) by {
          assert ps == [Plain(s[0])] + Scan(s[1..]);
          SourcesCons(Plain(s[0]), Scan(s[1..]));
        }
        ScanLossless(s[1..]);
        assert s == [s[0]] + s[1..];
      }
    }
  }

  lemma SourcesCons(p: Piece, ps: seq<Piece>)
    ensures Sources([p] + ps) == Source(p) + Sources(ps)
  {
    assert ([p] + ps)[1..] == ps;
  }

  lemma Reassemble(s: string, j: nat)
    requires 1 <= j < |s| && s[0] == '[' && s[j] == ']'
    ensures "[" + s[1..j] + "]" + s[j + 1..] == s
  {
    assert s == s[..1] + s[1..j] + s[j..j + 1] + s[j + 1..];
  }

  /** A `[digits]` reference occupies `s[i..j + 1]`. */
  ghost predicate RefAt(s: string, i: nat, j: nat) {
    i + 1 < j < |s| && s[i] == '[' && AllDigits(s[i + 1..j]) && s[j] == ']'
  }

  /** The text holds a `[digits]` reference somewhere. */
  ghost predicate HasRef(s: string) {
    exists i: nat, j: nat :: RefAt(s, i, j)
  }

  /** The digit run of a reference at the front ends at its `]`. */
  lemma MarkerEndAtBracket(s: string, j: nat)
    requires RefAt(s, 0, j)
    ensures MarkerEnd(s) == j
  {
  }

  /** A reference at the front is scanned as one marker, whatever
      follows it. */
  lemma ScanRef(d: string, rest: string)
    requires |d| > 0 && AllDigits(d)
    ensures Scan("[" + d + "]" + rest) == [Marker(d)] + Scan(rest)
  {
    var s := "[" + d + "]" + rest;
    var j := |d| + 1;
    assert s[1..j] == d;
    assert s[j] == ']';
    MarkerEndAtBracket(s, j);
    assert s[j + 1..] == rest;
  }

  /** `re.sub` wraps a reference at the front and carries on after it. */
  lemma SuperscriptRef(d: string, rest: string)
    requires |d| > 0 && AllDigits(d)
    ensures SuperscriptMarkers(Some("[" + d + "]" + rest))
            == "<sup>[" + d + "]</sup>" + SuperscriptMarkers(Some(rest))
  {
    ScanRef(d, rest);
    var ps := [Marker(d)] + Scan(rest);
    assert ps[1..] == Scan(rest);
  }

  /** A character that does not open a reference is copied, and the
      substitution carries on after it. With `SuperscriptRef` this fixes
      the result on every text. */
  lemma SuperscriptPlain(s: string)
    requires s != [] && forall j: nat :: !RefAt(s, 0, j)
    ensures SuperscriptMarkers(Some(s)) == [s[0]] + SuperscriptMarkers(Some(s[1..]))
  {
    assert !RefAt(s, 0, MarkerEnd(s));
    var ps := Scan(s);
    assert ps == [Plain(s[0])] + Scan(s[1..]);
    assert ps[1..] == Scan(s[1..]);
  }

  /** A reference after the first character is one of the rest. */
  lemma RefInTail(s: string, i: nat, k: nat)
    requires RefAt(s, i, k) && i > 0
    ensures RefAt(s[1..], i - 1, k - 1)
  {
    assert s[1..][i..k - 1] == s[i + 1..k];
  }

  /** A reference of the rest is one of the whole text, one further on. */
  lemma RefOfTail(s: string, i: nat, k: nat)
    requires s != [] && RefAt(s[1..], i, k)
    ensures RefAt(s, i + 1, k + 1)
  {
    var d := s[1..][i + 1..k];
    var e := s[i + 2..k + 1];
    forall m | 0 <= m < |e| ensures IsDigit(e[m]) {
      assert e[m] == d[m];
    }
  }

  /** When the text does not open with a reference, it holds one exactly
      when the rest does. */
  lemma HasRefPlain(s: string)
    requires s != [] && forall j: nat :: !RefAt(s, 0, j)
    ensures HasRef(s) <==> HasRef(s[1..])
  {
    if HasRef(s) {
      var i: nat, k: nat :| RefAt(s, i, k);
      RefInTail(s, i, k);
    }
    if HasRef(s[1..]) {
      var i: nat, k: nat :| RefAt(s[1..], i, k);
      RefOfTail(s, i, k);
    }
  }

  /** The scan finds a reference exactly when the text holds one. */
  lemma {:induction false} MarkersIffRefs(s: string)
    ensures MarkerCount(Scan(s)) > 0 <==> HasRef(s)
    decreases |s|
  {
    if s != [] {
      var j := MarkerEnd(s);
      if s[0] == '[' && j < |s| && s[j] == ']' && j > 1 {
        assert RefAt(s, 0, j);
        assert Scan(s)[0].Marker?;
      } else {
        var t := s[1..];
        MarkersIffRefs(t);
        assert MarkerCount(Scan(s)) == MarkerCount(Scan(t)) by {
          assert Scan(s)[1..] == Scan(t);
        }
        assert forall k: nat :: !RefAt(s, 0, k) by {
          forall k: nat | RefAt(s, 0, k) ensures false {
            MarkerEndAtBracket(s, k);
          }
        }
        HasRefPlain(s);
      }
    }
  }

  /** How many references the pieces hold. */
  function MarkerCount(ps: seq<Piece>): nat {
    if ps == [] then 0 else (if ps[0].Marker? then 1 else 0) + MarkerCount(ps[1..])
  }

  /** Rendering grows the text by the tags around each reference and by
      nothing else. */
  lemma {:induction false} RenderLength(ps: seq<Piece>)
    ensures |Render(ps)| == |Sources(ps)| + 11 * MarkerCount(ps)
    decreases |ps|
  {
    if ps != [] {
      RenderLength(ps[1..]);
    }
  }

  /** Plain pieces render as the text they came from. */
  lemma {:induction false} RenderPlain(ps: seq<Piece>)
    requires MarkerCount(ps) == 0
    ensures Render(ps) == Sources(ps)
    decreases |ps|
  {
    if ps != [] {
      RenderPlain(ps[1..]);
    }
  }

  /** The answer is shown unchanged exactly when it holds no `[digits]`
      reference. */
  lemma UnchangedIffNoMarker(s: string)
    ensures SuperscriptMarkers(Some(s)) == s <==> MarkerCount(Scan(s)) == 0
    ensures SuperscriptMarkers(Some(s)) == s <==> !HasRef(s)
  {
    MarkersIffRefs(s);
    ScanLossless(s);
    RenderLength(Scan(s));
    if MarkerCount(Scan(s)) == 0 {
      RenderPlain(Scan(s));
    }
  }

  /** Text without a `[` is shown unchanged. */
  lemma {:induction false} NoBracketUnchanged(s: string)
    requires forall i :: 0 <= i < |s| ==> s[i] != '['
    ensures SuperscriptMarkers(Some(s)) == s
    decreases |s|
  {
    if s != [] {
      NoBracketUnchanged(s[1..]);
      assert Scan(s) == [Plain(s[0])] + Scan(s[1..]);
      assert s == [s[0]] + s[1..];
    }
  }

  /** Each reference in the answer is wrapped, and so is a reference that
      follows another directly: `[1][2]` becomes
      `<sup>[1]</sup><sup>[2]</sup>`. */
  lemma AdjacentMarkers(d1: char, d2: char)
    requires IsDigit(d1) && IsDigit(d2)
    ensures SuperscriptMarkers(Some(['[', d1, ']', '[', d2, ']']))
            == "<sup>[" + [d1] + "]</sup>" + "<sup>[" + [d2] + "]</sup>"
  {
    ScanTwo(d1, d2);
    RenderTwo(Marker([d1]), Marker([d2]));
  }

  lemma ScanTwo(d1: char, d2: char)
    requires IsDigit(d1) && IsDigit(d2)
    ensures Scan(['[', d1, ']', '[', d2, ']']) == [Marker([d1]), Marker([d2])]
  {
    var second: string := ['[', d2, ']'];
    assert Scan(second) == [Marker([d2])] by {
      ScanRef([d2], "");
      assert second == "[" + [d2] + "]" + "";
    }
    ScanRef([d1], second);
    assert ['[', d1, ']', '[', d2, ']'] == "[" + [d1] + "]" + second;
  }

  lemma RenderTwo(p: Piece, q: Piece)
    ensures Render([p, q]) == Shown(p) + Shown(q)
  {
    assert [p, q][1..] == [q];
    assert Render([q]) == Shown(q) + Render([]);
  }

  /** Brackets around something other than digits, and empty brackets,
      are left alone. */
  lemma NonNumericUnchanged()
    ensures SuperscriptMarkers(Some("[]")) == "[]"
    ensures SuperscriptMarkers(Some("[a]")) == "[a]"
  {
    var e := "[]";
    assert MarkerEnd(e) == 1;
    assert e[1..] == "]";
    assert Scan("]") == [Plain(']')] by { assert "]"[1..] == []; }
    var a := "[a]";
    assert MarkerEnd(a) == 1;
    assert a[1..] == "a]";
    assert Scan("a]") == [Plain('a'), Plain(']')] by {
      assert "a]"[1..] == "]";
      assert "]"[1..] == [];
    }
  }

  // ---------------------------------------------------------------------
  // build_query and the submit guard

  const ConciseHint: string := " (Respond concisely.)"
  const DetailedHint: string := " (Provide a detailed, step-by-step explanation.)"

  /** The hint for an answer style: only `"Summary"` asks for brevity. */
  function Hint(style: string): (r: string)
    ensures r == ConciseHint <==> style == "Summary"
    ensures style != "Summary" ==> r == DetailedHint
  {
    if style == "Summary" then ConciseHint else DetailedHint
  }

  /** `build_query(original, style)`. */
  function BuildQuery(original: string, style: string): (r: string)
    ensures |r| == |Strip(original)| + |Hint(style)|
    ensures r[..|Strip(original)|] == Strip(original)
    ensures r[|Strip(original)|..] == Hint(style)
  {
    Strip(original) + Hint(style)
  }

  /** What the backend makes of a styled question: the question stripped
      before styling survives its own strip and is never empty, so it is
      answered rather than refused as empty. */
  lemma StyledQueryReachesBackend(original: string, style: string)
    requires Strip(original) != ""
    ensures var q := BuildQuery(original, style);
            Query.QueryText(map["query" := JStr(q)]) == Ok(q) && q != ""
  {
    var a := Strip(original);
    var h := Hint(style);
    HintClosed(style);
    var q := a + h;
    assert Strip(q) == q by {
      StrippedAppend(a, h);
      StripStripped(q);
    }
    assert BuildQuery(original, style) == q;
    var body := map["query" := JStr(q)];
    assert Query.QueryText(body) == Ok(Strip(q)) by {
      assert "query" in body && body["query"] == JStr(q);
    }
  }

  /** Either hint ends in `)`, so it is never whitespace at the end. */
  lemma HintClosed(style: string)
    ensures |Hint(style)| > 0 && !IsSpace(Hint(style)[|Hint(style)| - 1])
  {
    var h := Hint(style);
    assert h[|h| - 1] == ')';
  }

  lemma StrippedAppend(a: string, h: string)
    requires IsStripped(a) && a != []
    requires |h| > 0 && !IsSpace(h[|h| - 1])
    ensures IsStripped(a + h)
  {
    assert (a + h)[0] == a[0];
    assert (a + h)[|a + h| - 1] == h[|h| - 1];
  }

  /** What the backend reply carries: a status and a body, when the body
      parses as JSON; or nothing, when the request itself failed. */
  datatype BackendReply = RequestFailed | Replied(status: int, body: Option<Json>)

  /** One answer in the history. */
  datatype Entry = Entry(query: string, style: string, data: Json, latencyMs: int)

  /** Newest first. */
  type History = seq<Entry>

  /** The outcome of pressing "Ask": the question sent, if any, and the
      history after the reply. */
  datatype Submitted = Submitted(sent: Option<string>, history: History)

  /** Python truth of a parsed JSON value. */
  predicate Truthy(j: Json) {
    match j
    case JNull => false
    case JBool(b) => b
    case JInt(i) => i != 0
    case JNum(x) => x != 0.0
    case JStr(s) => s != ""
    case JArr(items) => items != []
    case JObj(fields) => fields != map[]
  }

  /** The submit handler, with `backend` for the HTTP call: a blank
      question is refused before anything is sent, and an answer is kept
      only when the reply is a 200 with a non-empty JSON body. */
  function Submit(h: History, userQuery: string, style: string, backend: string -> BackendReply, latencyMs: int)
    : (r: Submitted)
    ensures r.sent.None? <==> AllSpace(userQuery)
    ensures r.sent.Some? ==> r.sent.value == BuildQuery(userQuery, style)
    ensures r.sent.None? ==> r.history == h
    ensures r.history != h ==>
              && r.sent.Some?
              && var reply := backend(r.sent.value);
              && reply.Replied? && reply.status == 200 && reply.body.Some? && Truthy(reply.body.value)
              && r.history == [Entry(Strip(userQuery), style, reply.body.value, latencyMs)] + h
  {
    StripEmptyIffAllSpace(userQuery);
    if Strip(userQuery) == "" then Submitted(None, h)
    else
      var q := BuildQuery(userQuery, style);
      match backend(q)
      case Replied(200, Some(data)) =>
        if Truthy(data) then Submitted(Some(q), [Entry(Strip(userQuery), style, data, latencyMs)] + h)
        else Submitted(Some(q), h)
      case _ => Submitted(Some(q), h)
  }

  /** A kept answer is recorded exactly when the reply qualifies. */
  lemma SubmitKeepsAnswer(h: History, userQuery: string, style: string, backend: string -> BackendReply, latencyMs: int)
    requires !AllSpace(userQuery)
    requires var reply := backend(BuildQuery(userQuery, style));
             reply.Replied? && reply.status == 200 && reply.body.Some? && Truthy(reply.body.value)
    ensures Latest(Submit(h, userQuery, style, backend, latencyMs).history).Some?
    ensures Latest(Submit(h, userQuery, style, backend, latencyMs).history).value.data
            == backend(BuildQuery(userQuery, style)).body.value
    ensures Submit(h, userQuery, style, backend, latencyMs).history[1..] == h
  {
    StripEmptyIffAllSpace(userQuery);
  }

  // ---------------------------------------------------------------------
  // the history view

  /** The card at the top: the newest answer. */
  function Latest(h: History): (r: Option<Entry>)
    ensures r.Some? <==> h != []
    ensures r.Some? ==> r.value == h[0]
  {
    if h == [] then None else Some(h[0])
  }

  /** `history[1:5]`, listed when there is more than one answer. */
  function Older(h: History): (r: seq<Entry>)
    ensures |h| > 1 ==> |r| == Min(4, |h| - 1)
    ensures |h| <= 1 ==> r == []
    ensures forall k :: 0 <= k < |r| ==> r[k] == h[k + 1]
  {
    if |h| > 1 then h[1..Min(5, |h|)] else []
  }

  /** After a new answer, the list shows the four answers that were
      newest before it, newest first. */
  lemma OlderAfterAnswer(h: History, e: Entry)
    ensures Latest([e] + h) == Some(e)
    ensures Older([e] + h) == Take(h, 4)
  {
    var r := Older([e] + h);
    if |h| > 0 {
      assert |r| == |Take(h, 4)|;
      forall k | 0 <= k < |r| ensures r[k] == Take(h, 4)[k] {
        assert ([e] + h)[k + 1] == h[k];
      }
    }
  }

  // ---------------------------------------------------------------------
  // citation display

  const DisplayLimit: nat := 600
  const Ellipsis: string := "\U{2026}"

  /** `(c.get("snippet") or "").strip().replace("\n", " ")`, then cut. */
  function DisplaySnippet(snippet: Option<string>): string {
    Cut(Normalize(snippet.GetOr("")))
  }

  /** Text longer than 600 characters becomes its first 600 characters
      and an ellipsis; shorter text is kept whole. */
  function Cut(n: string): (r: string)
    ensures |r| <= DisplayLimit + 1
    ensures |n| > DisplayLimit <==> |r| == DisplayLimit + 1
    ensures StartsWith(r, Take(n, DisplayLimit))
  {
    if |n| > DisplayLimit then n[..DisplayLimit] + Ellipsis else n
  }

  /** Short text is kept whole; long text keeps its head and ends in the
      ellipsis. */
  lemma CutKeepsHead(n: string)
    ensures |n| <= DisplayLimit ==> Cut(n) == n
    ensures |n| > DisplayLimit ==> Cut(n)[..DisplayLimit] == n[..DisplayLimit] && Cut(n)[DisplayLimit..] == Ellipsis
  {
  }

  /** The displayed text is on one line. */
  lemma DisplayOneLine(snippet: Option<string>)
    ensures forall i :: 0 <= i < |DisplaySnippet(snippet)| ==> DisplaySnippet(snippet)[i] != '\n'
  {
    CutOneLine(Normalize(snippet.GetOr("")));
  }

  lemma CutOneLine(n: string)
    requires forall i :: 0 <= i < |n| ==> n[i] != '\n'
    ensures forall i :: 0 <= i < |Cut(n)| ==> Cut(n)[i] != '\n'
  {
    assert forall i :: 0 <= i < |Ellipsis| ==> Ellipsis[i] != '\n';
  }

  /** A snippet that is already stripped, on one line and short enough is
      displayed as it is. */
  lemma DisplayOfCleanSnippet(s: string)
    requires IsStripped(s) && |s| <= DisplayLimit
    requires forall i :: 0 <= i < |s| ==> s[i] != '\n'
    ensures DisplaySnippet(Some(s)) == s
  {
    StripStripped(s);
    assert ReplaceNewlines(s) == s;
  }

  /** Displaying loses no words of a short snippet; a long one shows the
      first 600 characters of its normal form and an ellipsis. */
  lemma DisplayKeepsContent(snippet: string)
    ensures |Normalize(snippet)| <= DisplayLimit ==> NonSpace(DisplaySnippet(Some(snippet))) == NonSpace(snippet)
    ensures |Normalize(snippet)| > DisplayLimit ==>
              DisplaySnippet(Some(snippet)) == Normalize(snippet)[..DisplayLimit] + Ellipsis
  {
  }
}
